=== FILE: README.md ===
# exerfily in Dafny

A Dafny model of the logic at the core of exerfily, a workout planner. An
Express back end serves an exercise catalogue, and a React client keeps
workouts, favourites, custom exercises and equipment in `localStorage`.

The model keeps the decisions and data transformations of the following parts:

- **Catalogue service** (`ExerciseService`): level and body-area mapping of
  ExerciseDB records, the filter and pagination pipeline of
  `GET /exercises`, lookup by id and the one-hour cache rule.
- **Synchronisation service** (`SyncService`): the muscle-to-body-part
  classifier, the mapping of free-exercise-db records (id slug, equipment
  normalisation, image URLs, level), and the "is a sync needed" decision
  with its `force` bypass.
- **GIF service** (`GifService`): which frame of an animation is
  extracted.
- **Routes** (`Routes`): the accept, reject and no-op decisions and the
  query parsing of every handler of `routes/exercises.js`, with the
  services as parameters.
- **Browser stores** (`WorkoutStorage`, `FavoritesStorage`,
  `CustomExerciseStorage`, `EquipmentStorage`): each `localStorage` key
  is an `Option` slot, `None` being a missing key, read and written
  through the one `Storage` module every store shares. Upsert, delete and
  lookup follow the source's first-match semantics.
- **Pages and components**: the workout editor (`WorkoutDetailPage`), the
  add-to-workout dialog (`WorkoutSelectorModal`), the print sheet
  (`PrintView`), the carousel (`ExerciseCarousel`) and its page
  (`ExerciseCarouselPage`), the exercise browser dialog
  (`ExerciseBrowserModal`), the custom-exercise form
  (`CreateCustomExerciseModal`), both filter bars (`FilterBar`,
  `CollapsibleFilterBar`), the equipment dialog (`EquipmentSettings`), the
  favourites and exercise list pages (`FavoritesPage`, `ExercisesPage`), the
  GIF helpers (`GifUtils`) and the theme provider (`ThemeContext`).

Every handler is a pure function from the state it reads to the state it
writes. Fresh UUIDs, the clock, server responses and fetch results are
parameters. JavaScript truthiness of an optional string is `Truthy` in
module `Js`: present and non-empty. `Js` also holds `slice` and `parseInt`,
with and without a radix. Shared helpers live in `Wrappers` (`Option`),
`Text` (ASCII case mapping, trimming and `\s` runs over JavaScript's full
white-space set, splitting, searching), `Seqs` (filtering, subsequences, duplicates, sorting) and
`Records` (first-match find, upsert and removal over a key function).
`Domain` holds the records of `frontend/src/types/index.ts`, extended by the
fields other files read (`bodyPart`, `exerciseType`, the filter's equipment
fields).

## Model

| member | source | states |
|---|---|---|
| ExerciseService.MapLevel | backend/src/services/exerciseService.js:57-63 | The result is one of the three levels. A falsy level is "intermediate". The result is "beginner" exactly when the lower-cased text contains "beginner" or equals "easy". It is "advanced" exactly when that test fails and the text contains "advanced" or equals "hard", so the beginner test wins. |
| ExerciseService.MapLevelIgnoresCase | backend/src/services/exerciseService.js:57-63 | Upper-casing the input never changes the level. |
| ExerciseService.TableArea | backend/src/services/exerciseService.js:38-53 | Every body part in the table maps to one of the six body areas. |
| ExerciseService.BodyAreaAsWritten | backend/src/services/exerciseService.js:54 | The plain-object lookup as written answers with an inherited prototype member exactly for the keys `Object.prototype` carries. |
| ExerciseService.BodyAreaAsWrittenLeaksPrototype | backend/src/services/exerciseService.js:54 | The body part "Constructor" hits the prototype's `constructor` member instead of falling back to "full body". |
| ExerciseService.MapBodyPartToBodyArea | backend/src/services/exerciseService.js:37-55 | The function is total and lands in the six body areas. A key missing from the table, including a missing body part, gives "full body". A key in the table gives its entry. |
| ExerciseService.MissingBodyPartIsFullBody | backend/src/services/exerciseService.js:54 | A record without a body part is "full body". |
| ExerciseService.BodyAreaAgreesOutsidePrototype | backend/src/services/exerciseService.js:37-55 | Outside the prototype keys, the corrected lookup and the code as written give the same area. |
| ExerciseService.Singleton | backend/src/services/exerciseService.js:24-31 | A truthy optional field becomes a one-element list, and a falsy one the empty list. |
| ExerciseService.NameSlug | backend/src/services/exerciseService.js:21 | A missing name gives the empty id. Otherwise the id has no white space left, counting every Unicode space `\s` matches. |
| ExerciseService.NameSlugOfPlainName | backend/src/services/exerciseService.js:21 | A name without white space only has its letters lower-cased, so a lower-case one-word name is its own id. |
| ExerciseService.NameSlugSpaceRun | backend/src/services/exerciseService.js:21 | A white-space run between two parts becomes exactly one "-", and each part is converted on its own. |
| Text.DashSpaceRuns | backend/src/services/exerciseService.js:21 | No white space is left, and the text never gets longer. |
| Text.DashNoSpace | backend/src/services/exerciseService.js:21 | Text without white space is unchanged. |
| Text.DashAllSpace | backend/src/services/exerciseService.js:21 | A non-empty run made only of white space becomes a single "-". |
| Text.DashConcat | backend/src/services/exerciseService.js:21 | Text cut at a point that splits no white-space run is converted piece by piece. |
| Text.DashSpaceRunSplit | backend/src/services/exerciseService.js:21 | A maximal white-space run between two parts becomes one "-" between the converted parts. |
| Text.TrimStartAppend | backend/src/services/exerciseService.js:21 | Trimming the start of a + b trims a, and goes on into b only when a was all white space. |
| Text.DashUnicodeSpace | backend/src/services/exerciseService.js:21 | A run of a no-break space and an em space becomes a single "-", as `\s+` does. |
| ExerciseService.Description | backend/src/services/exerciseService.js:29 | The description is the instructions joined with spaces when that is non-empty. Otherwise it is the record's description, else "". |
| ExerciseService.MapExerciseDbToDomain | backend/src/services/exerciseService.js:19-35 | The id and source id come from the record's id when truthy, else from the name. The name defaults to "". The body area is the mapped one. Secondary muscles are the record's list or none. Muscles, equipment and images have at most one entry each, and an equipment entry is never empty. The level is one of three, read from a truthy difficulty before the level field. The description is the record's description rule, and the category defaults to "strength". |
| ExerciseService.DifficultyOverridesLevel | backend/src/services/exerciseService.js:28 | A difficulty of "Easy" gives beginner even though the level says "advanced". Without the difficulty the same record is advanced. |
| ExerciseService.BarbellCurlMapping | backend/src/services/__tests__/exerciseService.test.js:17-48 | The barbell-curl record of the test maps to "upper body" with `["biceps"]`, `["barbell"]`, two instructions and its GIF URL. |
| ExerciseService.Pipeline | backend/src/services/exerciseService.js:265-309 | Chained filter steps keep exactly the exercises passing every step, and never lengthen the list. |
| ExerciseService.PipelineIsFilter | backend/src/services/exerciseService.js:265-309 | The chain of filters equals one filter by the conjunction of the steps, so order is preserved. |
| ExerciseService.SatisfiesIsPassesAll | backend/src/services/exerciseService.js:265-309 | The six present-filter tests (name substring, equal body area, muscle substring, equipment substring, equal level, equal category, all case-insensitive) are exactly the steps the pipeline runs. |
| ExerciseService.FilterExercises | backend/src/services/exerciseService.js:261-309 | An exercise is kept if and only if it is in the catalogue and satisfies every filter that is present. |
| ExerciseService.FilterExercisesIsOneFilter | backend/src/services/exerciseService.js:261-309 | The filtered list is an order-preserving subsequence of the catalogue. |
| ExerciseService.NoFiltersKeepAll | backend/src/services/exerciseService.js:261-309 | With no filter present, the whole catalogue comes back unchanged. |
| ExerciseService.Paginate | backend/src/services/exerciseService.js:312-321 | The total is the filtered count. The limit and offset default to 50 and 0, including when they are 0. The page is the clipped slice from offset to offset plus limit, never longer than the limit, and empty past the end. |
| ExerciseService.GetExercises | backend/src/services/exerciseService.js:260-322 | Every returned exercise is in the catalogue and satisfies every present filter. The total counts all matches. For a non-negative limit and offset, the page is the slice of the matches from the offset, cut at the limit and the end. An offset past the end gives the empty page. |
| ExerciseService.TotalIgnoresPaging | backend/src/services/exerciseService.js:312-321 | The reported total does not depend on the limit or the offset. |
| ExerciseService.GetExerciseById | backend/src/services/exerciseService.js:327-330 | The result is none exactly when no exercise has the id as id or source id. Otherwise it is the first exercise that does. |
| ExerciseService.GetExerciseByIdOfHead | backend/src/services/exerciseService.js:327-330 | The first exercise is found by its own id. |
| ExerciseService.GetAllExercises | backend/src/services/exerciseService.js:245-255 | A fresh cache is reused unchanged. A missing, timestamp-less or hour-old cache is replaced by the new load, stamped with the current time. |
| ExerciseService.CacheReuseWithinHour | backend/src/services/exerciseService.js:245-255 | After a reload at a non-zero time t, the same list is served to every call less than an hour later, and the first call after that loads afresh. |
| SyncService.Scan | backend/src/services/syncService.js:50-56 | The scan finds nothing exactly when no muscle and table key match either way round. Otherwise it returns the first match in muscle order, then key order. |
| SyncService.Fallback | backend/src/services/syncService.js:61-78 | Each region holds exactly when its group has a keyword in the first muscle and no earlier group does. The order is upper body, lower body, core, back. "Full body" holds exactly when none of the fourteen keywords occurs. |
| SyncService.Classify | backend/src/services/syncService.js:10-79 | For any key table, a missing or empty muscle list gives "full body". A scan hit gives the hit key's region, and otherwise the fallback on the first muscle applies. The result is always one of five regions. |
| SyncService.BodyPartFromMuscles | backend/src/services/syncService.js:10-79 | The classifier with the source's key table inherits those three cases and the five-region range. |
| SyncService.EmptyMuscleIsUpperBody | backend/src/services/syncService.js:50-56 | An empty-string muscle matches the first key, "biceps", so it gives "upper body". |
| SyncService.FallbackOnlyWithoutMatch | backend/src/services/syncService.js:50-78 | Whenever some muscle and key match, the answer is the table's and the fallback is not reached. |
| SyncService.Slug | backend/src/services/syncService.js:85 | The slug keeps only lower-case letters, digits and hyphens, and is never longer than the name. |
| SyncService.SlugOfPlainName | backend/src/services/syncService.js:85 | A name of letters, digits and hyphens only is just lower-cased. |
| SyncService.SlugConcat | backend/src/services/syncService.js:85 | A name cut at a point that splits no white-space run is slugged piece by piece. |
| SyncService.SlugSpaceRun | backend/src/services/syncService.js:85 | A maximal white-space run between two parts becomes one "-" between their slugs. |
| SyncService.SlugDropsChar | backend/src/services/syncService.js:85 | A character that is neither white space nor a slug character once lower-cased disappears, and the two sides are slugged as if adjacent. |
| SyncService.RecordId | backend/src/services/syncService.js:85 | The id is never empty. It is the record's id when truthy. Otherwise it is the name's slug when there is a name with a non-empty slug, and "unknown" if not. |
| SyncService.PlainNameIsId | backend/src/services/syncService.js:85 | A record without an id, whose name has only letters, digits and hyphens, gets the lower-cased name as its id. |
| SyncService.RawEquipment | backend/src/services/syncService.js:88-95 | An array is kept and a non-empty string becomes a singleton. Anything else gives the empty list. |
| SyncService.NormalizeItem | backend/src/services/syncService.js:97 | A truthy entry is lower-cased, and a falsy one becomes "body weight". The result is never empty. |
| SyncService.NormalizeEquipment | backend/src/services/syncService.js:97 | Normalisation keeps the length, and no entry is empty, so the trailing `filter(Boolean)` removes nothing. |
| SyncService.ImageUrl | backend/src/services/syncService.js:124-135 | An "http" URL is kept. A path with "/" is prefixed by the image base. A bare name goes under the record's id directory. Every result ends with the input. |
| SyncService.ImageUrls | backend/src/services/syncService.js:122-136 | There is one URL per image, in order, and none without images. |
| SyncService.SyncLevel | backend/src/services/syncService.js:111-119 | The result is one of the three levels, with the same beginner-first tests as the catalogue and "expert" also meaning advanced. |
| SyncService.SyncLevelAgreesWithService | backend/src/services/syncService.js:111-119 | Except for "expert", the sync mapping and the catalogue mapping agree. |
| SyncService.ExpertIsAdvanced | backend/src/services/syncService.js:116 | "Expert" is advanced here, unlike in the catalogue mapping. |
| SyncService.MapToDomainModel | backend/src/services/syncService.js:84-165 | The id is the record id rule's result, never empty, and equals the source id. A truthy record id is taken as is. The equipment is the raw field normalised entry by entry, and the images are the record's image URLs. The body part and level are the classified ones. The description is the joined instructions or "". Force and mechanic are null rather than "". |
| SyncService.NamelessRecordIsUnknown | backend/src/services/syncService.js:85 | A record with neither id nor name gets the id "unknown". |
| SyncService.BareImageName | backend/src/services/syncService.js:134 | A bare image name on a record whose id is absent (not `null`) lands in the directory "undefined". |
| SyncService.CheckSyncNeeded | backend/src/services/syncService.js:187-213 | No previous sync means needed. Without an upstream SHA, a sync is needed exactly when more than 24 hours have passed. With one, it is needed exactly when the SHA differs from the recorded one. |
| SyncService.RecordSync | backend/src/services/syncService.js:301-305 | The stored sync date is the current time floored to whole seconds. The SHA is stored when truthy, else null. |
| SyncService.NoResyncAfterSync | backend/src/services/syncService.js:187-213 | After recording a sync with a known SHA, the same SHA needs no sync at any later time. Without a SHA, no sync is needed until a day less one second has passed. |
| SyncService.SyncGate | backend/src/services/syncService.js:239-256 | `force` always proceeds. Otherwise the sync proceeds exactly when the check says it is needed, and skips with the check's reason. |
| GifService.PeakFrame | backend/src/services/gifService.js:57 | The peak frame is the floor of 0.6 times the frame count. |
| GifService.TargetFrameIndex | backend/src/services/gifService.js:45-63 | For a request of 1 or -1, two or fewer frames give the last index, and three or more give an index strictly inside the animation. Any other request k gives min(k, frames - 1). |
| GifService.EndFrameIsPeak | backend/src/services/gifService.js:46-59 | From three frames on, 1 and -1 both pick exactly the peak frame. |
| GifService.TargetFrameInRange | backend/src/services/gifService.js:45-63 | For a non-negative request and at least one frame, the index is a valid frame. |
| GifService.NoFramesNoIndex | backend/src/services/gifService.js:62-67 | With no frames, every request from -1 up gives a negative index, so `frameData[index]` has nothing to read. |
| Routes.ParseWithDefault | backend/src/routes/exercises.js:26-41 | A missing limit or offset takes its default before `parseInt`. A present one is parsed with no radix, so a `0x` prefix reads hexadecimal. |
| Routes.EquipmentList | backend/src/routes/exercises.js:46-48 | An array is taken as given. A string gives one trimmed entry per comma-separated part. |
| Routes.BuildFilters | backend/src/routes/exercises.js:18-51 | A missing limit or offset becomes 50 or 0, and a present one is parsed with no radix (decimal, or hexadecimal after `0x`). The equipment list and mode are attached exactly when both are present and the mode is not "off". Every other field passes through unchanged. |
| Routes.PagingReadsBack | backend/src/routes/exercises.js:40-41 | A limit and offset written in decimal or as `0x` hexadecimal reach the service as the numbers written. |
| Js.ParseIntAutoOfIntToString | backend/src/routes/exercises.js:40-41 | `parseInt` with no radix reads any decimal integer back. |
| Js.ParseIntAutoOfIntToHex | backend/src/routes/exercises.js:40-41 | `parseInt` with no radix reads a `0x` rendering back as its value, where `parseInt(s, 10)` reads 0. |
| Routes.EquipmentListRoundTrip | backend/src/routes/exercises.js:46-48 | A comma-joined list of trimmed, comma-free names reads back as the same list. |
| Routes.DefaultPaging | backend/src/routes/exercises.js:26-41 | With neither given, the limit is 50 and the offset 0. |
| Routes.ServiceQuery | backend/src/routes/exercises.js:32-53 | The service sees the route's search and paging fields but no body area, so the route's body part is never applied. |
| Routes.ExerciseByIdResponse | backend/src/routes/exercises.js:61-72 | The answer is 404 exactly when the service finds nothing, and otherwise the exercise. |
| Routes.ExerciseByIdNotFound | backend/src/routes/exercises.js:63-66 | The route answers 404 exactly when no catalogue entry has the id as id or source id. |
| Routes.ForceFlag | backend/src/routes/exercises.js:124 | Only the exact text "true" forces a sync. |
| Routes.Webhook | backend/src/routes/exercises.js:137-170 | Only a push to main or master is considered, and every other payload is "no action taken". For such a push, a sync runs exactly when the check says it is needed. Otherwise the check's reason is answered. |
| Routes.OtherBranchIgnored | backend/src/routes/exercises.js:144 | A push to any other branch is ignored. |
| Routes.Search | backend/src/routes/exercises.js:180-187 | A missing or blank query answers the empty list without a search. Otherwise the query is passed on untrimmed. |
| Routes.BlankSearchIsEmpty | backend/src/routes/exercises.js:182-184 | A query of white space alone gives the empty list. |
| Routes.UnicodeBlankSearchIsEmpty | backend/src/routes/exercises.js:182-184 | A query of no-break or ideographic spaces is blank and gives the empty list. |
| Text.TrimUnicodeSpace | backend/src/routes/exercises.js:182 | `trim` removes a leading no-break space and a trailing ideographic space. |
| Routes.Add | backend/src/routes/exercises.js:197-203 | A falsy `exerciseId` is answered 400, and otherwise the id is passed on. |
| Routes.FrameIndex | backend/src/routes/exercises.js:214-221 | "1" and "-1" mean -1, and a missing frame means 0. Other text is `parseInt` with NaN as 0. |
| Routes.FrameIndexOfNumber | backend/src/routes/exercises.js:221 | Any integer other than 1, written in decimal, is read back as itself. This includes -1, which means the end position anyway. |
| Routes.DecimalOfOne | backend/src/routes/exercises.js:221 | Only 1 is written "1" and only -1 is written "-1", so no other number is caught by the end-position test. |
| Routes.GifFrame | backend/src/routes/exercises.js:214-223 | A falsy URL is answered 400 with no extraction. Otherwise the URL and the parsed index go to the extractor. |
| Storage.Read | frontend/src/services/workoutStorage.ts:5-13 | A missing key reads as the store's fallback, and a written key as its value. Every store reads its key this way, with the empty list as the fallback for the list stores. |
| Storage.Write | frontend/src/services/equipmentStorage.ts:17-24 | After a write, the next read gives back the written value, whatever the reader's fallback. |
| Storage.Remove | frontend/src/services/equipmentStorage.ts:26-33 | After removing the key, the next read gives the reader's fallback. |
| WorkoutStorage.GetWorkoutById | frontend/src/services/workoutStorage.ts:65-68 | The result is null exactly when no stored workout has the id. Otherwise it is a stored workout with that id. |
| WorkoutStorage.SaveWorkout | frontend/src/services/workoutStorage.ts:16-32 | An existing id is replaced in place, keeping the length. A new id is appended. The saved workout is then found by its id, and pairwise-distinct ids stay distinct. |
| WorkoutStorage.SaveWorkoutIdempotent | frontend/src/services/workoutStorage.ts:16-32 | Saving the same workout twice is saving it once. |
| WorkoutStorage.DeleteWorkout | frontend/src/services/workoutStorage.ts:34-42 | Every workout with the id goes, the rest keep their order, and the id is no longer found. |
| WorkoutStorage.DeleteOnlyWorkout | frontend/src/services/workoutStorage.ts:34-42 | Deleting the only saved workout leaves an empty list. |
| WorkoutStorage.CopyEntries | frontend/src/services/workoutStorage.ts:54-57 | Each copied entry is the original with only its id replaced. |
| WorkoutStorage.Duplicate | frontend/src/services/workoutStorage.ts:44-59 | The copy has the new id, the name plus " (Copy)" and fresh timestamps. Session and entry counts are the same, sessions and entries get the fresh ids, and every other field is copied. |
| WorkoutStorage.DuplicateWorkout | frontend/src/services/workoutStorage.ts:44-63 | The store grows by exactly the copy when its id is new, and the copy is found by its id. |
| WorkoutStorage.SaveThenDuplicate | frontend/src/services/workoutStorage.ts:44-63 | Duplicating the only saved workout under a new id leaves two workouts, the copy with a different id and the name plus " (Copy)". |
| FavoritesStorage.AddFavorite | frontend/src/services/favoritesStorage.ts:28-39 | The id becomes a favourite and nothing else changes membership. An existing favourite leaves the store as it is, and duplicate-free lists stay duplicate-free. |
| FavoritesStorage.AddFavoriteIdempotent | frontend/src/services/favoritesStorage.ts:28-39 | Adding twice is adding once. |
| FavoritesStorage.RemoveFavorite | frontend/src/services/favoritesStorage.ts:44-52 | Every occurrence goes and the others keep their order. |
| FavoritesStorage.ToggleFavorite | frontend/src/services/favoritesStorage.ts:57-65 | The toggle flips the id's membership, returns the new membership and leaves every other id as it was. |
| FavoritesStorage.ToggleTwice | frontend/src/services/favoritesStorage.ts:57-65 | Two toggles restore every membership, and a favourite toggled twice moves to the end of the list. |
| FavoritesStorage.FavoriteCount | frontend/src/services/favoritesStorage.ts:70-72 | The count is the list length, which is the number of distinct favourites when the list has no duplicates. |
| FavoritesStorage.DistinctCount | frontend/src/services/favoritesStorage.ts:70-72 | A duplicate-free list is as long as its set of elements. |
| CustomExerciseStorage.GetCustomExerciseById | frontend/src/services/customExerciseStorage.ts:47-50 | The result is null exactly when no stored exercise has the id. |
| CustomExerciseStorage.SaveCustomExercise | frontend/src/services/customExerciseStorage.ts:19-35 | An existing id is replaced in place and a new one appended. The exercise is then found by its id. |
| CustomExerciseStorage.DeleteCustomExercise | frontend/src/services/customExerciseStorage.ts:37-45 | Every entry with the id goes and the rest keep their order. An unknown id changes nothing. |
| CustomExerciseStorage.CustomIdIffPrefixed | frontend/src/services/customExerciseStorage.ts:52-54 | An id is custom exactly when it is "custom_" followed by something. |
| CustomExerciseStorage.SaveThenDelete | frontend/src/services/customExerciseStorage.ts:19-45 | Deleting a newly saved exercise gives back the list as it was. |
| EquipmentStorage.AvailableRoundTrip | frontend/src/services/equipmentStorage.ts:6-24 | Reading after saving gives the saved list. |
| EquipmentStorage.ClearAvailableEquipment | frontend/src/services/equipmentStorage.ts:26-33 | After clearing, the list reads as empty. |
| EquipmentStorage.AddCustomEquipment | frontend/src/services/equipmentStorage.ts:62-71 | Exactly one entry, with the fresh id and the given fields, is appended and returned. Existing entries are unchanged. |
| EquipmentStorage.Merge | frontend/src/services/equipmentStorage.ts:77 | Each field of the patch that is present overrides the entry's field. |
| EquipmentStorage.UpdateCustomEquipment | frontend/src/services/equipmentStorage.ts:73-80 | The patch is merged into the first entry with the id and the length is unchanged. An unknown id leaves the slot untouched. |
| EquipmentStorage.EmptyPatchKeepsEntries | frontend/src/services/equipmentStorage.ts:73-80 | An empty patch changes no entry. |
| EquipmentStorage.DeleteCustomEquipment | frontend/src/services/equipmentStorage.ts:82-85 | Every entry with the id goes and the rest keep their order. |
| EquipmentStorage.DeleteUndoesAdd | frontend/src/services/equipmentStorage.ts:62-85 | Deleting a just-added entry by its fresh id gives back the list as it was. |
| EquipmentStorage.MapsToLists | frontend/src/services/equipmentStorage.ts:91-93 | The mapped-type lists are taken one per entry, in order. |
| EquipmentStorage.MappedGenericEquipment | frontend/src/services/equipmentStorage.ts:88-95 | The result has no duplicates and is exactly the union of every entry's mapped types, in first-occurrence order. |
| EquipmentStorage.HasGenericIffMapped | frontend/src/services/equipmentStorage.ts:88-101 | `hasGenericEquipment(t)` holds exactly when t is in the mapped generic list. |
| EquipmentStorage.GetPreferences | frontend/src/services/equipmentStorage.ts:108-117 | A missing key reads as disabled with mode "any". |
| EquipmentStorage.PreferencesRoundTrip | frontend/src/services/equipmentStorage.ts:108-126 | Reading after saving gives the saved preferences. |
| Domain.BlankEntry | frontend/src/pages/WorkoutDetailPage.tsx:171-181 | A new session entry carries the id, exercise and order it was given, and every prescription field is null. |
| WorkoutDetailPage.Commit | frontend/src/pages/WorkoutDetailPage.tsx:92-96 | Saving stamps only `updatedAt` and makes the workout findable by its id. |
| WorkoutDetailPage.MapSessions | frontend/src/pages/WorkoutDetailPage.tsx:127-129 | Only sessions with the id are rewritten, and the count is unchanged. |
| WorkoutDetailPage.AddSession | frontend/src/pages/WorkoutDetailPage.tsx:108-121 | One empty session named "Session k+1" is appended and selected, where k is the previous count. Nothing else changes. |
| WorkoutDetailPage.DeleteSession | frontend/src/pages/WorkoutDetailPage.tsx:145-157 | An unconfirmed delete changes nothing. A confirmed one removes every session with the id and keeps another selection. A selected session that is deleted passes the selection to the first remaining session, or to none. |
| WorkoutDetailPage.DeleteAddedSession | frontend/src/pages/WorkoutDetailPage.tsx:108-157 | Deleting a just-added session restores the sessions, and the selection moves to the first session. |
| WorkoutDetailPage.ExerciseAdded | frontend/src/pages/WorkoutDetailPage.tsx:168-195 | Without a selected session that exists, nothing happens. Otherwise every session with the selected id grows by the same blank entry for the exercise, numbered by the first such session's length. The other sessions are unchanged. |
| WorkoutDetailPage.ExerciseAddedGrowsOneSession | frontend/src/pages/WorkoutDetailPage.tsx:168-195 | With distinct session ids, exactly the chosen session grows by one, and every other session is unchanged. |
| WorkoutDetailPage.ReplaceEntry | frontend/src/pages/WorkoutDetailPage.tsx:207-209 | Only entries with the updated id are replaced, and the length is unchanged. |
| WorkoutDetailPage.ExerciseUpdate | frontend/src/pages/WorkoutDetailPage.tsx:199-215 | Only the target session's matching entries change. Lengths, other sessions and other fields are unchanged. |
| WorkoutDetailPage.ExerciseUpdateIdempotent | frontend/src/pages/WorkoutDetailPage.tsx:199-215 | Applying the same update twice is applying it once. |
| WorkoutDetailPage.ExerciseRemove | frontend/src/pages/WorkoutDetailPage.tsx:217-228 | The target session loses exactly the entries with the id, the rest keep their order and `order` values, and other sessions are unchanged. |
| WorkoutDetailPage.Renumber | frontend/src/pages/WorkoutDetailPage.tsx:244-246 | Every entry's order becomes its position, and nothing else changes. |
| WorkoutDetailPage.Unnumbered | frontend/src/pages/WorkoutDetailPage.tsx:244-246 | Forgetting `order` keeps everything else, which is what the move lemmas compare. |
| WorkoutDetailPage.Swap | frontend/src/pages/WorkoutDetailPage.tsx:242-243 | The two positions are exchanged and the others kept, and the multiset is unchanged. |
| WorkoutDetailPage.MoveEntries | frontend/src/pages/WorkoutDetailPage.tsx:234-246 | An unknown id, "up" at the top or "down" at the bottom is refused. Otherwise the entry swaps with its neighbour, every order becomes its position, and the entries are a permutation of the old ones. |
| WorkoutDetailPage.MoveUpThenDown | frontend/src/pages/WorkoutDetailPage.tsx:234-246 | Moving up and then down restores the entries, up to renumbering. |
| WorkoutDetailPage.MoveDownThenUp | frontend/src/pages/WorkoutDetailPage.tsx:234-246 | With distinct entry ids, moving down and then up restores the entries, up to renumbering. |
| WorkoutDetailPage.ExerciseMove | frontend/src/pages/WorkoutDetailPage.tsx:230-255 | The move is refused exactly when the session is missing or the entry cannot move in it. Otherwise the list moved in the first session with the id is written into every session with that id, and the other sessions are unchanged. |
| WorkoutDetailPage.ActivePrintConfig | frontend/src/pages/WorkoutDetailPage.tsx:272-275 | The session's override wins, then the workout's config, then the default. |
| WorkoutDetailPage.PrintConfigChange | frontend/src/pages/WorkoutDetailPage.tsx:257-270 | A truthy session id sets that session's override and leaves the workout config. Otherwise the workout config is set. |
| WorkoutDetailPage.ChosenConfigIsActive | frontend/src/pages/WorkoutDetailPage.tsx:257-275 | A config just chosen is the active one: for each session it was set on, or, when set on the workout, for the workout and every session without an override. |
| WorkoutSelectorModal.NewWorkout | frontend/src/components/WorkoutSelectorModal.tsx:36-52 | The new workout has the fresh ids, the name and one empty session named after the form, or "Session 1". |
| WorkoutSelectorModal.AddToSession | frontend/src/components/WorkoutSelectorModal.tsx:78-92 | Adding is refused exactly when the session is missing. Otherwise the first session with the id gains one blank entry for the exercise, with order equal to its previous length, and the workout is stamped. |
| WorkoutSelectorModal.HandleAdd | frontend/src/components/WorkoutSelectorModal.tsx:30-95 | A named new workout is saved with the exercise in its session. Otherwise no chosen workout gives the select-workout alert. A chosen workout id, with neither a named new session nor a chosen session, gives the select-session alert, whether or not the list holds it. A chosen workout missing from the list saves nothing. A saved existing workout keeps its id, name and top-level list. |
| WorkoutSelectorModal.ChosenSessionPath | frontend/src/components/WorkoutSelectorModal.tsx:66-95 | For an existing workout and a chosen session, the add is saved exactly when the workout has that session, and otherwise nothing is saved. A saved workout is that session's update: the other sessions are unchanged and the chosen one gains one blank entry at the end. |
| WorkoutSelectorModal.MissingWorkout | frontend/src/components/WorkoutSelectorModal.tsx:53-78 | A chosen workout missing from the list gets the session alert when no session is named or chosen. Otherwise nothing is saved, because the copy has no sessions to push to or search. |
| WorkoutSelectorModal.EntryCount | frontend/src/components/WorkoutSelectorModal.tsx:78-92 | A workout without sessions has no entries. |
| WorkoutSelectorModal.EntryCountAppend | frontend/src/components/WorkoutSelectorModal.tsx:53-65 | Appending a session adds its entries to the count. |
| WorkoutSelectorModal.EntryCountUpdate | frontend/src/components/WorkoutSelectorModal.tsx:78-90 | Replacing a session changes the count by the difference of their sizes. |
| WorkoutSelectorModal.SavedAddsOneEntry | frontend/src/components/WorkoutSelectorModal.tsx:30-95 | Whenever something is saved, the workout holds exactly one entry more than before, counting a new workout's entries from zero. |
| WorkoutSelectorModal.NewSessionHoldsExercise | frontend/src/components/WorkoutSelectorModal.tsx:53-65 | A new session is appended to the chosen workout and holds exactly the exercise. |
| WorkoutSelectorModal.NewWorkoutHoldsExercise | frontend/src/components/WorkoutSelectorModal.tsx:36-52 | A new workout has exactly one session, holding exactly the exercise. |
| WorkoutSelectorModal.Save | frontend/src/components/WorkoutSelectorModal.tsx:91-95 | Only a saved outcome writes the store, after which the workout is found by its id. |
| PrintView.ActivePrintConfig | frontend/src/pages/PrintView.tsx:130-133 | The workout's config is used, else the default, with two exercises per page. |
| PrintView.Lookup | frontend/src/pages/PrintView.tsx:210 | `Map.get` is none exactly when no entry has the key, and otherwise an entry's value. |
| PrintView.MapSet | frontend/src/pages/PrintView.tsx:60 | `Map.set` makes the key give the value, leaves other keys alone and keeps keys distinct. |
| PrintView.LoadCustom | frontend/src/pages/PrintView.tsx:57-62 | After loading, a key is known exactly when it was before or is a custom exercise's id. |
| PrintView.IdsToFetch | frontend/src/pages/PrintView.tsx:68-72 | The ids to fetch have no duplicates. They are exactly the non-empty referenced ids not yet in the map, in first-occurrence order. |
| PrintView.ExerciseIds | frontend/src/pages/PrintView.tsx:70 | One exercise id is taken per entry, in order. |
| PrintView.MergeResults | frontend/src/pages/PrintView.tsx:103-110 | Only successful results are added. Keys without one keep their old value, each success is found under its id, and keys stay distinct. |
| PrintView.LoadExercises | frontend/src/pages/PrintView.tsx:54-110 | The loaded map has distinct keys. |
| PrintView.MergedFetches | frontend/src/pages/PrintView.tsx:79-110 | With distinct requested ids, a requested id whose fetch succeeded holds that answer. Any other key, including a requested id whose fetch failed, keeps its earlier entry. |
| PrintView.LoadedExercises | frontend/src/pages/PrintView.tsx:54-110 | A key is loaded exactly when it is a custom exercise's id, or a non-empty referenced id whose fetch succeeded. A referenced non-custom id holds its fetch result. |
| PrintView.ConsSorted | frontend/src/pages/PrintView.tsx:209 | Putting an entry no larger than all the others in front keeps the list sorted. |
| PrintView.InsertByOrder | frontend/src/pages/PrintView.tsx:209 | Insertion keeps the list sorted by order and adds exactly one copy of the entry. |
| PrintView.SortByOrder | frontend/src/pages/PrintView.tsx:209 | The sorted list is ordered by non-decreasing `order` and is a permutation of the input. |
| PrintView.SortSorted | frontend/src/pages/PrintView.tsx:209 | An already sorted list is left as it is. |
| PrintView.InsertLast | frontend/src/pages/PrintView.tsx:209 | An entry no smaller than all others goes last. |
| PrintView.Resolve | frontend/src/pages/PrintView.tsx:210-221 | An exact key wins. Otherwise the result is a partial match: a key containing, or contained in, the id. Nothing is found only when no key matches either way. |
| PrintView.Entries | frontend/src/pages/PrintView.tsx:225 | The entries of the printed items are taken in order. |
| PrintView.ResolveAll | frontend/src/pages/PrintView.tsx:210-225 | Exactly the resolvable entries are kept, in order, each with the exercise it resolves to. |
| PrintView.FilterKeepsOrder | frontend/src/pages/PrintView.tsx:225 | Dropping entries keeps a sorted list sorted. |
| PrintView.PrintedItems | frontend/src/pages/PrintView.tsx:208-225 | The printed entries are exactly the entries of the top-level list that resolve, sorted by order, with multiplicities kept. Each item resolves to its exercise, and when every entry resolves nothing is dropped. |
| PrintView.SortedLength | frontend/src/pages/PrintView.tsx:209 | Sorting keeps the length. |
| PrintView.ItemsFromList | frontend/src/pages/PrintView.tsx:225 | Every kept item's entry comes from the input list. |
| PrintView.AllResolve | frontend/src/pages/PrintView.tsx:225 | When every entry resolves, dropping unresolved ones drops nothing. |
| PrintView.Pages | frontend/src/pages/PrintView.tsx:231-235 | Each page has one or two items, and every page but the last has two. The page count is the ceiling of n/2, and concatenating the pages gives the list back. |
| PrintView.PrintPages | frontend/src/pages/PrintView.tsx:231-235 | The pages of the printed list concatenate to it, and all but the last hold two items. |
| PrintView.PagesIgnoreConfig | frontend/src/pages/PrintView.tsx:231-235 | Neither page split depends on the workout's print config. |
| PrintView.DialogWorkoutPrintsNothing | frontend/src/pages/PrintView.tsx:165-179 | A workout created by the add dialog holds one entry, in its session, and the sheet as written has no page for it. |
| PrintView.SessionsInOrder | frontend/src/types/index.ts:37-45 | The sessions' entries, each session ordered by `order`: as many as the sessions hold together, and exactly the entries some session holds. |
| PrintView.SessionPrintedItems | frontend/src/pages/PrintView.tsx:208-225 | Corrected: the printed entries are exactly the sessions' entries that resolve, in session order. Each item resolves to its exercise, and when every entry resolves nothing is dropped. |
| PrintView.SessionPrintPages | frontend/src/pages/PrintView.tsx:231-235 | Corrected: the sessions' printed list in pages of two, all but the last full. |
| PrintView.DialogWorkoutPrintsItsExercise | frontend/src/pages/PrintView.tsx:208-235 | Corrected: the workout the add dialog creates prints one page holding its exercise whenever the map resolves the id. |
| PrintView.LegacyListAgrees | frontend/src/pages/PrintView.tsx:208-225 | On a one-session workout whose top-level list is that session's entries, both readings print the same list. |
| ExerciseCarousel.Abs | frontend/src/components/ExerciseCarousel.tsx:88 | `Math.abs` is the input or its negation, never negative. |
| ExerciseCarousel.Next | frontend/src/components/ExerciseCarousel.tsx:23-26 | A locked carousel does not move. Otherwise the index stays below n and goes one up, wrapping from the last card to 0. |
| ExerciseCarousel.Previous | frontend/src/components/ExerciseCarousel.tsx:28-31 | A locked carousel does not move. Otherwise the index stays below n and goes one down, wrapping from 0 to the last card. |
| ExerciseCarousel.NextPreviousInverse | frontend/src/components/ExerciseCarousel.tsx:23-31 | Next and previous undo each other. |
| ExerciseCarousel.Advance | frontend/src/components/ExerciseCarousel.tsx:23-26 | Repeated next never changes the lock. |
| ExerciseCarousel.AdvanceMod | frontend/src/components/ExerciseCarousel.tsx:23-26 | k steps of next land on (i + k) mod n. |
| ExerciseCarousel.FullTurn | frontend/src/components/ExerciseCarousel.tsx:23-26 | n steps of next come back to the same card. |
| ExerciseCarousel.Unlock | frontend/src/components/ExerciseCarousel.tsx:53-55 | The lock timer clears the lock and keeps the index. |
| ExerciseCarousel.WheelAsWritten | frontend/src/components/ExerciseCarousel.tsx:38-57 | As written, a small wheel delta does nothing, and a large one on an unlocked carousel sets the lock. |
| ExerciseCarousel.WheelNeverMoves | frontend/src/components/ExerciseCarousel.tsx:45-51 | As written, no wheel event ever changes the index. |
| ExerciseCarousel.WheelStuckExample | frontend/src/components/ExerciseCarousel.tsx:45-51 | On two cards at index 0, a wheel delta of 120 only locks, where `goToNext` would move to card 1. |
| ExerciseCarousel.Wheel | frontend/src/components/ExerciseCarousel.tsx:38-57 | A locked carousel or a delta of at most 50 stays put. A larger delta locks. |
| ExerciseCarousel.WheelSteps | frontend/src/components/ExerciseCarousel.tsx:43-51 | With the lock taken after the move, a positive delta is next and a negative one previous. The card changes whenever there are two or more, and further wheel events do nothing until the unlock. |
| ExerciseCarousel.TouchStart | frontend/src/components/ExerciseCarousel.tsx:72-77 | The touch start records its point and starts a drag. |
| ExerciseCarousel.Swipe | frontend/src/components/ExerciseCarousel.tsx:87-99 | The carousel moves only when the horizontal distance beats both the vertical one and 50. Then a leftward swipe is next and a rightward one previous. |
| ExerciseCarousel.TouchEnd | frontend/src/components/ExerciseCarousel.tsx:80-100 | The end of a touch always stops the drag, and acts as a swipe only during one. |
| ExerciseCarousel.SwipeBackAndForth | frontend/src/components/ExerciseCarousel.tsx:80-100 | A long swipe one way and then the other returns to the same card. |
| ExerciseCarousel.Key | frontend/src/components/ExerciseCarousel.tsx:118-133 | Keys are ignored while an input or text area has focus. Otherwise the left arrow is previous, the right arrow next, and other keys nothing. |
| ExerciseCarousel.ZIndex | frontend/src/components/ExerciseCarousel.tsx:189-250 | The stacking order is 1000 - 10 times the distance for the three nearest tiers, and 960 - 10 times the distance beyond. |
| ExerciseCarousel.TranslateX | frontend/src/components/ExerciseCarousel.tsx:189-250 | The offset is zero only at the centre and has the sign of the distance. Its size is 25, 35 and 46 for the first three cards on either side, and 50 per card beyond three. |
| ExerciseCarousel.ZIndexByNearness | frontend/src/components/ExerciseCarousel.tsx:189-250 | Nearer cards are stacked strictly higher, and cards at equal distance equally. |
| ExerciseCarousel.TranslateOrdered | frontend/src/components/ExerciseCarousel.tsx:189-250 | Offsets are strictly increasing in the distance and symmetric about the centre. |
| ExerciseCarousel.CardClick | frontend/src/components/ExerciseCarousel.tsx:253-274 | A click moves only to the clicked card, only when that card takes pointer events, and not while locked. |
| ExerciseCarousel.DotClick | frontend/src/components/ExerciseCarousel.tsx:294-298 | A dot moves straight to its card unless locked. |
| ExerciseCarousel.ClickCentres | frontend/src/components/ExerciseCarousel.tsx:253-274 | Clicking a visible card brings it to the centre, on top. |
| ExerciseCarouselPage.FilteredExercises | frontend/src/pages/ExerciseCarouselPage.tsx:128-145 | A disabled or "off" matcher, or one with no owned equipment, keeps the list. Otherwise "all" keeps exactly the exercises whose every item is owned, and other modes those with some owned item. The result is always an order-preserving subsequence. |
| ExerciseCarouselPage.EquipmentFreeExercises | frontend/src/pages/ExerciseCarouselPage.tsx:138-143 | An exercise needing no equipment passes "all" and fails "any". |
| ExerciseCarouselPage.AllStricterThanAny | frontend/src/pages/ExerciseCarouselPage.tsx:138-143 | An exercise that needs equipment and passes "all" also passes "any". |
| ExerciseCarouselPage.LoadAllExercises | frontend/src/pages/ExerciseCarouselPage.tsx:72-109 | The loop stops right after the first page that fails or meets the stop test. The stop test is that the count reached the total or the page was short. After a failure the list is empty and the error is set. Otherwise the list is the pages pulled, in order, then the custom exercises. |
| ExerciseCarouselPage.FailingFirstPage | frontend/src/pages/ExerciseCarouselPage.tsx:83-105 | When the first request fails, the loop stops after that one request. |
| ExerciseCarouselPage.PulledPrefix | frontend/src/pages/ExerciseCarouselPage.tsx:83-98 | Against a server paging one fixed list, k pages are the first 100k exercises. |
| ExerciseCarouselPage.PullsWholeList | frontend/src/pages/ExerciseCarouselPage.tsx:83-98 | Against such a server, the loop stops only once it has the whole list. |
| ExerciseCarouselPage.LoadFromList | frontend/src/pages/ExerciseCarouselPage.tsx:72-109 | Loading from a server paging a fixed list gives that list followed by the custom exercises. |
| ExerciseBrowserModal.FilteredExercises | frontend/src/components/ExerciseBrowserModal.tsx:195-212 | The dialog's matcher has the same identity, "all" and "any" meaning as the carousel page's, and keeps order. |
| ExerciseBrowserModal.LoadFavoriteExercises | frontend/src/components/ExerciseBrowserModal.tsx:91-127 | With no favourites, nothing is requested and the list is empty. Otherwise the list holds exactly the successful fetches of favourite ids and the favourite custom exercises. |
| ExerciseBrowserModal.FavoritesOrder | frontend/src/components/ExerciseBrowserModal.tsx:106-120 | When every fetch succeeds, the fetched favourites come first, in favourite order, followed by exactly the favourite custom exercises. |
| ExerciseBrowserModal.Close | frontend/src/components/ExerciseBrowserModal.tsx:48-55 | Closing resets the tab to browse, both lists to empty, the filters to a limit of 100, and the error to none. |
| ExerciseBrowserModal.OnOpen | frontend/src/components/ExerciseBrowserModal.tsx:40-47 | Opening loads the browse list exactly when that tab is active, else the favourites. |
| ExerciseBrowserModal.CloseThenOpen | frontend/src/components/ExerciseBrowserModal.tsx:40-55 | Closing is idempotent, and reopening loads the browse list with no filter but the page size. |
| ExerciseBrowserModal.LoadAllExercises | frontend/src/components/ExerciseBrowserModal.tsx:129-169 | The dialog's loop stops as the page's does. On success "more" is off, the error cleared, and the list the pulled pages then the custom exercises. On a failed request the list is empty, the error is "Failed to load exercises: " plus the reason, and "more" stays on. |
| CreateCustomExerciseModal.CommaList | frontend/src/components/CreateCustomExerciseModal.tsx:33-35 | The list keeps exactly the non-empty trimmed comma-separated parts, in order. Each is non-empty, trimmed and comma-free. |
| CreateCustomExerciseModal.TrimSubstring | frontend/src/components/CreateCustomExerciseModal.tsx:33-35 | Trimming adds no character. |
| CreateCustomExerciseModal.CommaListJoin | frontend/src/components/CreateCustomExerciseModal.tsx:33-35 | A comma-joined list of such names parses back to itself. |
| CreateCustomExerciseModal.Lines | frontend/src/components/CreateCustomExerciseModal.tsx:39 | The lines keep exactly the non-empty lines, untrimmed and in order. |
| CreateCustomExerciseModal.BlankLinesSurvive | frontend/src/components/CreateCustomExerciseModal.tsx:39 | A line of blanks survives as an instruction of its own. |
| CreateCustomExerciseModal.LinesJoin | frontend/src/components/CreateCustomExerciseModal.tsx:39 | Non-empty lines joined with line breaks parse back to themselves. |
| CreateCustomExerciseModal.NewExercise | frontend/src/components/CreateCustomExerciseModal.tsx:29-44 | The id is "custom_" plus the UUID, so it counts as custom. The name and description are trimmed, and the body part trimmed or "other". Muscles and equipment are comma lists, the instructions lines, and the image a trimmed singleton or nothing. The fixed fields hold the source's constants. |
| CreateCustomExerciseModal.HandleSubmit | frontend/src/components/CreateCustomExerciseModal.tsx:26-58 | Submitting stores the new exercise, findable by its id, and clears the form. |
| CreateCustomExerciseModal.BlankFormExercise | frontend/src/components/CreateCustomExerciseModal.tsx:29-44 | A form of blank fields, which the `required` name input lets through, gives an exercise with an empty name, body part "other" and empty lists. |
| CreateCustomExerciseModal.CommaListOfBlanks | frontend/src/components/CreateCustomExerciseModal.tsx:33-35 | A field of white space alone gives the empty list. |
| CollapsibleFilterBar.ActiveFlags | frontend/src/components/CollapsibleFilterBar.tsx:137-146 | There are eight flags, one per counted field. |
| CollapsibleFilterBar.Slot | frontend/src/components/CollapsibleFilterBar.tsx:137-146 | Each counted string key has its own slot among the first seven. |
| CollapsibleFilterBar.CountTrue | frontend/src/components/CollapsibleFilterBar.tsx:146 | The count is at most the length, and zero exactly when no flag is set. |
| CollapsibleFilterBar.CountTrueUpdate | frontend/src/components/CollapsibleFilterBar.tsx:146 | Changing one flag moves the count by that flag's contribution. |
| CollapsibleFilterBar.ActiveFilterCount | frontend/src/components/CollapsibleFilterBar.tsx:137-146 | The count is at most eight, and positive exactly when `hasActiveFilters` holds. |
| CollapsibleFilterBar.SetKeyCount | frontend/src/components/CollapsibleFilterBar.tsx:94-99 | Editing a key the bar does not count leaves the count. Editing a counted key moves it by at most one, up exactly when an empty key gets a value. |
| CollapsibleFilterBar.SameExceptAt | frontend/src/components/CollapsibleFilterBar.tsx:137-146 | Flag lists equal outside one slot differ by an update of that slot. |
| CollapsibleFilterBar.FlagsOfSetKey | frontend/src/components/CollapsibleFilterBar.tsx:94-99 | Editing a counted key rewrites exactly its flag. |
| CollapsibleFilterBar.AutoCollapse | frontend/src/components/CollapsibleFilterBar.tsx:39-62 | The bar collapses only when expanded with active filters, and never when none of the nine compared fields changed. |
| CollapsibleFilterBar.PagingNeverCollapses | frontend/src/components/CollapsibleFilterBar.tsx:41-50 | Changing only paging or the body area never collapses the bar. |
| CollapsibleFilterBar.FilterEditCollapses | frontend/src/components/CollapsibleFilterBar.tsx:39-62 | Setting a counted drop-down of an expanded bar to a new non-empty value collapses it. |
| CollapsibleFilterBar.Mount | frontend/src/components/CollapsibleFilterBar.tsx:64-77 | Mounting loads the stored preferences into the bar and saves nothing. When they are enabled and the page's filter is not, the filter is turned on with the stored mode. |
| CollapsibleFilterBar.SyncFromFilters | frontend/src/components/CollapsibleFilterBar.tsx:79-86 | The bar copies each equipment field the page sets and keeps its own otherwise. |
| CollapsibleFilterBar.ToggleAsWritten | frontend/src/components/CollapsibleFilterBar.tsx:101-111 | As written, turning off saves {off, "any"} and writes mode "off". Turning on reuses the bar's mode for both. |
| CollapsibleFilterBar.ToggleOffOnKeepsModeOff | frontend/src/components/CollapsibleFilterBar.tsx:79-111 | After off, the page's re-render and on again, the filter is enabled with mode "off", so the matcher stays off. |
| CollapsibleFilterBar.OnMode | frontend/src/components/CollapsibleFilterBar.tsx:103 | The mode used when turning on is never "off", and keeps any other mode. |
| CollapsibleFilterBar.Toggle | frontend/src/components/CollapsibleFilterBar.tsx:101-111 | Turning on enables the filter with a mode other than "off", saved and written alike. Turning off writes "off" and saves "any". Other keys are untouched. |
| CollapsibleFilterBar.ToggleAgreesUnlessOff | frontend/src/components/CollapsibleFilterBar.tsx:101-111 | The corrected toggle equals the written one whenever the bar's mode is not "off". |
| CollapsibleFilterBar.ModeChange | frontend/src/components/CollapsibleFilterBar.tsx:113-123 | The page always gets the mode, and preferences are saved exactly when the mode is not "off". |
| CollapsibleFilterBar.Clear | frontend/src/components/CollapsibleFilterBar.tsx:125-132 | Clearing gives the empty record with no active filter, saves the default preferences and resets the bar. |
| CollapsibleFilterBar.ClearThenMount | frontend/src/components/CollapsibleFilterBar.tsx:64-132 | After clearing, the next mount leaves the filter off and the page's record alone. |
| FilterBar.InputValue | frontend/src/components/FilterBar.tsx:24-30 | An empty input means undefined, and any other text is kept. |
| FilterBar.SetKey | frontend/src/components/FilterBar.tsx:27-32 | Only the named key changes, to the input value. Every other key, the equipment fields and the paging are kept. |
| FilterBar.FiltersExt | frontend/src/components/FilterBar.tsx:27-32 | Two records agreeing on every key, the equipment fields and the paging are equal. |
| FilterBar.SetKeyUndo | frontend/src/components/FilterBar.tsx:27-32 | Writing back a key's old non-empty text, or clearing a key that was absent, restores the record. |
| FilterBar.SearchChange | frontend/src/components/FilterBar.tsx:21-25 | The search box sets q the same way and keeps every other key and the paging. |
| FilterBar.ClearFilters | frontend/src/components/FilterBar.tsx:34-37 | Clearing leaves no key, no equipment field and no paging, so the limit is dropped too. |
| EquipmentSettings.Toggle | frontend/src/components/EquipmentSettingsModal.tsx:50-58 | A selected name loses every copy and an unselected one is appended, so membership flips and other names keep theirs. |
| EquipmentSettings.FilterShrinks | frontend/src/components/EquipmentSettingsModal.tsx:53 | Filtering out an element that occurs strictly shortens the list. |
| EquipmentSettings.ToggleTwice | frontend/src/components/EquipmentSettingsModal.tsx:50-58 | Two toggles restore every membership. |
| EquipmentSettings.ToggleOnOff | frontend/src/components/EquipmentSettingsModal.tsx:50-58 | Toggling an unselected name on and off gives back the same list. |
| EquipmentSettings.SelectAll | frontend/src/components/EquipmentSettingsModal.tsx:65-67 | Select-all holds exactly the listed types, as many as listed. |
| EquipmentSettings.DeselectAll | frontend/src/components/EquipmentSettingsModal.tsx:69-71 | Deselect-all holds nothing. |
| EquipmentSettings.Save | frontend/src/components/EquipmentSettingsModal.tsx:60-63 | Reading the stored list after saving gives the selection. |
| EquipmentSettings.SaveThenOpen | frontend/src/components/EquipmentSettingsModal.tsx:39-63 | Opening after a save shows what was saved. |
| FavoritesPage.Fetched | frontend/src/pages/FavoritesPage.tsx:36-46 | The list holds exactly the exercises some fetch returned, and is no longer than the ids. |
| FavoritesPage.FetchedInOrder | frontend/src/pages/FavoritesPage.tsx:36-46 | When all fetches succeed, the list is the fetched exercises in favourite order. When all fail, it is empty. |
| FavoritesPage.LoadFavoriteExercises | frontend/src/pages/FavoritesPage.tsx:22-54 | With no favourites, nothing is requested and the list is empty. Otherwise the list holds exactly the successful fetches. |
| FavoritesPage.HandleToggleFavorite | frontend/src/pages/FavoritesPage.tsx:78-84 | The store is toggled. Unfavouriting drops exactly the entries with that id and keeps the rest in order. Favouriting keeps the list. |
| FavoritesPage.UnfavoriteDropsIt | frontend/src/pages/FavoritesPage.tsx:78-84 | After unfavouriting from the page, the id is no favourite and no shown entry has it. |
| ExercisesPage.BodyAreaValues | frontend/src/pages/ExercisesPage.tsx:65-67 | Exactly the non-empty body areas of the exercises are gathered. |
| ExercisesPage.AllValues | frontend/src/pages/ExercisesPage.tsx:73-75 | Exactly the values occurring in some exercise's list are gathered. |
| ExercisesPage.AvailableBodyAreas | frontend/src/pages/ExercisesPage.tsx:63-69 | The options are strictly sorted, so duplicate-free. They are exactly the non-empty body areas that occur. |
| ExercisesPage.AvailableMuscles | frontend/src/pages/ExercisesPage.tsx:71-77 | The options are strictly sorted and are exactly the primary muscles that occur. |
| ExercisesPage.AvailableEquipment | frontend/src/pages/ExercisesPage.tsx:79-85 | The options are strictly sorted and are exactly the equipment that occurs. |
| ExercisesPage.OptionsDependOnlyOnValues | frontend/src/pages/ExercisesPage.tsx:63-85 | Lists with the same exercises, in any order or multiplicity, give the same three option lists. |
| GifUtils.IsGifUrlIffContainsGif | frontend/src/utils/gifUtils.ts:8-12 | The test holds exactly when the lower-cased URL contains "gif". The ".gif" and ".gif?" tests add nothing. |
| GifUtils.IsGifUrlIgnoresCase | frontend/src/utils/gifUtils.ts:10 | Upper-casing the URL does not change the answer. |
| GifUtils.GifTestExamples | frontend/src/utils/gifUtils.ts:8-12 | The empty URL is no GIF, "gifted.jpg" counts as one, and so does "IMG.GIF". |
| GifUtils.GetGifFrameUrls | frontend/src/utils/gifUtils.ts:67-72 | The result is the URL twice. |
| GifUtils.FrameUrlsIgnoreIndices | frontend/src/utils/gifUtils.ts:67-79 | The requested frames make no difference, and `shouldSplitGif` is "contains gif, ignoring case". |
| ThemeContext.ParseTheme | frontend/src/contexts/ThemeContext.tsx:19 | Exactly the five names are accepted, each as its own theme. |
| ThemeContext.ParseName | frontend/src/contexts/ThemeContext.tsx:19 | Every theme's name parses back to it. |
| ThemeContext.InitialTheme | frontend/src/contexts/ThemeContext.tsx:15-24 | A stored allowed name is used, and anything else gives "mermaid". |
| ThemeContext.ClassIsThemeClass | frontend/src/contexts/ThemeContext.tsx:31-35 | The class added is always one of the five the effect removes. |
| ThemeContext.ApplyClasses | frontend/src/contexts/ThemeContext.tsx:31-36 | Classes other than theme classes are untouched. Afterwards the only theme class is the theme's own, and none for "mermaid". |
| ThemeContext.Effect | frontend/src/contexts/ThemeContext.tsx:26-40 | The effect keeps the theme, applies its classes and stores its name. |
| ThemeContext.SetTheme | frontend/src/contexts/ThemeContext.tsx:42-44 | After `setTheme(t)` and the effect, t is current and stored. |
| ThemeContext.StorageRoundTrip | frontend/src/contexts/ThemeContext.tsx:15-40 | The stored name brings the same theme back on the next load, and a second effect changes nothing. |

## Left out

- **Rendering and styling.** JSX, CSS, carousel scale and opacity (floating point), and the components that only render are not modelled.
- **I/O.** `localStorage` is an `Option` slot, with JSON parsing and serialisation left out; a parse failure reads as a missing key. GitHub and ExerciseDB requests, SQLite writes, temporary files and GIF decoding are parameters or left out.
- **Time and concurrency.** Timers, debouncing and `async` are left out; every handler runs at once. The 300 ms auto-collapse delay is the collapse decision itself. The carousel lock timer is the `ExerciseCarousel.Unlock` event. The print view's 5-second timeout is a failed fetch.
- **Aliasing.** In-place mutation on shared objects is modelled as building new values: `ex.order = idx`, `push` on a shallow copy, and the in-place `sort`.
- **Missing workout.** The early returns of the workout editor when no workout is loaded are left out. Every handler takes the loaded workout.
- **One-field handlers.** The name and notes handlers of workouts and sessions, and the row editors, are record updates covered by `WorkoutDetailPage.ExerciseUpdate` and `WorkoutDetailPage.MapSessions`.
- **`loadFilterOptions`** of the browser dialog, the equipment dialog's `loadEquipmentData`, and the exercise fetch when a list entry is clicked are left out. Each only copies a server list into state.
- **Case mapping and sorting.** `toLowerCase` and `toUpperCase` are modelled on ASCII letters only. JavaScript's default `sort` compares UTF-16 code units, and `Seqs` compares characters, which agree on the Basic Multilingual Plane.
- **Schema drift.** The routes call service functions that `exerciseService.js` does not export, such as `getEquipments` and `searchExerciseDB`, and pass filters that `getExercises` ignores. The model states only the route's own decisions, with the services as parameters. `Routes.ServiceQuery` records which fields reach the service.
- **Legacy print field.** The print view reads a top-level `workout.exercises` list, which the `Workout` type does not declare and nothing writes. `Domain.Workout` carries it so the sheet can be modelled as written; a missing list is the empty one, since the view treats both alike. See the Findings table.
- GifService.PeakFrame: `Math.floor(n * 0.6)` is computed as (6n)/10 in integers, which is the same for every frame count a GIF can have; floating-point rounding is not modelled.
- GifService.TargetFrameIndex: requests below -1 and empty frame lists are not guarded by the source. The contract states the index bounds only under `GifService.TargetFrameInRange`'s preconditions, and `GifService.NoFramesNoIndex` shows the bad case.
- ExerciseService.Paginate: negative limits and offsets, which `Array.prototype.slice` counts from the end, are not described; the slice bound is stated for non-negative values only.
- ExerciseCarousel.Next: requires at least one card. The component renders nothing and attaches no handlers for an empty list, so no call with zero cards happens.
- ExerciseCarouselPage.LoadAllExercises: requires the totals of the answered requests to be bounded. This bound is what makes the loop end; a server reporting ever larger totals while sending full pages would keep it running. The `totalExercises` counter the loop also updates is not modelled.
- ExerciseBrowserModal.LoadAllExercises: the same bounded-total requirement as the page's loop. The failure's message is a parameter.
- SyncService.CheckSyncNeeded: time is integer milliseconds and the stored date integer seconds. "More than 24 hours" is compared exactly rather than in floating-point hours.
- SyncService.NoResyncAfterSync: stated for a later time within one day of the sync, since the floor to whole seconds can make the recorded date up to a second earlier than the sync.
- PrintView.LoadExercises: its own contract states only that keys are distinct. The lookup facts are stated per key by `PrintView.LoadedExercises`.
- PrintView.SortByOrder: stability of equal `order` values is not stated, since the JavaScript sort is stable but the property is not used.
- WorkoutDetailPage.MoveDownThenUp: needs distinct entry ids, because the move finds the first entry with the id.
- SyncService.ImageUrl: the record id is an optional string, so a JSON `null` id is treated as a missing one. The source's template then writes the directory "null", while the model writes "undefined", as it does for an absent id.
- WorkoutSelectorModal.HandleAdd: the workout list is a parameter. In the app it is the host page's snapshot from when the page mounted, since the dialog reads it once in its state initialiser and every host keeps it mounted. An "Add" after other edits can therefore save a copy of a stale workout over the stored one. The model does not represent this staleness.
- ExerciseCarousel.TouchStart, ExerciseCarousel.Swipe, ExerciseCarousel.TouchEnd: touch coordinates are integers, while `clientX` and `clientY` are floating-point pixels. Fractional distances and the exact 50-pixel edge under floating point are not modelled.

## Findings

| source | as written | input that shows it | evidently intended | confidence | as-written member | corrected member |
|---|---|---|---|---|---|---|
| frontend/src/components/ExerciseCarousel.tsx:45-51 | The wheel handler sets `isScrolling` before calling `goToNext` or `goToPrevious`, and both return at once while `isScrolling` is set. | Two cards at index 0, wheel `deltaY` 120: the carousel locks and stays at 0. | A large wheel delta moves one card, then locks until the timer fires. | high (not executed) | ExerciseCarousel.WheelAsWritten, ExerciseCarousel.WheelNeverMoves, ExerciseCarousel.WheelStuckExample | ExerciseCarousel.Wheel, ExerciseCarousel.WheelSteps |
| backend/src/services/exerciseService.js:54 | The body part is looked up in a plain object literal, so a lower-cased key naming an `Object.prototype` member returns that member, which is truthy, instead of "full body". | bodyPart "Constructor" returns the `Object` constructor function as the body area. | Keys outside the table map to "full body". | high (not executed) | ExerciseService.BodyAreaAsWritten, ExerciseService.BodyAreaAsWrittenLeaksPrototype | ExerciseService.MapBodyPartToBodyArea, ExerciseService.BodyAreaAgreesOutsidePrototype |
| frontend/src/components/CollapsibleFilterBar.tsx:101-111 | Turning the equipment filter off writes mode "off", which the bar copies back into its own mode. Turning it on again reuses that mode. | Enabled with "all", toggle off, re-render, toggle on: the page gets enabled with mode "off", so the matcher stays off. | Turning the filter on uses a real mode ("any" when the bar's mode is "off"). | medium (not executed) | CollapsibleFilterBar.ToggleAsWritten, CollapsibleFilterBar.ToggleOffOnKeepsModeOff | CollapsibleFilterBar.Toggle, CollapsibleFilterBar.ToggleAgreesUnlessOff |
| frontend/src/pages/PrintView.tsx:165 | The sheet lists the top-level `workout.exercises`, which the `Workout` type (frontend/src/types/index.ts:37-45) does not declare and no writer sets. The add dialog and the editor keep entries in `sessions`. | A workout created through the add dialog with one exercise: the sheet shows "No exercises found in this workout". | The sheet prints the workout's session entries. | high (not executed) | PrintView.PrintedItems, PrintView.DialogWorkoutPrintsNothing | PrintView.SessionPrintedItems, PrintView.SessionPrintPages, PrintView.DialogWorkoutPrintsItsExercise |

=== FILE: collapsible_filter_bar.dfy ===
/** The collapsible filter bar of the carousel page: active-filter counting,
    the auto-collapse decision, and the equipment-filter handlers, which keep
    a local (enabled, mode) pair, write the page's filter record and save the
    equipment preferences. */
module CollapsibleFilterBar {
  import opened Wrappers
  import opened Domain
  import opened Js
  import opened FilterBar
  import EquipmentStorage

  // ---------------------------------------------------------------------------
  // Counting and auto-collapse
  // ---------------------------------------------------------------------------

  /** JavaScript truthiness of an optional flag. */
  predicate FlagOn(b: Option<bool>) {
    b == Some(true)
  }

  /** The keys the bar counts; the body area (which this bar never shows),
      the mode and the paging fields are not among them. */
  predicate Counted(k: FilterKey) {
    k != BodyArea
  }

  /** `hasActiveFilters`. */
  predicate HasActiveFilters(f: Filters) {
    Truthy(f.q) || Truthy(f.bodyPart) || Truthy(f.primaryMuscle) ||
    Truthy(f.equipment) || Truthy(f.level) || Truthy(f.category) ||
    Truthy(f.exerciseType) || FlagOn(f.equipmentFilterEnabled)
  }

  /** The eight values whose truthy entries `activeFilterCount` counts. */
  function ActiveFlags(f: Filters): (r: seq<bool>)
    ensures |r| == 8
  {
    [Truthy(f.q), Truthy(f.bodyPart), Truthy(f.primaryMuscle), Truthy(f.equipment),
     Truthy(f.level), Truthy(f.category), Truthy(f.exerciseType),
     FlagOn(f.equipmentFilterEnabled)]
  }

  /** Where each counted key sits in `ActiveFlags`. */
  function Slot(k: FilterKey): (i: nat)
    requires Counted(k)
    ensures i < 7
  {
    match k
    case Q => 0
    case BodyPart => 1
    case PrimaryMuscle => 2
    case Equipment => 3
    case Level => 4
    case Category => 5
    case ExerciseType => 6
  }

  function CountTrue(s: seq<bool>): (n: nat)
    ensures n <= |s|
    ensures n == 0 <==> true !in s
  {
    if s == [] then 0 else (if s[0] then 1 else 0) + CountTrue(s[1..])
  }

  /** Changing one entry changes the count by that entry's contribution. */
  lemma {:induction false} CountTrueUpdate(s: seq<bool>, i: nat, b: bool)
    requires i < |s|
    ensures CountTrue(s[i := b]) == CountTrue(s) - (if s[i] then 1 else 0) + (if b then 1 else 0)
  {
    if i > 0 {
      assert s[i := b][1..] == s[1..][i - 1 := b];
      CountTrueUpdate(s[1..], i - 1, b);
    } else {
      assert s[i := b][1..] == s[1..];
    }
  }

  /** `activeFilterCount`: at most eight, and zero exactly when nothing is
      active. */
  function ActiveFilterCount(f: Filters): (n: nat)
    ensures n <= 8
    ensures n == 0 <==> !HasActiveFilters(f)
    ensures n > 0 <==> HasActiveFilters(f)
  {
    CountTrue(ActiveFlags(f))
  }

  /** Writing a counted key moves the count by at most one: it loses the old
      value's contribution and gains the new one's. The body area never moves
      it. */
  lemma SetKeyCount(f: Filters, k: FilterKey, value: string)
    ensures !Counted(k) ==> ActiveFilterCount(SetKey(f, k, value)) == ActiveFilterCount(f)
    ensures Counted(k) ==>
      ActiveFilterCount(SetKey(f, k, value)) ==
        ActiveFilterCount(f) - (if Truthy(Get(f, k)) then 1 else 0) + (if value != "" then 1 else 0)
  {
    var a, b := ActiveFlags(f), ActiveFlags(SetKey(f, k, value));
    if Counted(k) {
      var i := Slot(k);
      FlagsOfSetKey(f, k, value);
      SameExceptAt(a, b, i);
      CountTrueUpdate(a, i, value != "");
    } else {
      assert b == a;
    }
  }

  lemma SameExceptAt(a: seq<bool>, b: seq<bool>, i: nat)
    requires |a| == |b| && i < |a|
    requires forall j :: 0 <= j < |a| && j != i ==> b[j] == a[j]
    ensures b == a[i := b[i]]
  {
  }

  /** The counted key at each of the first seven slots. */
  function KeyAt(j: nat): (k: FilterKey)
    requires j < 7
    ensures Counted(k) && Slot(k) == j
  {
    [Q, BodyPart, PrimaryMuscle, Equipment, Level, Category, ExerciseType][j]
  }

  /** A counted key's slot holds that key's truthiness. */
  lemma SlotFlag(f: Filters, k: FilterKey)
    requires Counted(k)
    ensures ActiveFlags(f)[Slot(k)] == Truthy(Get(f, k))
  {
  }

  /** Writing a counted key rewrites exactly its slot of the flags. */
  lemma FlagsOfSetKey(f: Filters, k: FilterKey, value: string)
    requires Counted(k)
    ensures ActiveFlags(f)[Slot(k)] == Truthy(Get(f, k))
    ensures ActiveFlags(SetKey(f, k, value))[Slot(k)] == (value != "")
    ensures forall j :: 0 <= j < 8 && j != Slot(k) ==> ActiveFlags(SetKey(f, k, value))[j] == ActiveFlags(f)[j]
  {
    var g := SetKey(f, k, value);
    SlotFlag(f, k);
    SlotFlag(g, k);
    forall j | 0 <= j < 8 && j != Slot(k) ensures ActiveFlags(g)[j] == ActiveFlags(f)[j] {
      if j < 7 {
        SlotFlag(f, KeyAt(j));
        SlotFlag(g, KeyAt(j));
      }
    }
  }

  /** The nine fields the auto-collapse effect compares. */
  predicate FiltersChanged(prev: Filters, cur: Filters) {
    prev.q != cur.q || prev.bodyPart != cur.bodyPart || prev.primaryMuscle != cur.primaryMuscle ||
    prev.equipment != cur.equipment || prev.level != cur.level || prev.category != cur.category ||
    prev.exerciseType != cur.exerciseType ||
    prev.equipmentFilterEnabled != cur.equipmentFilterEnabled ||
    prev.equipmentFilterMode != cur.equipmentFilterMode
  }

  /** The bar collapses when a compared field changed while it is expanded
      and some filter is active. */
  function AutoCollapse(prev: Filters, cur: Filters, expanded: bool): (collapse: bool)
    ensures collapse ==> expanded && HasActiveFilters(cur)
    ensures !FiltersChanged(prev, cur) ==> !collapse
  {
    FiltersChanged(prev, cur) && expanded && HasActiveFilters(cur)
  }

  /** Paging and the body area are not compared: changing only those never
      collapses the bar. */
  lemma PagingNeverCollapses(f: Filters, bodyArea: Option<string>, limit: Option<int>, offset: Option<int>, expanded: bool)
    ensures !AutoCollapse(f, f.(bodyArea := bodyArea, limit := limit, offset := offset), expanded)
  {
  }

  /** Editing a drop-down of an expanded bar to a non-empty value different
      from the current one collapses it. */
  lemma FilterEditCollapses(f: Filters, k: FilterKey, value: string)
    requires Counted(k) && value != "" && Get(f, k) != Some(value)
    ensures AutoCollapse(f, SetKey(f, k, value), true)
  {
    SetKeyCount(f, k, value);
    var g := SetKey(f, k, value);
    assert Get(g, k) != Get(f, k);
  }

  // ---------------------------------------------------------------------------
  // Equipment-filter handlers
  // ---------------------------------------------------------------------------

  /** The bar's own equipment state (`equipmentFilterEnabled`,
      `equipmentFilterMode`). */
  datatype BarState = BarState(enabled: bool, mode: FilterMode)

  const InitialBarState := BarState(false, Any)

  /** What a handler produces: the bar's new state, the preferences it saved
      (if any) and the record it passes to the page. */
  datatype Outcome = Outcome(state: BarState, saved: Option<EquipmentStorage.Preferences>, filters: Filters)

  /** The mount effect: load the preferences into the bar, and turn the
      page's filter on when the preferences say so and it is not on yet. */
  function Mount(prefs: EquipmentStorage.PrefsSlot, f: Filters): (r: Outcome)
    ensures r.state.enabled == EquipmentStorage.GetPreferences(prefs).enabled
    ensures r.state.mode == EquipmentStorage.GetPreferences(prefs).filterMode
    ensures r.saved.None?
    ensures EquipmentStorage.GetPreferences(prefs).enabled && !FlagOn(f.equipmentFilterEnabled) ==>
      r.filters == f.(equipmentFilterEnabled := Some(true),
                      equipmentFilterMode := Some(EquipmentStorage.GetPreferences(prefs).filterMode))
    ensures !(EquipmentStorage.GetPreferences(prefs).enabled && !FlagOn(f.equipmentFilterEnabled)) ==>
      r.filters == f
  {
    var p := EquipmentStorage.GetPreferences(prefs);
    var f' := if p.enabled && f.equipmentFilterEnabled != Some(true)
      then f.(equipmentFilterEnabled := Some(true), equipmentFilterMode := Some(p.filterMode))
      else f;
    Outcome(BarState(p.enabled, p.filterMode), None, f')
  }

  /** The effect that copies the page's equipment fields back into the bar
      whenever they are set (every mode is a non-empty string). */
  function SyncFromFilters(st: BarState, f: Filters): (r: BarState)
    ensures f.equipmentFilterEnabled.Some? ==> r.enabled == f.equipmentFilterEnabled.value
    ensures f.equipmentFilterEnabled.None? ==> r.enabled == st.enabled
    ensures f.equipmentFilterMode.Some? ==> r.mode == f.equipmentFilterMode.value
    ensures f.equipmentFilterMode.None? ==> r.mode == st.mode
  {
    BarState(f.equipmentFilterEnabled.GetOr(st.enabled), f.equipmentFilterMode.GetOr(st.mode))
  }

  /** `handleEquipmentFilterToggle` as written: turning on reuses the bar's
      mode, whatever it is; turning off writes mode "off" to the page and
      saves {false, "any"}. */
  function ToggleAsWritten(st: BarState, f: Filters, enabled: bool): (r: Outcome)
    ensures r.state == st.(enabled := enabled)
    ensures r.saved == Some(EquipmentStorage.Preferences(enabled, if enabled then st.mode else Any))
    ensures r.filters.equipmentFilterEnabled == Some(enabled)
    ensures r.filters.equipmentFilterMode == Some(if enabled then st.mode else Off)
    ensures forall k :: Get(r.filters, k) == Get(f, k)
    ensures r.filters.limit == f.limit && r.filters.offset == f.offset
  {
    var mode := if enabled then st.mode else Any;
    Outcome(st.(enabled := enabled),
            Some(EquipmentStorage.Preferences(enabled, mode)),
            f.(equipmentFilterEnabled := Some(enabled), equipmentFilterMode := Some(if enabled then mode else Off)))
  }

  /** Off, the page re-render that copies "off" into the bar, then on: the
      filter is on with mode "off" (which filters nothing), and {true, "off"}
      is saved, so the next mount turns it on with mode "off" again. */
  lemma ToggleOffOnKeepsModeOff(f: Filters)
    ensures var st := BarState(true, All);
      var off := ToggleAsWritten(st, f, false);
      var on := ToggleAsWritten(SyncFromFilters(off.state, off.filters), off.filters, true);
      on.filters.equipmentFilterEnabled == Some(true) &&
      on.filters.equipmentFilterMode == Some(Off) &&
      on.saved == Some(EquipmentStorage.Preferences(true, Off)) &&
      Mount(on.saved, NoFilters).filters.equipmentFilterMode == Some(Off)
  {
  }

  /** The mode the toggle uses when turning the filter on: the bar's mode,
      with a leftover "off" read as the default "any". */
  function OnMode(mode: FilterMode): (r: FilterMode)
    ensures r != Off
    ensures mode != Off ==> r == mode
  {
    if mode == Off then Any else mode
  }

  /** `handleEquipmentFilterToggle` with the mode it evidently means: turning
      the filter on always filters by "any" or "all". */
  function Toggle(st: BarState, f: Filters, enabled: bool): (r: Outcome)
    ensures r.state == st.(enabled := enabled)
    ensures r.saved.Some? && r.saved.value.enabled == enabled && r.saved.value.filterMode != Off
    ensures r.filters.equipmentFilterEnabled == Some(enabled)
    ensures enabled ==> r.filters.equipmentFilterMode == Some(r.saved.value.filterMode)
    ensures !enabled ==> r.filters.equipmentFilterMode == Some(Off) && r.saved.value.filterMode == Any
    ensures forall k :: Get(r.filters, k) == Get(f, k)
    ensures r.filters.limit == f.limit && r.filters.offset == f.offset
  {
    var mode := if enabled then OnMode(st.mode) else Any;
    Outcome(st.(enabled := enabled),
            Some(EquipmentStorage.Preferences(enabled, mode)),
            f.(equipmentFilterEnabled := Some(enabled), equipmentFilterMode := Some(if enabled then mode else Off)))
  }

  /** The corrected toggle agrees with the written one whenever the bar's
      mode is "any" or "all", and after off-then-on the filter filters. */
  lemma ToggleAgreesUnlessOff(st: BarState, f: Filters, enabled: bool)
    ensures st.mode != Off ==> Toggle(st, f, enabled) == ToggleAsWritten(st, f, enabled)
    ensures var off := Toggle(st, f, false);
      var on := Toggle(SyncFromFilters(off.state, off.filters), off.filters, true);
      on.filters.equipmentFilterMode == Some(Any) && on.saved == Some(EquipmentStorage.Preferences(true, Any))
  {
  }

  /** `handleEquipmentFilterModeChange`: the page always gets the mode; the
      preferences are saved only for "any" or "all". */
  function ModeChange(st: BarState, f: Filters, mode: FilterMode): (r: Outcome)
    ensures r.state == st.(mode := mode)
    ensures r.saved.Some? <==> mode != Off
    ensures r.saved.Some? ==> r.saved.value == EquipmentStorage.Preferences(st.enabled, mode)
    ensures r.filters == f.(equipmentFilterMode := Some(mode))
  {
    Outcome(st.(mode := mode),
            if mode != Off then Some(EquipmentStorage.Preferences(st.enabled, mode)) else None,
            f.(equipmentFilterMode := Some(mode)))
  }

  /** `clearFilters`: the empty record, the bar back to {off, "any"}, and the
      default preferences saved. */
  function Clear(): (r: Outcome)
    ensures r.state == InitialBarState
    ensures r.saved == Some(EquipmentStorage.DefaultPreferences)
    ensures !HasActiveFilters(r.filters) && ActiveFilterCount(r.filters) == 0
    ensures forall k :: Get(r.filters, k).None?
  {
    Outcome(InitialBarState, Some(EquipmentStorage.DefaultPreferences), ClearFilters())
  }

  /** After clearing, the next mount leaves the page's filter off. */
  lemma ClearThenMount(f: Filters)
    ensures Mount(Clear().saved, f).filters == f
    ensures !Mount(Clear().saved, f).state.enabled
  {
  }
}

=== FILE: create_custom_exercise_modal.dfy ===
/** The custom-exercise form's `handleSubmit`: the raw text fields become an
    exercise record under a `custom_` id and are saved to the custom store;
    then the form is cleared. The UUID is a parameter. */
module CreateCustomExerciseModal {
  import opened Wrappers
  import opened Text
  import opened Seqs
  import opened Domain
  import CustomExerciseStorage

  /** The form's text fields. */
  datatype Form = Form(
    name: string,
    description: string,
    bodyPart: string,
    primaryMuscles: string,
    equipment: string,
    instructions: string,
    imageUrl: string)

  const EmptyForm := Form("", "", "", "", "", "", "")

  function NonEmpty(): string -> bool {
    (x: string) => x != ""
  }

  /** `s.split(',').map(x => x.trim()).filter(Boolean)`. */
  function CommaList(s: string): (r: seq<string>)
    ensures forall x :: x in r ==> x != "" && IsTrimmed(x) && ',' !in x
    ensures forall x :: x in r <==> x != "" && x in TrimAll(Split(s, ','))
    ensures IsSubseq(r, TrimAll(Split(s, ',')))
  {
    var parts := Split(s, ',');
    var trimmed := TrimAll(parts);
    forall x | x in trimmed ensures ',' !in x {
      var i :| 0 <= i < |trimmed| && trimmed[i] == x;
      TrimSubstring(parts[i]);
    }
    Filter(trimmed, NonEmpty())
  }

  /** Trimming keeps a contiguous piece of the string, so it adds no
      character. */
  lemma TrimSubstring(s: string)
    ensures forall c :: c in Trim(s) ==> c in s
  {
    var t := TrimStart(s);
    var r := TrimEnd(t);
    assert forall c :: c in r ==> c in t;
    assert forall c :: c in t ==> c in s;
  }

  /** A comma-joined list of non-empty, trimmed, comma-free names reads back
      as the same list. */
  lemma CommaListJoin(names: seq<string>)
    requires |names| >= 1
    requires forall i :: 0 <= i < |names| ==> names[i] != "" && IsTrimmed(names[i]) && ',' !in names[i]
    ensures CommaList(Join(names, [','])) == names
  {
    SplitJoin(names, ',');
    forall i | 0 <= i < |names| ensures Trim(names[i]) == names[i] {
      TrimNoop(names[i]);
    }
    assert TrimAll(names) == names;
    FilterAll(names, NonEmpty());
  }

  /** `s.split('\n').filter(Boolean)`: empty lines go, others stay as they
      are. */
  function Lines(s: string): (r: seq<string>)
    ensures forall x :: x in r ==> x != "" && '\n' !in x
    ensures forall x :: x in r <==> x != "" && x in Split(s, '\n')
    ensures IsSubseq(r, Split(s, '\n'))
  {
    Filter(Split(s, '\n'), NonEmpty())
  }

  /** Lines that are not trimmed keep their white space: a line of blanks is
      an instruction of its own. */
  lemma BlankLinesSurvive()
    ensures Lines(" \n\nPush") == [" ", "Push"]
  {
    assert Join([" ", "", "Push"], ['\n']) == " \n\nPush";
    SplitJoin([" ", "", "Push"], '\n');
  }

  /** Joining non-empty lines with line breaks and splitting again gives the
      lines back. */
  lemma LinesJoin(lines: seq<string>)
    requires |lines| >= 1
    requires forall i :: 0 <= i < |lines| ==> lines[i] != "" && '\n' !in lines[i]
    ensures Lines(Join(lines, ['\n'])) == lines
  {
    SplitJoin(lines, '\n');
    FilterAll(lines, NonEmpty());
  }

  /** The record `handleSubmit` builds. */
  function NewExercise(form: Form, uuid: string): (e: Exercise)
    ensures e.id == CustomExerciseStorage.CustomExercisePrefix + uuid
    ensures CustomExerciseStorage.IsCustomExercise(e.id)
    ensures e.name == Trim(form.name) && e.description == Trim(form.description)
    ensures e.bodyPart == (if Trim(form.bodyPart) != "" then Trim(form.bodyPart) else "other") && e.bodyPart != ""
    ensures e.primaryMuscles == CommaList(form.primaryMuscles) && e.equipment == CommaList(form.equipment)
    ensures e.instructions == Lines(form.instructions)
    ensures e.imageUrls == (if Trim(form.imageUrl) != "" then [Trim(form.imageUrl)] else [])
    ensures e.secondaryMuscles == [] && e.tags == []
    ensures e.category == "custom" && e.level == "intermediate" && e.sourceId == "custom"
    ensures e.exerciseType == "STRENGTH"
  {
    var id := CustomExerciseStorage.CustomExercisePrefix + uuid;
    assert StartsWith(id, CustomExerciseStorage.CustomExercisePrefix) by {
      assert id[..|CustomExerciseStorage.CustomExercisePrefix|] == CustomExerciseStorage.CustomExercisePrefix;
    }
    var bodyPart := Trim(form.bodyPart);
    var url := Trim(form.imageUrl);
    Exercise(id, Trim(form.name), "", if bodyPart != "" then bodyPart else "other",
             CommaList(form.primaryMuscles), [], CommaList(form.equipment),
             "custom", "intermediate", Trim(form.description), Lines(form.instructions),
             if url != "" then [url] else [], "custom", [], "STRENGTH", None, None)
  }

  /** Submit: save the exercise, report it, clear the form. */
  function HandleSubmit(store: CustomExerciseStorage.Store, form: Form, uuid: string)
    : (r: (CustomExerciseStorage.Store, Exercise, Form))
    ensures r.1 == NewExercise(form, uuid)
    ensures CustomExerciseStorage.GetCustomExerciseById(r.0, r.1.id) == Some(r.1)
    ensures r.2 == EmptyForm
  {
    var e := NewExercise(form, uuid);
    (CustomExerciseStorage.SaveCustomExercise(store, e), e, EmptyForm)
  }

  /** A field of blanks lists nothing: it has no comma, so it is one part,
      and that part trims to nothing. */
  lemma CommaListOfBlanks(s: string)
    requires forall i :: 0 <= i < |s| ==> IsSpace(s[i])
    ensures CommaList(s) == []
  {
    assert ',' !in s;
    assert Join([s], [',']) == s;
    SplitJoin([s], ',');
    assert TrimAll([s]) == [""];
  }

  /** The name input is `required`, so the browser stops an empty name but
      not one of blanks. Such a form, with the other text fields blank too
      and no instructions, saves an exercise with an empty name, body part
      "other" and empty lists. */
  lemma BlankFormExercise(form: Form, uuid: string)
    requires forall i :: 0 <= i < |form.name| ==> IsSpace(form.name[i])
    requires forall i :: 0 <= i < |form.bodyPart| ==> IsSpace(form.bodyPart[i])
    requires forall i :: 0 <= i < |form.primaryMuscles| ==> IsSpace(form.primaryMuscles[i])
    requires forall i :: 0 <= i < |form.equipment| ==> IsSpace(form.equipment[i])
    requires forall i :: 0 <= i < |form.imageUrl| ==> IsSpace(form.imageUrl[i])
    requires form.instructions == ""
    ensures var e := NewExercise(form, uuid);
      e.name == "" && e.bodyPart == "other" && e.primaryMuscles == [] && e.equipment == [] &&
      e.instructions == [] && e.imageUrls == []
  {
    CommaListOfBlanks(form.primaryMuscles);
    CommaListOfBlanks(form.equipment);
    assert Split("", '\n') == [""];
  }
}

=== FILE: custom_exercise_storage.dfy ===
/** The store of user-made exercises, kept in a `localStorage` slot (`None`
    when never written), and the id prefix that marks them. */
module CustomExerciseStorage {
  import opened Wrappers
  import Storage
  import opened Text
  import opened Seqs
  import opened Records
  import opened Domain

  type Store = Option<seq<Exercise>>

  const CustomExercisePrefix := "custom_"

  /** `getCustomExercises`: a missing key reads as no custom exercises. */
  function GetCustomExercises(store: Store): seq<Exercise>
  {
    Storage.Read(store, [])
  }

  /** `getCustomExerciseById`: the first exercise with that id, or null. */
  function GetCustomExerciseById(store: Store, id: string): (r: Option<Exercise>)
    ensures r.None? <==> !HasKey(GetCustomExercises(store), ExerciseId, id)
    ensures r.Some? ==> r.value in GetCustomExercises(store) && r.value.id == id
  {
    Find(GetCustomExercises(store), ExerciseId, id)
  }

  /** `saveCustomExercise`: replace the first entry with the id in place, or
      append. */
  function SaveCustomExercise(store: Store, e: Exercise): (r: Store)
    ensures r.Some?
    ensures HasKey(GetCustomExercises(store), ExerciseId, e.id) ==>
      |r.value| == |GetCustomExercises(store)| &&
      exists i :: 0 <= i < |GetCustomExercises(store)| &&
                  r.value == GetCustomExercises(store)[i := e] &&
                  GetCustomExercises(store)[i].id == e.id &&
                  forall j :: 0 <= j < i ==> GetCustomExercises(store)[j].id != e.id
    ensures !HasKey(GetCustomExercises(store), ExerciseId, e.id) ==>
      r.value == GetCustomExercises(store) + [e]
    ensures GetCustomExerciseById(r, e.id) == Some(e)
  {
    Some(Upsert(GetCustomExercises(store), ExerciseId, e))
  }

  /** `deleteCustomExercise`: every entry with the id goes; the rest stay in
      order. */
  function DeleteCustomExercise(store: Store, id: string): (r: Store)
    ensures r.Some?
    ensures forall e :: e in r.value <==> e in GetCustomExercises(store) && e.id != id
    ensures IsSubseq(r.value, GetCustomExercises(store))
    ensures GetCustomExerciseById(r, id).None?
    ensures !HasKey(GetCustomExercises(store), ExerciseId, id) ==> r.value == GetCustomExercises(store)
  {
    Some(RemoveKey(GetCustomExercises(store), ExerciseId, id))
  }

  /** `isCustomExercise`. */
  predicate IsCustomExercise(id: string) {
    StartsWith(id, CustomExercisePrefix)
  }

  /** Every id built from the prefix is a custom id, and every custom id is
      the prefix followed by something. */
  lemma CustomIdIffPrefixed(id: string)
    ensures IsCustomExercise(id) <==> exists u :: id == CustomExercisePrefix + u
  {
    if IsCustomExercise(id) {
      assert id == CustomExercisePrefix + id[|CustomExercisePrefix|..];
    }
    if exists u :: id == CustomExercisePrefix + u {
      var u :| id == CustomExercisePrefix + u;
      assert id[..|CustomExercisePrefix|] == CustomExercisePrefix;
    }
  }

  /** Saving an exercise and deleting it again restores a store that did not
      hold its id. */
  lemma SaveThenDelete(store: Store, e: Exercise)
    requires !HasKey(GetCustomExercises(store), ExerciseId, e.id)
    ensures GetCustomExercises(DeleteCustomExercise(SaveCustomExercise(store, e), e.id)) ==
            GetCustomExercises(store)
  {
    RemoveKeyOfAppended(GetCustomExercises(store), ExerciseId, e);
  }
}

=== FILE: domain.dfy ===
/** The records the application passes around. Each record holds every field
    that some part of the source reads; fields an object may lack are `Option`s,
    except the text fields `bodyArea`, `bodyPart` and `exerciseType` of
    `Exercise`, where a missing value is the empty string (both are falsy in
    the source, which only ever tests them for truthiness). */
module Domain {
  import opened Wrappers

  datatype Exercise = Exercise(
    id: string,
    name: string,
    bodyArea: string,
    bodyPart: string,
    primaryMuscles: seq<string>,
    secondaryMuscles: seq<string>,
    equipment: seq<string>,
    category: string,
    level: string,
    description: string,
    instructions: seq<string>,
    imageUrls: seq<string>,
    sourceId: string,
    tags: seq<string>,
    exerciseType: string,
    force: Option<string>,
    mechanic: Option<string>)

  /** One exercise placed in a session, with the user's prescription. */
  datatype SessionExercise = SessionExercise(
    id: string,
    exerciseId: string,
    order: int,
    sets: Option<int>,
    reps: Option<string>,
    weight: Option<string>,
    tempo: Option<string>,
    rest: Option<string>,
    customTips: Option<string>)

  type PerPage = n: int | 2 <= n <= 4 witness 2

  datatype PrintConfig = PrintConfig(
    exercisesPerPage: PerPage,
    showImage: bool,
    showName: bool,
    showDescription: bool,
    showInstructions: bool,
    showCustomTips: bool,
    showSetsReps: bool,
    showWeight: bool,
    showRest: bool,
    condenseInstructions: bool)

  datatype Session = Session(
    id: string,
    name: string,
    notes: string,
    exercises: seq<SessionExercise>,
    printConfigOverride: Option<PrintConfig>)

  /** A workout. The editor keeps exercises inside `sessions`. `exercises` is
      the top-level list the print view reads: the source's `Workout` type
      does not declare it and no writer sets it, so it is empty (absent in
      the source) for every workout the app builds. */
  datatype Workout = Workout(
    id: string,
    name: string,
    description: string,
    createdAt: string,
    updatedAt: string,
    sessions: seq<Session>,
    printConfig: Option<PrintConfig>,
    exercises: seq<SessionExercise>)

  /** How the owned-equipment filter treats an exercise's equipment list. */
  datatype FilterMode = All | Any | Off

  /** The filter record the client pages keep and send to the server. */
  datatype Filters = Filters(
    q: Option<string>,
    bodyArea: Option<string>,
    bodyPart: Option<string>,
    primaryMuscle: Option<string>,
    equipment: Option<string>,
    level: Option<string>,
    category: Option<string>,
    exerciseType: Option<string>,
    equipmentFilterEnabled: Option<bool>,
    equipmentFilterMode: Option<FilterMode>,
    limit: Option<int>,
    offset: Option<int>)

  /** The empty filter record `{}`. */
  const NoFilters := Filters(None, None, None, None, None, None, None, None, None, None, None, None)

  /** A new session entry as both editors build it: every prescription
      field `null`. */
  function BlankEntry(id: string, exerciseId: string, order: int): (e: SessionExercise)
    ensures e.id == id && e.exerciseId == exerciseId && e.order == order
    ensures e.sets.None? && e.reps.None? && e.weight.None?
    ensures e.tempo.None? && e.rest.None? && e.customTips.None?
  {
    SessionExercise(id, exerciseId, order, None, None, None, None, None, None)
  }

  function ExerciseId(e: Exercise): string { e.id }
  function WorkoutId(w: Workout): string { w.id }
  function SessionId(s: Session): string { s.id }
  function EntryId(e: SessionExercise): string { e.id }
}

=== FILE: equipment_settings.dfy ===
/** The equipment settings dialog: a selection of generic equipment names
    edited by toggling, select-all and deselect-all, and saved to the owned
    equipment slot. */
module EquipmentSettings {
  import opened Wrappers
  import opened Seqs
  import EquipmentStorage

  /** `handleEquipmentToggle`: a selected name is removed (every copy);
      any other name is appended. */
  function Toggle(selected: seq<string>, name: string): (r: seq<string>)
    ensures name in r <==> name !in selected
    ensures forall x :: x != name ==> (x in r <==> x in selected)
    ensures name in selected ==> IsSubseq(r, selected) && |r| < |selected|
    ensures name !in selected ==> r == selected + [name]
    ensures NoDups(selected) ==> NoDups(r)
  {
    if name in selected then
      var r := Filter(selected, x => x != name);
      FilterShrinks(selected, x => x != name, name);
      FilterNoDups(selected, x => x != name);
      r
    else selected + [name]
  }

  /** Filtering out an element that occurs strictly shortens the list. */
  lemma {:induction false} FilterShrinks(s: seq<string>, keep: string -> bool, x: string)
    requires x in s && !keep(x)
    ensures |Filter(s, keep)| < |s|
  {
    if s[0] == x {
      assert Filter(s, keep) == Filter(s[1..], keep);
    } else {
      FilterShrinks(s[1..], keep, x);
    }
  }

  /** Two toggles of the same name restore the membership of every name. */
  lemma ToggleTwice(selected: seq<string>, name: string)
    ensures forall x :: x in Toggle(Toggle(selected, name), name) <==> x in selected
  {
  }

  /** Toggling an unselected name on and off again gives back the same
      list. */
  lemma ToggleOnOff(selected: seq<string>, name: string)
    requires name !in selected
    ensures Toggle(Toggle(selected, name), name) == selected
  {
    FilterAppend(selected, name, x => x != name);
    FilterAll(selected, x => x != name);
  }

  /** `handleSelectAll`: a copy of every type the server lists. */
  function SelectAll(allTypes: seq<string>): (r: seq<string>)
    ensures forall x :: x in r <==> x in allTypes
    ensures |r| == |allTypes|
  {
    allTypes
  }

  /** `handleDeselectAll`. */
  function DeselectAll(): (r: seq<string>)
    ensures forall x :: x !in r
  {
    []
  }

  /** `handleSave` writes the selection; reading the slot back gives it. */
  function Save(selected: seq<string>): (r: EquipmentStorage.AvailableSlot)
    ensures EquipmentStorage.GetAvailableEquipment(r) == selected
  {
    EquipmentStorage.SaveAvailableEquipment(selected)
  }

  /** Opening the dialog loads the saved selection, so opening right after a
      save shows what was saved. */
  lemma SaveThenOpen(selected: seq<string>, name: string)
    ensures EquipmentStorage.GetAvailableEquipment(Save(Toggle(selected, name))) == Toggle(selected, name)
  {
  }
}

=== FILE: equipment_storage.dfy ===
/** The equipment store: three `localStorage` slots holding the owned
    generic equipment names, the user's custom equipment (each mapped onto
    generic names), and the equipment-filter preferences. A slot is `None`
    when it was never written (or was cleared). */
module EquipmentStorage {
  import opened Wrappers
  import Storage
  import opened Seqs
  import opened Records
  import opened Domain

  // ---------------------------------------------------------------------------
  // Owned generic equipment
  // ---------------------------------------------------------------------------

  type AvailableSlot = Option<seq<string>>

  /** `getAvailableEquipment`: a missing key reads as no equipment. */
  function GetAvailableEquipment(slot: AvailableSlot): seq<string>
  {
    Storage.Read(slot, [])
  }

  function SaveAvailableEquipment(equipment: seq<string>): AvailableSlot
  {
    Storage.Write(equipment)
  }

  /** Whatever was saved is what is read back. */
  lemma AvailableRoundTrip(equipment: seq<string>)
    ensures GetAvailableEquipment(SaveAvailableEquipment(equipment)) == equipment
  {
  }

  /** Clearing removes the key, so the next read is the empty list. */
  function ClearAvailableEquipment(slot: AvailableSlot): (r: AvailableSlot)
    ensures GetAvailableEquipment(r) == []
  {
    Storage.Remove()
  }

  // ---------------------------------------------------------------------------
  // Custom equipment
  // ---------------------------------------------------------------------------

  datatype CustomEquipment = CustomEquipment(id: string, name: string, mapsTo: seq<string>)

  function EquipmentId(e: CustomEquipment): string { e.id }

  type CustomSlot = Option<seq<CustomEquipment>>

  /** `getCustomEquipment`: a missing key reads as no custom equipment. */
  function GetCustomEquipment(slot: CustomSlot): seq<CustomEquipment>
  {
    Storage.Read(slot, [])
  }

  /** `addCustomEquipment`: the new entry gets the fresh id, is appended, and
      is returned; the entries already stored are untouched. */
  function AddCustomEquipment(slot: CustomSlot, name: string, mapsTo: seq<string>, freshId: string)
    : (r: (CustomSlot, CustomEquipment))
    ensures r.1.id == freshId && r.1.name == name && r.1.mapsTo == mapsTo
    ensures GetCustomEquipment(r.0) == GetCustomEquipment(slot) + [r.1]
    ensures !HasKey(GetCustomEquipment(slot), EquipmentId, freshId) ==>
      Find(GetCustomEquipment(r.0), EquipmentId, freshId) == Some(r.1)
  {
    var e := CustomEquipment(freshId, name, mapsTo);
    var s := GetCustomEquipment(slot);
    assert EquipmentId((s + [e])[|s|]) == freshId;
    (Some(s + [e]), e)
  }

  /** A `Partial<CustomEquipment>`: each present field overrides. */
  datatype EquipmentPatch = EquipmentPatch(id: Option<string>, name: Option<string>, mapsTo: Option<seq<string>>)

  function Merge(e: CustomEquipment, p: EquipmentPatch): (r: CustomEquipment)
    ensures r.id == p.id.GetOr(e.id)
    ensures r.name == p.name.GetOr(e.name)
    ensures r.mapsTo == p.mapsTo.GetOr(e.mapsTo)
  {
    CustomEquipment(p.id.GetOr(e.id), p.name.GetOr(e.name), p.mapsTo.GetOr(e.mapsTo))
  }

  /** `updateCustomEquipment`: merges the patch into the first entry with the
      id; an unknown id writes nothing. */
  function UpdateCustomEquipment(slot: CustomSlot, id: string, patch: EquipmentPatch): (r: CustomSlot)
    ensures !HasKey(GetCustomEquipment(slot), EquipmentId, id) ==> r == slot
    ensures |GetCustomEquipment(r)| == |GetCustomEquipment(slot)|
    ensures HasKey(GetCustomEquipment(slot), EquipmentId, id) ==>
      var s := GetCustomEquipment(slot);
      var i := FindIndex(s, EquipmentId, id).value;
      GetCustomEquipment(r)[i] == Merge(s[i], patch) &&
      (forall j :: 0 <= j < |s| && j != i ==> GetCustomEquipment(r)[j] == s[j]) &&
      (forall j :: 0 <= j < i ==> s[j].id != id)
  {
    var s := GetCustomEquipment(slot);
    match FindIndex(s, EquipmentId, id)
    case None => slot
    case Some(i) => Some(s[i := Merge(s[i], patch)])
  }

  /** An empty patch leaves every entry as it was. */
  lemma EmptyPatchKeepsEntries(slot: CustomSlot, id: string)
    ensures GetCustomEquipment(UpdateCustomEquipment(slot, id, EquipmentPatch(None, None, None))) ==
      GetCustomEquipment(slot)
  {
    var s := GetCustomEquipment(slot);
    if HasKey(s, EquipmentId, id) {
      var i := FindIndex(s, EquipmentId, id).value;
      assert Merge(s[i], EquipmentPatch(None, None, None)) == s[i];
    }
  }

  /** `deleteCustomEquipment`: every entry with the id goes; the rest keep
      their order. */
  function DeleteCustomEquipment(slot: CustomSlot, id: string): (r: CustomSlot)
    ensures r.Some?
    ensures !HasKey(GetCustomEquipment(r), EquipmentId, id)
    ensures forall e :: e in GetCustomEquipment(r) <==> e in GetCustomEquipment(slot) && e.id != id
    ensures IsSubseq(GetCustomEquipment(r), GetCustomEquipment(slot))
  {
    Some(RemoveKey(GetCustomEquipment(slot), EquipmentId, id))
  }

  /** Deleting what was just added gives back the earlier list. */
  lemma DeleteUndoesAdd(slot: CustomSlot, name: string, mapsTo: seq<string>, freshId: string)
    requires !HasKey(GetCustomEquipment(slot), EquipmentId, freshId)
    ensures GetCustomEquipment(DeleteCustomEquipment(AddCustomEquipment(slot, name, mapsTo, freshId).0, freshId)) ==
      GetCustomEquipment(slot)
  {
    var e := CustomEquipment(freshId, name, mapsTo);
    RemoveKeyOfAppended(GetCustomEquipment(slot), EquipmentId, e);
  }

  function MapsToLists(s: seq<CustomEquipment>): (r: seq<seq<string>>)
    ensures |r| == |s| && forall i :: 0 <= i < |s| ==> r[i] == s[i].mapsTo
  {
    seq(|s|, i requires 0 <= i < |s| => s[i].mapsTo)
  }

  /** `getMappedGenericEquipment`: the generic names the custom equipment
      covers, without duplicates, in order of first appearance across the
      entries' `mapsTo` lists. */
  function MappedGenericEquipment(slot: CustomSlot): (r: seq<string>)
    ensures NoDups(r)
    ensures forall t :: t in r <==>
      exists i :: 0 <= i < |GetCustomEquipment(slot)| && t in GetCustomEquipment(slot)[i].mapsTo
    ensures var all := Flatten(MapsToLists(GetCustomEquipment(slot)));
      (forall t :: t in r <==> t in all) &&
      forall i, j :: 0 <= i < j < |r| ==> FirstIndex(all, r[i]) < FirstIndex(all, r[j])
  {
    var lists := MapsToLists(GetCustomEquipment(slot));
    var r := Dedup(Flatten(lists));
    assert forall t :: t in r <==> exists i :: 0 <= i < |lists| && t in lists[i];
    r
  }

  /** `hasGenericEquipment`: some custom entry maps onto the name. */
  predicate HasGenericEquipment(slot: CustomSlot, genericType: string) {
    exists e :: e in GetCustomEquipment(slot) && genericType in e.mapsTo
  }

  /** The direct check and the union agree. */
  lemma HasGenericIffMapped(slot: CustomSlot, genericType: string)
    ensures HasGenericEquipment(slot, genericType) <==> genericType in MappedGenericEquipment(slot)
  {
    var s := GetCustomEquipment(slot);
    if HasGenericEquipment(slot, genericType) {
      var e :| e in s && genericType in e.mapsTo;
      var i :| 0 <= i < |s| && s[i] == e;
      assert genericType in s[i].mapsTo;
    }
    if genericType in MappedGenericEquipment(slot) {
      var i :| 0 <= i < |s| && genericType in s[i].mapsTo;
      assert s[i] in s;
    }
  }

  // ---------------------------------------------------------------------------
  // Preferences
  // ---------------------------------------------------------------------------

  /** The stored preferences; the radio only ever writes "all" or "any", but
      the field is the filter-mode type the filter bar passes. */
  datatype Preferences = Preferences(enabled: bool, filterMode: FilterMode)

  const DefaultPreferences := Preferences(false, Any)

  type PrefsSlot = Option<Preferences>

  function GetPreferences(slot: PrefsSlot): (r: Preferences)
    ensures slot.None? ==> !r.enabled && r.filterMode == Any
    ensures slot.Some? ==> r == slot.value
  {
    Storage.Read(slot, DefaultPreferences)
  }

  function SavePreferences(p: Preferences): PrefsSlot
  {
    Storage.Write(p)
  }

  /** Saved preferences are read back unchanged. */
  lemma PreferencesRoundTrip(p: Preferences)
    ensures GetPreferences(SavePreferences(p)) == p
  {
  }
}

=== FILE: exercise_browser_modal.dfy ===
/** The exercise browser dialog: its equipment matcher, the favourites tab
    (fetched favourites, then favourite custom exercises), the reset on
    close, and the same paging loop as the carousel page, which also clears
    the "more" flag. */
module ExerciseBrowserModal {
  import opened Wrappers
  import opened Seqs
  import opened Domain
  import ExerciseCarouselPage
  import FavoritesPage
  import FavoritesStorage

  /** `filteredExercises`: the carousel page's matcher. */
  function FilteredExercises(exercises: seq<Exercise>, enabled: Option<bool>, mode: Option<FilterMode>,
                             owned: seq<string>): (r: seq<Exercise>)
    ensures ExerciseCarouselPage.MatcherOff(enabled, mode, owned) ==> r == exercises
    ensures !ExerciseCarouselPage.MatcherOff(enabled, mode, owned) && mode == Some(All) ==>
      forall e :: e in r <==> e in exercises && ExerciseCarouselPage.OwnsAll(e, owned)
    ensures !ExerciseCarouselPage.MatcherOff(enabled, mode, owned) && mode != Some(All) ==>
      forall e :: e in r <==> e in exercises && ExerciseCarouselPage.OwnsSome(e, owned)
    ensures IsSubseq(r, exercises)
  {
    ExerciseCarouselPage.FilteredExercises(exercises, enabled, mode, owned)
  }

  function IdIn(ids: seq<string>): Exercise -> bool {
    (e: Exercise) => e.id in ids
  }

  /** `loadFavoriteExercises` of the dialog: the successful fetches in id
      order, then the custom exercises whose id is a favourite. */
  function LoadFavoriteExercises(store: FavoritesStorage.Store, fetch: string -> Option<Exercise>,
                                 customs: seq<Exercise>): (r: FavoritesPage.Load)
    ensures FavoritesStorage.GetFavoriteIds(store) == [] ==> r == FavoritesPage.Load([], [])
    ensures r.requested == FavoritesStorage.GetFavoriteIds(store)
    ensures forall e :: e in r.exercises <==>
      (exists i :: 0 <= i < |r.requested| && fetch(r.requested[i]) == Some(e)) ||
      (e in customs && e.id in r.requested)
    ensures |r.exercises| <= |r.requested| + |customs|
  {
    var ids := FavoritesStorage.GetFavoriteIds(store);
    if ids == [] then FavoritesPage.Load([], [])
    else FavoritesPage.Load(FavoritesPage.Fetched(ids, fetch) + Filter(customs, IdIn(ids)), ids)
  }

  /** Every favourite fetched: the tab lists them in favourite order, and the
      favourite custom exercises after them. */
  lemma FavoritesOrder(store: FavoritesStorage.Store, fetch: string -> Option<Exercise>, customs: seq<Exercise>)
    requires var ids := FavoritesStorage.GetFavoriteIds(store);
      forall i :: 0 <= i < |ids| ==> fetch(ids[i]).Some?
    ensures var ids := FavoritesStorage.GetFavoriteIds(store);
      var r := LoadFavoriteExercises(store, fetch, customs).exercises;
      |r| >= |ids| &&
      (forall i :: 0 <= i < |ids| ==> r[i] == fetch(ids[i]).value) &&
      (forall e :: e in r[|ids|..] <==> e in customs && e.id in ids)
  {
    var ids := FavoritesStorage.GetFavoriteIds(store);
    FavoritesPage.FetchedInOrder(ids, fetch);
    var r := LoadFavoriteExercises(store, fetch, customs).exercises;
    if ids != [] {
      assert r[|ids|..] == Filter(customs, IdIn(ids));
    }
  }

  datatype Tab = Browse | Favorites

  /** The dialog's resettable state. */
  datatype State = State(
    activeTab: Tab,
    exercises: seq<Exercise>,
    favoriteExercises: seq<Exercise>,
    filters: Filters,
    error: Option<string>,
    hasMore: bool)

  const ResetFilters := NoFilters.(limit := Some(100))

  /** The effect's "closed" branch. */
  function Close(st: State): (r: State)
    ensures r.activeTab == Browse && r.exercises == [] && r.favoriteExercises == []
    ensures r.filters.limit == Some(100) && r.filters == NoFilters.(limit := Some(100))
    ensures r.error == None
    ensures r.hasMore == st.hasMore
  {
    st.(activeTab := Browse, exercises := [], favoriteExercises := [], filters := ResetFilters, error := None)
  }

  /** What opening loads: the tab that is active. */
  datatype OpenLoad = LoadBrowse | LoadFavorites

  function OnOpen(st: State): (r: OpenLoad)
    ensures r == LoadBrowse <==> st.activeTab == Browse
  {
    if st.activeTab == Browse then LoadBrowse else LoadFavorites
  }

  /** Closing twice is closing once, and reopening starts on the browse tab
      with no filter but the page size. */
  lemma CloseThenOpen(st: State)
    ensures Close(Close(st)) == Close(st)
    ensures OnOpen(Close(st)) == LoadBrowse
    ensures var f := Close(st).filters; f.q.None? && f.bodyArea.None? && f.equipmentFilterEnabled.None?
  {
  }

  /** The error text a failed load shows, given the failure's message
      (`err.message`, or "Unknown error"). */
  function LoadError(reason: string): string {
    "Failed to load exercises: " + reason
  }

  /** `loadAllExercises` of the dialog: the carousel page's loop, which in
      the dialog also clears `hasMore` when it stops. A failed request leaves
      the list empty, sets the error, and keeps the `hasMore` the reset set. */
  method LoadAllExercises(st: State, server: ExerciseCarouselPage.Server, customs: seq<Exercise>,
                          maxTotal: nat, reason: string) returns (r: State)
    requires forall o :: server(o).Some? ==> server(o).value.total <= maxTotal
    ensures exists k: nat ::
      && ExerciseCarouselPage.StopsAfter(server, k)
      && (if server(ExerciseCarouselPage.PageSize * (k - 1)).None? then
            r.exercises == [] && r.error == Some(LoadError(reason)) && r.hasMore
          else
            r.exercises == ExerciseCarouselPage.Pulled(server, k) + customs && r.error == None && !r.hasMore)
    ensures r.activeTab == st.activeTab && r.filters == st.filters && r.favoriteExercises == st.favoriteExercises
  {
    var combined, failed, pages := ExerciseCarouselPage.LoadAllExercises(server, customs, maxTotal);
    r := st.(exercises := combined, hasMore := failed, error := if failed then Some(LoadError(reason)) else None);
  }
}

=== FILE: exercise_carousel.dfy ===
/** The exercise carousel: a current index over `n` cards moved cyclically
    by buttons, the wheel, swipes and arrow keys, a scroll lock that the
    wheel takes and a timer releases, and the integer layout tiers of each
    card by its distance from the current one. The timer is an explicit
    `Unlock` event; the list itself only enters through its length. */
module ExerciseCarousel {
  import opened Wrappers

  datatype Carousel = Carousel(index: nat, locked: bool)

  const Initial := Carousel(0, false)

  function Abs(x: int): (r: nat)
    ensures r == x || r == -x
  {
    if x < 0 then -x else x
  }

  // ---------------------------------------------------------------------------
  // Cyclic navigation
  // ---------------------------------------------------------------------------

  /** `goToNext`: one step forward, wrapping to 0; nothing while locked. */
  function Next(n: nat, c: Carousel): (r: Carousel)
    requires n > 0
    ensures r.locked == c.locked
    ensures c.locked ==> r == c
    ensures !c.locked ==> r.index < n
    ensures !c.locked && c.index + 1 < n ==> r.index == c.index + 1
    ensures !c.locked && c.index == n - 1 ==> r.index == 0
  {
    if c.locked then c else c.(index := (c.index + 1) % n)
  }

  /** `goToPrevious`: one step back, wrapping to n - 1; nothing while
      locked. */
  function Previous(n: nat, c: Carousel): (r: Carousel)
    requires n > 0
    ensures r.locked == c.locked
    ensures c.locked ==> r == c
    ensures !c.locked ==> r.index < n
    ensures !c.locked && 0 < c.index <= n ==> r.index == c.index - 1
    ensures !c.locked && c.index == 0 ==> r.index == n - 1
  {
    if c.locked then c else c.(index := (c.index - 1 + n) % n)
  }

  /** Forward and back, in either order, return to an index in range. */
  lemma NextPreviousInverse(n: nat, c: Carousel)
    requires n > 0 && c.index < n
    ensures Previous(n, Next(n, c)) == c
    ensures Next(n, Previous(n, c)) == c
  {
  }

  /** `k` presses of "next". */
  function Advance(n: nat, c: Carousel, k: nat): (r: Carousel)
    requires n > 0
    ensures r.locked == c.locked
  {
    if k == 0 then c else Next(n, Advance(n, c, k - 1))
  }

  /** The remainder is the unique `r` in [0, n) with x = q*n + r. */
  lemma ModUnique(x: int, n: int, q: int, r: int)
    requires n > 0 && 0 <= r < n && x == q * n + r
    ensures x % n == r
  {
    var k := q - x / n;
    assert x == (x / n) * n + x % n;
    assert k * n == x % n - r;
  }

  lemma ModSucc(x: nat, n: nat)
    requires n > 0
    ensures (x % n + 1) % n == (x + 1) % n
  {
    var q, r := x / n, x % n;
    assert x == q * n + r;
    if r + 1 < n {
      ModUnique(x + 1, n, q, r + 1);
      ModUnique(r + 1, n, 0, r + 1);
    } else {
      ModUnique(x + 1, n, q + 1, 0);
      ModUnique(r + 1, n, 1, 0);
    }
  }

  /** Unlocked, `k` presses move the index `k` places round the ring. */
  lemma {:induction false} AdvanceMod(n: nat, c: Carousel, k: nat)
    requires n > 0 && !c.locked && c.index < n
    ensures Advance(n, c, k).index == (c.index + k) % n
  {
    if k > 0 {
      AdvanceMod(n, c, k - 1);
      ModSucc(c.index + k - 1, n);
    }
  }

  /** `n` presses of "next" go all the way round. */
  lemma FullTurn(n: nat, c: Carousel)
    requires n > 0 && !c.locked && c.index < n
    ensures Advance(n, c, n) == c
  {
    AdvanceMod(n, c, n);
    ModUnique(c.index + n, n, 1, c.index);
  }

  /** The lock timer firing. */
  function Unlock(c: Carousel): (r: Carousel)
    ensures !r.locked && r.index == c.index
  {
    c.(locked := false)
  }

  // ---------------------------------------------------------------------------
  // Input decisions
  // ---------------------------------------------------------------------------

  /** `handleWheel` as written: it takes the lock and then calls the step
      function, which sees the lock and returns at once. */
  function WheelAsWritten(n: nat, c: Carousel, deltaY: int): (r: Carousel)
    requires n > 0
    ensures Abs(deltaY) <= 50 ==> r == c
    ensures !c.locked && Abs(deltaY) > 50 ==> r.locked
  {
    if c.locked then c
    else if Abs(deltaY) > 50 then
      var held := c.(locked := true);
      if deltaY > 0 then Next(n, held) else Previous(n, held)
    else c
  }

  /** The wheel as written never changes the card. */
  lemma WheelNeverMoves(n: nat, c: Carousel, deltaY: int)
    requires n > 0
    ensures WheelAsWritten(n, c, deltaY).index == c.index
  {
  }

  /** A concrete case: two cards, a strong downward scroll, still on card 0. */
  lemma WheelStuckExample()
    ensures WheelAsWritten(2, Initial, 120) == Carousel(0, true)
    ensures Next(2, Initial) == Carousel(1, false)
  {
  }

  /** The evident intent: a wheel movement beyond 50 steps forward (down) or
      back (up), then holds the lock until the timer fires. */
  function Wheel(n: nat, c: Carousel, deltaY: int): (r: Carousel)
    requires n > 0
    ensures c.locked || Abs(deltaY) <= 50 ==> r == c
    ensures !c.locked && Abs(deltaY) > 50 ==> r.locked
  {
    if c.locked || Abs(deltaY) <= 50 then c
    else
      var moved := if deltaY > 0 then Next(n, c) else Previous(n, c);
      moved.(locked := true)
  }

  /** The corrected wheel moves like the buttons and then ignores further
      wheel input until unlocked. */
  lemma WheelSteps(n: nat, c: Carousel, deltaY: int, deltaY2: int)
    requires n > 0 && !c.locked && Abs(deltaY) > 50
    ensures deltaY > 0 ==> Wheel(n, c, deltaY).index == Next(n, c).index
    ensures deltaY < 0 ==> Wheel(n, c, deltaY).index == Previous(n, c).index
    ensures Wheel(n, Wheel(n, c, deltaY), deltaY2) == Wheel(n, c, deltaY)
    ensures n > 1 && c.index < n ==> Wheel(n, c, deltaY).index != c.index
  {
  }

  /** The finger's state between touch start and touch end. */
  datatype Touch = Touch(startX: int, startY: int, dragging: bool)

  const NoTouch := Touch(0, 0, false)

  function TouchStart(x: int, y: int): (t: Touch)
    ensures t.dragging && t.startX == x && t.startY == y
  {
    Touch(x, y, true)
  }

  /** The swipe rule: horizontal movement beyond 50 that beats the vertical
      movement; dx = start - end, so a leftward swipe goes forward. */
  function Swipe(n: nat, c: Carousel, dx: int, dy: nat): (r: Carousel)
    requires n > 0
    ensures !(Abs(dx) > dy && Abs(dx) > 50) ==> r == c
    ensures Abs(dx) > dy && Abs(dx) > 50 && dx > 0 ==> r == Next(n, c)
    ensures Abs(dx) > dy && Abs(dx) > 50 && dx < 0 ==> r == Previous(n, c)
  {
    if Abs(dx) > dy && Abs(dx) > 50 then
      if dx > 0 then Next(n, c) else Previous(n, c)
    else c
  }

  /** `handleTouchEnd`: only after a touch start; ends the drag. */
  function TouchEnd(n: nat, t: Touch, c: Carousel, endX: int, endY: int): (r: (Touch, Carousel))
    requires n > 0
    ensures !r.0.dragging
    ensures !t.dragging ==> r == (t, c)
    ensures t.dragging ==> r.1 == Swipe(n, c, t.startX - endX, Abs(t.startY - endY))
  {
    if !t.dragging then (t, c)
    else (t.(dragging := false), Swipe(n, c, t.startX - endX, Abs(t.startY - endY)))
  }

  /** A swipe left then right of the same size, unlocked, comes back. */
  lemma SwipeBackAndForth(n: nat, c: Carousel, x: int, y: int, d: int)
    requires n > 0 && c.index < n && !c.locked && d > 50
    ensures var (t1, c1) := TouchEnd(n, TouchStart(x, y), c, x - d, y);
      var (t2, c2) := TouchEnd(n, TouchStart(x, y), c1, x + d, y);
      c1 == Next(n, c) && c2 == c
  {
  }

  /** `handleKeyDown`; `focusedTag` is the tag of the focused element. */
  function Key(n: nat, c: Carousel, key: string, focusedTag: Option<string>): (r: Carousel)
    requires n > 0
    ensures focusedTag == Some("INPUT") || focusedTag == Some("TEXTAREA") ==> r == c
    ensures !(focusedTag == Some("INPUT") || focusedTag == Some("TEXTAREA")) ==>
      r == (if key == "ArrowLeft" then Previous(n, c) else if key == "ArrowRight" then Next(n, c) else c)
  {
    if focusedTag == Some("INPUT") || focusedTag == Some("TEXTAREA") then c
    else if key == "ArrowLeft" then Previous(n, c)
    else if key == "ArrowRight" then Next(n, c)
    else c
  }

  // ---------------------------------------------------------------------------
  // Layout tiers
  // ---------------------------------------------------------------------------

  /** `index - currentIndex`: linear, not cyclic. */
  function Distance(index: nat, c: Carousel): int {
    index - c.index
  }

  /** The stacking order by distance. */
  function ZIndex(d: int): (z: int)
    ensures Abs(d) <= 3 ==> z == 1000 - 10 * Abs(d)
    ensures Abs(d) > 3 ==> z == 960 - 10 * Abs(d)
  {
    if d == 0 then 1000
    else if d == -1 || d == 1 then 990
    else if d == -2 || d == 2 then 980
    else if d == -3 || d == 3 then 970
    else 960 - Abs(d) * 10
  }

  /** The horizontal offset in percent by distance. */
  function TranslateX(d: int): (x: int)
    ensures d == 0 <==> x == 0
    ensures d > 0 <==> x > 0
    ensures Abs(d) > 3 ==> x == 50 * d
    ensures 1 <= Abs(d) <= 3 ==> Abs(x) == [25, 35, 46][Abs(d) - 1]
  {
    if d == 0 then 0
    else if d == -1 then -25
    else if d == 1 then 25
    else if d == -2 then -35
    else if d == 2 then 35
    else if d == -3 then -46
    else if d == 3 then 46
    else d * 50
  }

  /** A card nearer the centre is always drawn above a farther one, and the
      two sides mirror each other. */
  lemma ZIndexByNearness(d1: int, d2: int)
    ensures Abs(d1) < Abs(d2) ==> ZIndex(d1) > ZIndex(d2)
    ensures Abs(d1) == Abs(d2) ==> ZIndex(d1) == ZIndex(d2)
  {
  }

  /** Offsets keep the cards in list order left to right, mirrored about the
      centre. */
  lemma TranslateOrdered(d1: int, d2: int)
    ensures d1 < d2 ==> TranslateX(d1) < TranslateX(d2)
    ensures TranslateX(-d1) == -TranslateX(d1)
  {
  }

  /** Cards more than three away take no pointer events. */
  predicate PointerEvents(d: int) {
    Abs(d) <= 3
  }

  /** A click on card `index`: it reaches a non-centre card only when that
      card takes pointer events, and moves only when unlocked. */
  function CardClick(c: Carousel, index: nat): (r: Carousel)
    ensures r.locked == c.locked
    ensures r != c ==> r.index == index
    ensures r.index == index <==> index == c.index || (PointerEvents(Distance(index, c)) && !c.locked)
  {
    var d := Distance(index, c);
    if d != 0 && PointerEvents(d) && !c.locked then c.(index := index) else c
  }

  /** A click on indicator dot `index`. */
  function DotClick(c: Carousel, index: nat): (r: Carousel)
    ensures c.locked ==> r == c
    ensures !c.locked ==> r == c.(index := index)
  {
    if c.locked then c else c.(index := index)
  }

  /** Only the centre card is active; after a successful click it is the
      clicked one. */
  lemma ClickCentres(c: Carousel, index: nat)
    requires !c.locked && Abs(Distance(index, c)) <= 3
    ensures Distance(index, CardClick(c, index)) == 0
    ensures ZIndex(Distance(index, CardClick(c, index))) == 1000
  {
  }
}

=== FILE: exercise_carousel_page.dfy ===
/** The carousel page's list logic: the owned-equipment matcher applied to
    the loaded exercises, and the loop that pulls every page of the
    catalogue (100 at a time) before appending the custom exercises. The
    server is a parameter: the response it gives for each offset, or none
    when the request fails. */
module ExerciseCarouselPage {
  import opened Wrappers
  import opened Seqs
  import opened Domain

  // ---------------------------------------------------------------------------
  // The equipment matcher
  // ---------------------------------------------------------------------------

  predicate OwnsAll(e: Exercise, owned: seq<string>) {
    forall q :: q in e.equipment ==> q in owned
  }

  predicate OwnsSome(e: Exercise, owned: seq<string>) {
    exists q :: q in e.equipment && q in owned
  }

  /** The per-exercise test: "all" needs every item owned, any other mode
      (including a missing one) needs one. */
  function Matches(mode: Option<FilterMode>, owned: seq<string>): Exercise -> bool {
    (e: Exercise) => if mode == Some(All) then OwnsAll(e, owned) else OwnsSome(e, owned)
  }

  /** The matcher is switched off unless it is enabled, its mode is not
      "off" and some equipment is owned. */
  predicate MatcherOff(enabled: Option<bool>, mode: Option<FilterMode>, owned: seq<string>) {
    enabled != Some(true) || mode == Some(Off) || owned == []
  }

  /** `filteredExercises`. */
  function FilteredExercises(exercises: seq<Exercise>, enabled: Option<bool>, mode: Option<FilterMode>,
                             owned: seq<string>): (r: seq<Exercise>)
    ensures MatcherOff(enabled, mode, owned) ==> r == exercises
    ensures !MatcherOff(enabled, mode, owned) && mode == Some(All) ==>
      forall e :: e in r <==> e in exercises && OwnsAll(e, owned)
    ensures !MatcherOff(enabled, mode, owned) && mode != Some(All) ==>
      forall e :: e in r <==> e in exercises && OwnsSome(e, owned)
    ensures IsSubseq(r, exercises)
  {
    if MatcherOff(enabled, mode, owned) then
      IsSubseqRefl(exercises);
      exercises
    else Filter(exercises, Matches(mode, owned))
  }

  /** An exercise that needs no equipment passes "all" and fails "any". */
  lemma EquipmentFreeExercises(exercises: seq<Exercise>, mode: Option<FilterMode>, owned: seq<string>, e: Exercise)
    requires owned != [] && mode != Some(Off) && e in exercises && e.equipment == []
    ensures e in FilteredExercises(exercises, Some(true), mode, owned) <==> mode == Some(All)
  {
  }

  /** For an exercise that needs something, "all" is the stricter mode. */
  lemma AllStricterThanAny(exercises: seq<Exercise>, owned: seq<string>, e: Exercise)
    requires e.equipment != [] && e in FilteredExercises(exercises, Some(true), Some(All), owned)
    ensures e in FilteredExercises(exercises, Some(true), Some(Any), owned)
  {
    assert e.equipment[0] in e.equipment;
  }

  // ---------------------------------------------------------------------------
  // The paging loop
  // ---------------------------------------------------------------------------

  const PageSize := 100

  /** What the server returns for one request. */
  datatype Response = Response(exercises: seq<Exercise>, total: nat)

  /** The server: the answer to the request at each offset, `None` when the
      request fails (the fetch throws). */
  type Server = nat -> Option<Response>

  /** The loop's stop test after adding a page. */
  predicate Done(collected: seq<Exercise>, page: Response) {
    |collected| >= page.total || |page.exercises| < PageSize
  }

  /** The exercises a request adds: none when it fails. */
  function Got(o: Option<Response>): seq<Exercise> {
    if o.Some? then o.value.exercises else []
  }

  /** The exercises of the first `k` pages, in order. */
  function Pulled(server: Server, k: nat): seq<Exercise> {
    if k == 0 then [] else Pulled(server, k - 1) + Got(server(PageSize * (k - 1)))
  }

  /** Page `i` (at offset 100 i) arrives and does not stop the loop. */
  predicate Continues(server: Server, i: nat) {
    server(PageSize * i).Some? && !Done(Pulled(server, i + 1), server(PageSize * i).value)
  }

  /** The loop ends right after page `k` - 1: no earlier page stopped it. */
  predicate StopsAfter(server: Server, k: nat) {
    k >= 1 &&
    (forall i :: 0 <= i < k - 1 ==> Continues(server, i)) &&
    !Continues(server, k - 1)
  }

  /** `loadAllExercises`: pulls pages until the stop test holds, then
      appends the custom exercises. A failed request ends the loop with the
      error set and the list left as the reset made it, empty. The loop ends
      for any server whose totals are bounded, since every page that does not
      stop it adds 100 exercises and leaves fewer than the total collected. */
  method LoadAllExercises(server: Server, customs: seq<Exercise>, maxTotal: nat)
    returns (combined: seq<Exercise>, failed: bool, pages: nat)
    requires forall o :: server(o).Some? ==> server(o).value.total <= maxTotal
    ensures StopsAfter(server, pages)
    ensures failed <==> server(PageSize * (pages - 1)).None?
    ensures failed ==> combined == []
    ensures !failed ==> combined == Pulled(server, pages) + customs
    ensures |Pulled(server, pages - 1)| >= PageSize * (pages - 1)
  {
    var all: seq<Exercise> := [];
    var offset := 0;
    var more := true;
    failed := false;
    pages := 0;
    while more
      invariant all == Pulled(server, pages)
      invariant more ==> offset == PageSize * pages && !failed
      invariant more ==> |all| >= PageSize * pages && |all| <= maxTotal
      invariant more ==> forall i :: 0 <= i < pages ==> Continues(server, i)
      invariant !more ==> StopsAfter(server, pages) && |Pulled(server, pages - 1)| >= PageSize * (pages - 1)
      invariant !more ==> (failed <==> server(PageSize * (pages - 1)).None?)
      decreases if more then maxTotal + 1 - |all| else 0
    {
      var answer := server(offset);
      assert Pulled(server, pages + 1) == all + Got(answer);
      ghost var before := all;
      pages := pages + 1;
      assert before == Pulled(server, pages - 1);
      match answer
      case None =>
        failed := true;
        more := false;
      case Some(response) =>
        all := all + response.exercises;
        if |all| >= response.total || |response.exercises| < PageSize {
          more := false;
          assert !Continues(server, pages - 1);
        } else {
          offset := offset + PageSize;
          assert Continues(server, pages - 1);
          assert |all| < maxTotal;
        }
    }
    combined := if failed then [] else all + customs;
  }

  /** A server whose first request fails: one request, nothing listed. */
  lemma {:induction false} FailingFirstPage(server: Server, k: nat)
    requires server(0).None?
    ensures StopsAfter(server, k) <==> k == 1
  {
    assert !Continues(server, 0);
  }

  /** A server that serves one fixed list: the slice at the offset and the
      list's length as the total. */
  function Serve(s: seq<Exercise>): Server {
    (o: nat) => Some(Response(s[Min(o, |s|)..Min(o + PageSize, |s|)], |s|))
  }

  function Min(a: nat, b: nat): nat { if a < b then a else b }

  /** Against such a server the first `k` pages are a prefix of the list. */
  lemma {:induction false} PulledPrefix(s: seq<Exercise>, k: nat)
    ensures Pulled(Serve(s), k) == s[..Min(PageSize * k, |s|)]
  {
    if k > 0 {
      PulledPrefix(s, k - 1);
      var a := Min(PageSize * (k - 1), |s|);
      var b := Min(PageSize * k, |s|);
      assert Got(Serve(s)(PageSize * (k - 1))) == s[a..b];
      assert s[..a] + s[a..b] == s[..b];
    }
  }

  /** ... so wherever the loop stops, it has pulled the whole list. */
  lemma PullsWholeList(s: seq<Exercise>, k: nat)
    requires StopsAfter(Serve(s), k)
    ensures Pulled(Serve(s), k) == s
  {
    PulledPrefix(s, k);
    PulledPrefix(s, k - 1);
    var a := Min(PageSize * (k - 1), |s|);
    var b := Min(PageSize * k, |s|);
    assert Got(Serve(s)(PageSize * (k - 1))) == s[a..b];
    assert b == |s|;
  }

  /** Loading from a server that serves one fixed list gives the whole list,
      then the custom exercises. */
  method LoadFromList(s: seq<Exercise>, customs: seq<Exercise>) returns (combined: seq<Exercise>)
    ensures combined == s + customs
  {
    var failed, pages;
    combined, failed, pages := LoadAllExercises(Serve(s), customs, |s|);
    PullsWholeList(s, pages);
  }
}

=== FILE: exercise_service.dfy ===
/** The backend catalogue service: mapping an upstream exercise record into the
    domain shape, the level and body-area vocabularies, the filter and
    pagination pipeline behind `GET /exercises`, lookup by id, and the rule
    that decides when the in-memory catalogue cache is reused. Reading the
    catalogue file is a parameter (`load`). */
module ExerciseService {
  import opened Wrappers
  import opened Text
  import opened Js
  import opened Seqs
  import opened Domain

  // ---------------------------------------------------------------------------
  // Levels
  // ---------------------------------------------------------------------------

  predicate SaysBeginner(l: string) { Contains(l, "beginner") || l == "easy" }
  predicate SaysAdvanced(l: string) { Contains(l, "advanced") || l == "hard" }

  /** The three-level vocabulary; the beginner test is made first. */
  function MapLevel(level: Option<string>): (r: string)
    ensures r == "beginner" || r == "intermediate" || r == "advanced"
    ensures !Truthy(level) ==> r == "intermediate"
    ensures Truthy(level) ==> (r == "beginner" <==> SaysBeginner(Lower(level.value)))
    ensures Truthy(level) ==>
      (r == "advanced" <==> !SaysBeginner(Lower(level.value)) && SaysAdvanced(Lower(level.value)))
  {
    if !Truthy(level) then "intermediate"
    else
      var l := Lower(level.value);
      if SaysBeginner(l) then "beginner"
      else if SaysAdvanced(l) then "advanced"
      else "intermediate"
  }

  /** The level test ignores letter case. */
  lemma MapLevelIgnoresCase(s: string)
    ensures MapLevel(Some(Upper(s))) == MapLevel(Some(s))
  {
    LowerOfUpper(s);
  }

  // ---------------------------------------------------------------------------
  // Body areas
  // ---------------------------------------------------------------------------

  /** The fourteen body parts the service knows and their areas. */
  function TableArea(key: string): (r: Option<string>)
    ensures r.Some? ==> IsBodyArea(r.value)
  {
    if key == "chest" then Some("upper body")
    else if key == "back" then Some("back")
    else if key == "shoulders" then Some("upper body")
    else if key == "biceps" then Some("upper body")
    else if key == "triceps" then Some("upper body")
    else if key == "forearms" then Some("upper body")
    else if key == "abs" then Some("core")
    else if key == "cardio" then Some("full body")
    else if key == "legs" then Some("lower body")
    else if key == "calves" then Some("lower body")
    else if key == "glutes" then Some("lower body")
    else if key == "quadriceps" then Some("lower body")
    else if key == "hamstrings" then Some("lower body")
    else if key == "neck" then Some("neck")
    else None
  }

  predicate IsBodyArea(a: string) {
    a == "upper body" || a == "back" || a == "core" || a == "full body" ||
    a == "lower body" || a == "neck"
  }

  /** The key the source indexes the table with: the lower-cased body part,
      or the text "undefined" when there is none. */
  function BodyPartKey(bodyPart: Option<string>): string {
    if bodyPart.Some? then Lower(bodyPart.value) else "undefined"
  }

  /** Own members of `Object.prototype` whose names are all lower case, so a
      lower-cased key can reach them. */
  predicate IsInheritedMember(key: string) {
    key == "constructor" || key == "__proto__"
  }

  /** What a lookup in the source's object literal yields: a table entry, or
      a member every object inherits. */
  datatype AreaLookup = Area(name: string) | InheritedMember(member: string)

  /** The body-area mapping as written: a property read on a plain object,
      followed by `|| 'full body'`. Inherited members are truthy, so they
      come back in place of an area. */
  function BodyAreaAsWritten(bodyPart: Option<string>): (r: AreaLookup)
    ensures r.InheritedMember? <==> IsInheritedMember(BodyPartKey(bodyPart))
  {
    var key := BodyPartKey(bodyPart);
    match TableArea(key)
    case Some(area) => Area(area)
    case None => if IsInheritedMember(key) then InheritedMember(key) else Area("full body")
  }

  /** A body part spelled "Constructor" comes back as the inherited
      constructor function instead of a body area. */
  lemma BodyAreaAsWrittenLeaksPrototype()
    ensures BodyAreaAsWritten(Some("Constructor")).InheritedMember?
  {
    assert Lower("Constructor") == "constructor";
  }

  /** The body-area mapping restricted to the table's own entries: total,
      with "full body" for anything missing or unknown. */
  function MapBodyPartToBodyArea(bodyPart: Option<string>): (r: string)
    ensures IsBodyArea(r)
    ensures TableArea(BodyPartKey(bodyPart)).None? ==> r == "full body"
    ensures TableArea(BodyPartKey(bodyPart)).Some? ==>
      r == TableArea(BodyPartKey(bodyPart)).value
  {
    match TableArea(BodyPartKey(bodyPart))
    case Some(area) => area
    case None => "full body"
  }

  /** A missing body part maps to "full body". */
  lemma MissingBodyPartIsFullBody()
    ensures MapBodyPartToBodyArea(None) == "full body"
  {
  }

  /** The corrected mapping agrees with the source on every key except the
      two inherited member names. */
  lemma BodyAreaAgreesOutsidePrototype(bodyPart: Option<string>)
    requires !IsInheritedMember(BodyPartKey(bodyPart))
    ensures BodyAreaAsWritten(bodyPart) == Area(MapBodyPartToBodyArea(bodyPart))
  {
  }

  // ---------------------------------------------------------------------------
  // Upstream record mapping
  // ---------------------------------------------------------------------------

  /** A record in the upstream exercise database's shape; every field may be
      missing. */
  datatype ExerciseDbRecord = ExerciseDbRecord(
    id: Option<string>,
    name: Option<string>,
    bodyPart: Option<string>,
    target: Option<string>,
    secondaryMuscles: Option<seq<string>>,
    equipment: Option<string>,
    category: Option<string>,
    difficulty: Option<string>,
    level: Option<string>,
    instructions: Option<seq<string>>,
    description: Option<string>,
    gifUrl: Option<string>)

  /** A one-element list holding the value when it is truthy, else empty. */
  function Singleton(o: Option<string>): (r: seq<string>)
    ensures Truthy(o) ==> r == [o.value]
    ensures !Truthy(o) ==> r == []
  {
    if Truthy(o) then [o.value] else []
  }

  /** `name.toLowerCase().replace(/\s+/g, '-')`, or "" when there is no name. */
  function NameSlug(name: Option<string>): (r: string)
    ensures name.None? ==> r == ""
    ensures forall i :: 0 <= i < |r| ==> !IsSpace(r[i])
  {
    if name.Some? then DashSpaceRuns(Lower(name.value)) else ""
  }

  /** A name without white space is just lower-cased. */
  lemma NameSlugOfPlainName(name: string)
    requires NoSpace(name)
    ensures NameSlug(Some(name)) == Lower(name)
  {
    assert NoSpace(Lower(name));
    DashNoSpace(Lower(name));
  }

  /** A run of white space between two parts becomes one dash, and each
      part is rewritten on its own. */
  lemma NameSlugSpaceRun(a: string, w: string, b: string)
    requires w != "" && AllSpace(w)
    requires a == "" || !IsSpace(a[|a| - 1])
    requires b == "" || !IsSpace(b[0])
    ensures NameSlug(Some(a + w + b)) == NameSlug(Some(a)) + "-" + NameSlug(Some(b))
  {
    var la, lb := Lower(a), Lower(b);
    LowerConcat(a, w);
    LowerConcat(a + w, b);
    assert Lower(w) == w;
    assert la == "" || !IsSpace(la[|la| - 1]);
    assert lb == "" || !IsSpace(lb[0]);
    DashSpaceRunSplit(la, w, lb);
  }

  /** `instructions.join(' ') || description || ''`. */
  function Description(rec: ExerciseDbRecord): (r: string)
    ensures rec.instructions.Some? && Join(rec.instructions.value, " ") != "" ==>
      r == Join(rec.instructions.value, " ")
    ensures (rec.instructions.None? || Join(rec.instructions.value, " ") == "") ==>
      r == OrElse(rec.description, "")
  {
    if rec.instructions.Some? && Join(rec.instructions.value, " ") != "" then
      Join(rec.instructions.value, " ")
    else OrElse(rec.description, "")
  }

  /** Builds a domain exercise from an upstream record. A missing id or
      source id is the empty string. */
  function MapExerciseDbToDomain(rec: ExerciseDbRecord): (e: Exercise)
    ensures Truthy(rec.id) ==> e.id == rec.id.value && e.sourceId == rec.id.value
    ensures !Truthy(rec.id) ==> e.id == NameSlug(rec.name) && e.sourceId == OrElse(rec.name, "")
    ensures IsBodyArea(e.bodyArea)
    ensures e.bodyArea == MapBodyPartToBodyArea(rec.bodyPart)
    ensures e.primaryMuscles == Singleton(rec.target)
    ensures e.equipment == Singleton(rec.equipment)
    ensures e.imageUrls == Singleton(rec.gifUrl)
    ensures |e.primaryMuscles| <= 1 && |e.equipment| <= 1 && |e.imageUrls| <= 1
    ensures forall m :: m in e.equipment ==> m != ""
    ensures e.level == "beginner" || e.level == "intermediate" || e.level == "advanced"
    ensures e.level == MapLevel(if Truthy(rec.difficulty) then rec.difficulty else rec.level)
    ensures e.name == OrElse(rec.name, "")
    ensures e.description == Description(rec)
    ensures e.secondaryMuscles == rec.secondaryMuscles.GetOr([])
    ensures e.category == OrElse(rec.category, "strength") && e.category != ""
    ensures e.instructions == rec.instructions.GetOr([])
    ensures e.tags == [] && e.bodyPart == "" && e.exerciseType == ""
  {
    Exercise(
      id := OrElse(rec.id, NameSlug(rec.name)),
      name := OrElse(rec.name, ""),
      bodyArea := MapBodyPartToBodyArea(rec.bodyPart),
      bodyPart := "",
      primaryMuscles := Singleton(rec.target),
      secondaryMuscles := rec.secondaryMuscles.GetOr([]),
      equipment := Singleton(rec.equipment),
      category := OrElse(rec.category, "strength"),
      level := MapLevel(if Truthy(rec.difficulty) then rec.difficulty else rec.level),
      description := Description(rec),
      instructions := rec.instructions.GetOr([]),
      imageUrls := Singleton(rec.gifUrl),
      sourceId := OrElse(rec.id, OrElse(rec.name, "")),
      tags := [],
      exerciseType := "",
      force := None,
      mechanic := None)
  }

  /** The barbell-curl record of the service's unit test maps to an upper-body
      exercise with one primary muscle, one piece of equipment, both
      instructions and the GIF as its image. */
  lemma BarbellCurlMapping()
    ensures
      var e := MapExerciseDbToDomain(ExerciseDbRecord(
        Some("0001"), Some("Barbell Curl"), Some("biceps"), Some("biceps"), None,
        Some("barbell"), Some("strength"), None, None,
        Some(["Stand up straight with a barbell in your hands",
              "Curl the barbell up to your chest"]),
        None, Some("https://example.com/gif.gif")));
      e.name == "Barbell Curl" && e.bodyArea == "upper body" &&
      e.primaryMuscles == ["biceps"] && e.equipment == ["barbell"] &&
      e.category == "strength" && |e.instructions| == 2 &&
      "https://example.com/gif.gif" in e.imageUrls
  {
    LowerNoop("biceps");
    assert TableArea("biceps") == Some("upper body");
    assert MapBodyPartToBodyArea(Some("biceps")) == "upper body";
  }

  /** A truthy `difficulty` wins over `level`: "Easy" maps to beginner even
      when the record also says "advanced"; without a difficulty the level is
      read instead. */
  lemma DifficultyOverridesLevel(rec: ExerciseDbRecord)
    requires rec.difficulty == Some("Easy") && rec.level == Some("advanced")
    ensures MapExerciseDbToDomain(rec).level == "beginner"
    ensures MapExerciseDbToDomain(rec.(difficulty := None)).level == "advanced"
  {
    assert Lower("Easy") == "easy";
    LowerNoop("advanced");
    ContainsSelf("advanced");
    assert !Contains("advanced", "beginner") by {
      assert "advanced"[0..8] != "beginner";
    }
    assert !Contains("easy", "beginner");
  }

  // ---------------------------------------------------------------------------
  // Filtering and pagination
  // ---------------------------------------------------------------------------

  /** The query fields `getExercises` reads. */
  datatype Query = Query(
    q: Option<string>,
    bodyArea: Option<string>,
    primaryMuscle: Option<string>,
    equipment: Option<string>,
    level: Option<string>,
    category: Option<string>,
    limit: Option<int>,
    offset: Option<int>)

  /** Some item contains `part`, both compared in lower case. */
  predicate SomeContains(items: seq<string>, part: string) {
    exists i :: 0 <= i < |items| && Contains(Lower(items[i]), Lower(part))
  }

  predicate NameMatches(e: Exercise, q: string) { Contains(Lower(e.name), Lower(q)) }
  predicate AreaMatches(e: Exercise, a: string) { Lower(e.bodyArea) == Lower(a) }
  predicate MuscleMatches(e: Exercise, m: string) { SomeContains(e.primaryMuscles, m) }
  predicate EquipmentMatches(e: Exercise, m: string) { SomeContains(e.equipment, m) }
  predicate LevelMatches(e: Exercise, l: string) { Lower(e.level) == Lower(l) }
  predicate CategoryMatches(e: Exercise, c: string) { Lower(e.category) == Lower(c) }

  /** Every filter that is present (truthy) accepts the exercise. */
  predicate Satisfies(f: Query, e: Exercise) {
    (Truthy(f.q) ==> NameMatches(e, f.q.value)) &&
    (Truthy(f.bodyArea) ==> AreaMatches(e, f.bodyArea.value)) &&
    (Truthy(f.primaryMuscle) ==> MuscleMatches(e, f.primaryMuscle.value)) &&
    (Truthy(f.equipment) ==> EquipmentMatches(e, f.equipment.value)) &&
    (Truthy(f.level) ==> LevelMatches(e, f.level.value)) &&
    (Truthy(f.category) ==> CategoryMatches(e, f.category.value))
  }

  /** One `if (filters.x) filtered = filtered.filter(...)` step: whether the
      filter is present, and what it accepts. */
  type Step = (bool, Exercise -> bool)

  /** The step accepts `e`: it is absent, or its test passes. */
  predicate Passes(st: Step, e: Exercise) { st.0 ==> st.1(e) }

  predicate PassesAll(steps: seq<Step>, e: Exercise) {
    forall i :: 0 <= i < |steps| ==> Passes(steps[i], e)
  }

  /** Applies the steps one after the other. */
  function Pipeline(s: seq<Exercise>, steps: seq<Step>): (r: seq<Exercise>)
    ensures |r| <= |s|
    ensures forall e :: e in r <==> e in s && PassesAll(steps, e)
    decreases |steps|
  {
    if |steps| == 0 then s
    else
      var next := if steps[0].0 then Filter(s, steps[0].1) else s;
      var r := Pipeline(next, steps[1..]);
      assert forall e :: PassesAll(steps, e) <==> Passes(steps[0], e) && PassesAll(steps[1..], e) by {
        forall e ensures PassesAll(steps, e) <==> Passes(steps[0], e) && PassesAll(steps[1..], e) {
          assert forall i :: 1 <= i < |steps| ==> steps[i] == steps[1..][i - 1];
        }
      }
      r
  }

  /** Applying the steps in turn is one filter by "every step passes". */
  lemma {:induction false} PipelineIsFilter(s: seq<Exercise>, steps: seq<Step>)
    ensures Pipeline(s, steps) == Filter(s, e => PassesAll(steps, e))
    decreases |steps|
  {
    if |steps| == 0 {
      FilterAll(s, e => PassesAll(steps, e));
    } else {
      var next := if steps[0].0 then Filter(s, steps[0].1) else s;
      var first := e => Passes(steps[0], e);
      var rest := e => PassesAll(steps[1..], e);
      PipelineIsFilter(next, steps[1..]);
      if steps[0].0 {
        FilterExt(s, steps[0].1, first);
      } else {
        FilterAll(s, first);
      }
      forall e ensures PassesAll(steps, e) == (first(e) && rest(e)) {
        assert forall i :: 1 <= i < |steps| ==> steps[i] == steps[1..][i - 1];
      }
      FilterTwice(s, first, rest, e => PassesAll(steps, e));
    }
  }

  /** The six steps of `getExercises`, in the source's order. */
  function Steps(f: Query): seq<Step> {
    [(Truthy(f.q), e => NameMatches(e, f.q.GetOr(""))),
     (Truthy(f.bodyArea), e => AreaMatches(e, f.bodyArea.GetOr(""))),
     (Truthy(f.primaryMuscle), e => MuscleMatches(e, f.primaryMuscle.GetOr(""))),
     (Truthy(f.equipment), e => EquipmentMatches(e, f.equipment.GetOr(""))),
     (Truthy(f.level), e => LevelMatches(e, f.level.GetOr(""))),
     (Truthy(f.category), e => CategoryMatches(e, f.category.GetOr("")))]
  }

  lemma SatisfiesIsPassesAll(f: Query, e: Exercise)
    ensures Satisfies(f, e) == PassesAll(Steps(f), e)
  {
    var st := Steps(f);
    assert (Passes(st[0], e) && Passes(st[1], e) && Passes(st[2], e) &&
            Passes(st[3], e) && Passes(st[4], e) && Passes(st[5], e)) ==> PassesAll(st, e);
  }

  /** The filter steps of `getExercises`: exactly the exercises every present
      filter accepts. */
  function FilterExercises(all: seq<Exercise>, f: Query): (r: seq<Exercise>)
    ensures forall e :: e in r <==> e in all && Satisfies(f, e)
    ensures |r| <= |all|
  {
    var r := Pipeline(all, Steps(f));
    assert forall e :: Satisfies(f, e) == PassesAll(Steps(f), e) by {
      forall e ensures Satisfies(f, e) == PassesAll(Steps(f), e) {
        SatisfiesIsPassesAll(f, e);
      }
    }
    r
  }

  /** The steps together are a single filter by `Satisfies`: the result is
      the order-preserving subsequence of exactly the accepted exercises. */
  lemma FilterExercisesIsOneFilter(all: seq<Exercise>, f: Query)
    ensures FilterExercises(all, f) == Filter(all, e => Satisfies(f, e))
    ensures IsSubseq(FilterExercises(all, f), all)
  {
    PipelineIsFilter(all, Steps(f));
    forall e ensures PassesAll(Steps(f), e) == Satisfies(f, e) {
      SatisfiesIsPassesAll(f, e);
    }
    FilterExt(all, e => PassesAll(Steps(f), e), e => Satisfies(f, e));
  }

  /** With no filter present every exercise is kept, in order. */
  lemma NoFiltersKeepAll(all: seq<Exercise>, f: Query)
    requires !Truthy(f.q) && !Truthy(f.bodyArea) && !Truthy(f.primaryMuscle)
    requires !Truthy(f.equipment) && !Truthy(f.level) && !Truthy(f.category)
    ensures FilterExercises(all, f) == all
  {
    FilterExercisesIsOneFilter(all, f);
    FilterAll(all, e => Satisfies(f, e));
  }

  /** The response of `GET /exercises`. */
  datatype Page = Page(exercises: seq<Exercise>, total: nat, limit: int, offset: int)

  const DefaultLimit := 50

  /** Cuts one page out of the filtered list; a limit or offset that is
      missing, unparsable or zero takes its default. */
  function Paginate(filtered: seq<Exercise>, limit: Option<int>, offset: Option<int>): (p: Page)
    ensures p.total == |filtered|
    ensures p.limit == NumberOr(limit, DefaultLimit) && p.offset == NumberOr(offset, 0)
    ensures p.limit >= 0 && p.offset >= 0 ==>
      |p.exercises| <= p.limit &&
      (p.offset <= |filtered| ==>
        p.exercises == filtered[p.offset..if p.offset + p.limit < |filtered| then p.offset + p.limit else |filtered|]) &&
      (p.offset > |filtered| ==> p.exercises == [])
  {
    var start := NumberOr(offset, 0);
    var size := NumberOr(limit, DefaultLimit);
    Page(Slice(filtered, start, start + size), |filtered|, size, start)
  }

  /** `getExercises` over the loaded catalogue. */
  function GetExercises(all: seq<Exercise>, f: Query): (p: Page)
    ensures p.total == |FilterExercises(all, f)|
    ensures forall e :: e in p.exercises ==> e in all && Satisfies(f, e)
    ensures p.limit == NumberOr(f.limit, DefaultLimit) && p.offset == NumberOr(f.offset, 0)
    ensures var kept := FilterExercises(all, f);
      p.limit >= 0 && p.offset >= 0 ==>
        |p.exercises| <= p.limit &&
        (p.offset <= |kept| ==>
          p.exercises == kept[p.offset..if p.offset + p.limit < |kept| then p.offset + p.limit else |kept|]) &&
        (p.offset > |kept| ==> p.exercises == [])
  {
    Paginate(FilterExercises(all, f), f.limit, f.offset)
  }

  /** The page size and offset do not change the reported total. */
  lemma TotalIgnoresPaging(all: seq<Exercise>, f: Query, limit: Option<int>, offset: Option<int>)
    ensures GetExercises(all, f).total == GetExercises(all, f.(limit := limit, offset := offset)).total
  {
  }

  predicate HasIdOrSourceId(e: Exercise, id: string) { e.id == id || e.sourceId == id }

  /** The first exercise whose id or source id is `id`. */
  function GetExerciseById(all: seq<Exercise>, id: string): (r: Option<Exercise>)
    ensures r.None? <==> forall i :: 0 <= i < |all| ==> !HasIdOrSourceId(all[i], id)
    ensures r.Some? ==>
      exists i :: 0 <= i < |all| && all[i] == r.value && HasIdOrSourceId(all[i], id) &&
                  forall j :: 0 <= j < i ==> !HasIdOrSourceId(all[j], id)
    decreases |all|
  {
    if |all| == 0 then None
    else if HasIdOrSourceId(all[0], id) then Some(all[0])
    else
      var r := GetExerciseById(all[1..], id);
      assert forall i :: 1 <= i < |all| ==> all[i] == all[1..][i - 1];
      r
  }

  /** Looking up the id of an exercise that heads the catalogue finds it. */
  lemma GetExerciseByIdOfHead(all: seq<Exercise>)
    requires |all| > 0
    ensures GetExerciseById(all, all[0].id) == Some(all[0])
  {
  }

  // ---------------------------------------------------------------------------
  // Catalogue cache
  // ---------------------------------------------------------------------------

  const CacheDuration := 1000 * 60 * 60

  /** The module-level cache: the list and when it was loaded (milliseconds). */
  datatype Cache = Cache(exercises: Option<seq<Exercise>>, timestamp: Option<int>)

  /** The cache is used only when both parts are set (a zero timestamp counts
      as unset) and it is younger than an hour. */
  predicate Fresh(c: Cache, now: int) {
    c.exercises.Some? && c.timestamp.Some? && c.timestamp.value != 0 &&
    now - c.timestamp.value < CacheDuration
  }

  /** `getAllExercises` at time `now`, with `load` standing for the catalogue
      file's contents. Returns the list and the new cache. */
  function GetAllExercises(c: Cache, now: int, load: seq<Exercise>): (r: (seq<Exercise>, Cache))
    ensures Fresh(c, now) ==> r.0 == c.exercises.value && r.1 == c
    ensures !Fresh(c, now) ==> r.0 == load && r.1 == Cache(Some(load), Some(now))
  {
    if Fresh(c, now) then (c.exercises.value, c)
    else (load, Cache(Some(load), Some(now)))
  }

  /** A load at a non-zero time is reused by every call within the hour and
      replaced by the first call after it. */
  lemma CacheReuseWithinHour(c: Cache, t: int, t2: int, load: seq<Exercise>, load2: seq<Exercise>)
    requires t != 0 && !Fresh(c, t)
    ensures var c1 := GetAllExercises(c, t, load).1;
      (t2 - t < CacheDuration ==> GetAllExercises(c1, t2, load2).0 == load) &&
      (t2 - t >= CacheDuration ==> GetAllExercises(c1, t2, load2).0 == load2)
  {
  }
}

=== FILE: exercises_page.dfy ===
/** The exercises page's filter option lists: the distinct body areas,
    primary muscles and equipment items of the loaded exercises, each sorted
    in the default string order. */
module ExercisesPage {
  import opened Seqs
  import opened Domain

  /** The truthy body areas, in list order. */
  function BodyAreaValues(exercises: seq<Exercise>): (r: seq<string>)
    ensures forall x :: x in r <==> x != "" && exists e :: e in exercises && e.bodyArea == x
    decreases |exercises|
  {
    if exercises == [] then []
    else
      var rest := BodyAreaValues(exercises[1..]);
      assert forall e :: e in exercises <==> e == exercises[0] || e in exercises[1..];
      if exercises[0].bodyArea != "" then [exercises[0].bodyArea] + rest else rest
  }

  function Muscles(e: Exercise): seq<string> { e.primaryMuscles }

  function Equipment(e: Exercise): seq<string> { e.equipment }

  /** Every value of one list field, in list order. */
  function AllValues(exercises: seq<Exercise>, field: Exercise -> seq<string>): (r: seq<string>)
    ensures forall x :: x in r <==> exists e :: e in exercises && x in field(e)
  {
    var lists := seq(|exercises|, i requires 0 <= i < |exercises| => field(exercises[i]));
    var r := Flatten(lists);
    forall x ensures x in r <==> exists e :: e in exercises && x in field(e) {
      if exists e :: e in exercises && x in field(e) {
        var e :| e in exercises && x in field(e);
        var i :| 0 <= i < |exercises| && exercises[i] == e;
        assert x in lists[i];
      }
    }
    r
  }

  /** `availableBodyAreas`. */
  function AvailableBodyAreas(exercises: seq<Exercise>): (r: seq<string>)
    ensures StrictlySorted(r) && NoDups(r)
    ensures forall x :: x in r <==> x != "" && exists e :: e in exercises && e.bodyArea == x
  {
    var r := SortDistinct(BodyAreaValues(exercises));
    SortedNoDups(r);
    r
  }

  /** `availableMuscles`. */
  function AvailableMuscles(exercises: seq<Exercise>): (r: seq<string>)
    ensures StrictlySorted(r) && NoDups(r)
    ensures forall x :: x in r <==> exists e :: e in exercises && x in e.primaryMuscles
  {
    var r := SortDistinct(AllValues(exercises, Muscles));
    SortedNoDups(r);
    r
  }

  /** `availableEquipment`. */
  function AvailableEquipment(exercises: seq<Exercise>): (r: seq<string>)
    ensures StrictlySorted(r) && NoDups(r)
    ensures forall x :: x in r <==> exists e :: e in exercises && x in e.equipment
  {
    var r := SortDistinct(AllValues(exercises, Equipment));
    SortedNoDups(r);
    r
  }

  /** Each option list is the only sorted duplicate-free list of its values:
      the order of the exercises cannot change it. */
  lemma OptionsDependOnlyOnValues(a: seq<Exercise>, b: seq<Exercise>)
    requires forall e :: e in a <==> e in b
    ensures AvailableBodyAreas(a) == AvailableBodyAreas(b)
    ensures AvailableMuscles(a) == AvailableMuscles(b)
    ensures AvailableEquipment(a) == AvailableEquipment(b)
  {
    SortedUnique(AvailableBodyAreas(a), AvailableBodyAreas(b));
    SortedUnique(AvailableMuscles(a), AvailableMuscles(b));
    SortedUnique(AvailableEquipment(a), AvailableEquipment(b));
  }
}

=== FILE: favorites_page.dfy ===
/** The favourites page: one fetch per favourite id, keeping the successes
    in id order, and the list update after the heart button is pressed.
    The fetch by id is a parameter; `None` is a failed request. */
module FavoritesPage {
  import opened Wrappers
  import opened Seqs
  import opened Domain
  import FavoritesStorage

  /** The outcome of a load: the list shown and the ids requested. */
  datatype Load = Load(exercises: seq<Exercise>, requested: seq<string>)

  /** The successful fetches, in id order. */
  function Fetched(ids: seq<string>, fetch: string -> Option<Exercise>): (r: seq<Exercise>)
    ensures |r| <= |ids|
    ensures forall e :: e in r <==> exists i :: 0 <= i < |ids| && fetch(ids[i]) == Some(e)
  {
    var results := MapSeq(ids, fetch);
    assert forall e :: Some(e) in results <==> exists i :: 0 <= i < |ids| && fetch(ids[i]) == Some(e);
    Present(results)
  }

  /** The first fetch's exercise, if any, then the rest. */
  lemma FetchedCons(ids: seq<string>, fetch: string -> Option<Exercise>)
    requires ids != []
    ensures Fetched(ids, fetch) ==
      (if fetch(ids[0]).Some? then [fetch(ids[0]).value] else []) + Fetched(ids[1..], fetch)
  {
    var results := MapSeq(ids, fetch);
    assert results[1..] == MapSeq(ids[1..], fetch);
  }

  /** When every fetch succeeds, the list is the fetched exercises in id
      order; when none does, it is empty. */
  lemma FetchedInOrder(ids: seq<string>, fetch: string -> Option<Exercise>)
    ensures (forall i :: 0 <= i < |ids| ==> fetch(ids[i]).Some?) ==>
      |Fetched(ids, fetch)| == |ids| &&
      forall i :: 0 <= i < |ids| ==> Fetched(ids, fetch)[i] == fetch(ids[i]).value
    ensures (forall i :: 0 <= i < |ids| ==> fetch(ids[i]).None?) ==> Fetched(ids, fetch) == []
  {
    if forall i :: 0 <= i < |ids| ==> fetch(ids[i]).Some? {
      FetchedAllSucceed(ids, fetch);
    }
    if forall i :: 0 <= i < |ids| ==> fetch(ids[i]).None? {
      FetchedNoneSucceed(ids, fetch);
    }
  }

  lemma {:induction false} FetchedAllSucceed(ids: seq<string>, fetch: string -> Option<Exercise>)
    requires forall i :: 0 <= i < |ids| ==> fetch(ids[i]).Some?
    ensures |Fetched(ids, fetch)| == |ids|
    ensures forall i :: 0 <= i < |ids| ==> Fetched(ids, fetch)[i] == fetch(ids[i]).value
    decreases |ids|
  {
    if ids != [] {
      var rest := ids[1..];
      forall i | 0 <= i < |rest| ensures fetch(rest[i]).Some? {
        assert rest[i] == ids[i + 1];
      }
      FetchedAllSucceed(rest, fetch);
      FetchedCons(ids, fetch);
      var r := Fetched(ids, fetch);
      assert r == [fetch(ids[0]).value] + Fetched(rest, fetch);
      forall i | 0 <= i < |ids| ensures r[i] == fetch(ids[i]).value {
        if i > 0 {
          assert rest[i - 1] == ids[i];
        }
      }
    }
  }

  lemma {:induction false} FetchedNoneSucceed(ids: seq<string>, fetch: string -> Option<Exercise>)
    requires forall i :: 0 <= i < |ids| ==> fetch(ids[i]).None?
    ensures Fetched(ids, fetch) == []
    decreases |ids|
  {
    if ids != [] {
      var rest := ids[1..];
      forall i | 0 <= i < |rest| ensures fetch(rest[i]).None? {
        assert rest[i] == ids[i + 1];
      }
      FetchedNoneSucceed(rest, fetch);
      FetchedCons(ids, fetch);
    }
  }

  /** `loadFavoriteExercises`: nothing is requested when there are no
      favourites. */
  function LoadFavoriteExercises(store: FavoritesStorage.Store, fetch: string -> Option<Exercise>): (r: Load)
    ensures FavoritesStorage.GetFavoriteIds(store) == [] ==> r == Load([], [])
    ensures r.requested == FavoritesStorage.GetFavoriteIds(store)
    ensures forall e :: e in r.exercises <==>
      exists i :: 0 <= i < |r.requested| && fetch(r.requested[i]) == Some(e)
  {
    var ids := FavoritesStorage.GetFavoriteIds(store);
    if ids == [] then Load([], []) else Load(Fetched(ids, fetch), ids)
  }

  function IdIsNot(id: string): Exercise -> bool {
    (e: Exercise) => e.id != id
  }

  /** `handleToggleFavorite`: toggles the stored favourite; when it is no
      longer a favourite, every shown entry with its id goes. */
  function HandleToggleFavorite(store: FavoritesStorage.Store, shown: seq<Exercise>, e: Exercise)
    : (r: (FavoritesStorage.Store, seq<Exercise>))
    ensures r.0 == FavoritesStorage.ToggleFavorite(store, e.id).0
    ensures FavoritesStorage.IsFavorite(store, e.id) ==>
      (forall x :: x in r.1 <==> x in shown && x.id != e.id) && IsSubseq(r.1, shown)
    ensures !FavoritesStorage.IsFavorite(store, e.id) ==> r.1 == shown
  {
    var (store', nowFavorite) := FavoritesStorage.ToggleFavorite(store, e.id);
    if !nowFavorite then (store', Filter(shown, IdIsNot(e.id))) else (store', shown)
  }

  /** Unfavouriting from the page leaves the shown list with no entry that is
      not a favourite any more, and everything else in order. */
  lemma UnfavoriteDropsIt(store: FavoritesStorage.Store, shown: seq<Exercise>, e: Exercise)
    requires FavoritesStorage.IsFavorite(store, e.id)
    ensures var (store', shown') := HandleToggleFavorite(store, shown, e);
      !FavoritesStorage.IsFavorite(store', e.id) &&
      forall x :: x in shown' ==> x.id != e.id
  {
  }
}

=== FILE: favorites_storage.dfy ===
/** The favourite-exercise store: a list of exercise ids in a
    `localStorage` slot (`None` when never written). */
module FavoritesStorage {
  import opened Wrappers
  import Storage
  import opened Seqs

  type Store = Option<seq<string>>

  /** `getFavoriteExerciseIds`: a missing key reads as no favourites. */
  function GetFavoriteIds(store: Store): seq<string>
  {
    Storage.Read(store, [])
  }

  predicate IsFavorite(store: Store, id: string) {
    id in GetFavoriteIds(store)
  }

  /** `addFavorite`: appends the id when it is absent; otherwise nothing is
      written. */
  function AddFavorite(store: Store, id: string): (r: Store)
    ensures IsFavorite(r, id)
    ensures IsFavorite(store, id) ==> r == store
    ensures !IsFavorite(store, id) ==> r == Some(GetFavoriteIds(store) + [id])
    ensures forall x :: x in GetFavoriteIds(r) <==> x in GetFavoriteIds(store) || x == id
    ensures NoDups(GetFavoriteIds(store)) ==> NoDups(GetFavoriteIds(r))
  {
    if IsFavorite(store, id) then store else Some(GetFavoriteIds(store) + [id])
  }

  /** Adding twice is adding once. */
  lemma AddFavoriteIdempotent(store: Store, id: string)
    ensures AddFavorite(AddFavorite(store, id), id) == AddFavorite(store, id)
  {
  }

  /** `removeFavorite`: drops every copy of the id; the others keep their
      order. */
  function RemoveFavorite(store: Store, id: string): (r: Store)
    ensures r.Some?
    ensures !IsFavorite(r, id)
    ensures forall x :: x in GetFavoriteIds(r) <==> x in GetFavoriteIds(store) && x != id
    ensures IsSubseq(GetFavoriteIds(r), GetFavoriteIds(store))
  {
    Some(Filter(GetFavoriteIds(store), x => x != id))
  }

  /** `toggleFavorite`: flips membership and reports the new membership. */
  function ToggleFavorite(store: Store, id: string): (r: (Store, bool))
    ensures r.1 == !IsFavorite(store, id)
    ensures IsFavorite(r.0, id) == r.1
    ensures forall x :: x != id ==> (IsFavorite(r.0, x) <==> IsFavorite(store, x))
  {
    if IsFavorite(store, id) then (RemoveFavorite(store, id), false)
    else (AddFavorite(store, id), true)
  }

  /** Two toggles restore membership of every id. A favourite toggled off and
      on again moves to the end of the list. */
  lemma ToggleTwice(store: Store, id: string)
    ensures var s2 := ToggleFavorite(ToggleFavorite(store, id).0, id).0;
      forall x :: IsFavorite(s2, x) <==> IsFavorite(store, x)
    ensures IsFavorite(store, id) ==>
      GetFavoriteIds(ToggleFavorite(ToggleFavorite(store, id).0, id).0) ==
      Filter(GetFavoriteIds(store), x => x != id) + [id]
  {
    if IsFavorite(store, id) {
      var s1 := RemoveFavorite(store, id);
      assert !IsFavorite(s1, id);
      assert ToggleFavorite(s1, id).0 == Some(GetFavoriteIds(s1) + [id]);
      FilterExt(GetFavoriteIds(store), x => x != id, x => x != id);
    }
  }

  /** `getFavoriteCount`. */
  function FavoriteCount(store: Store): (n: nat)
    ensures n == |GetFavoriteIds(store)|
    ensures NoDups(GetFavoriteIds(store)) ==> n == |set x | x in GetFavoriteIds(store)|
  {
    DistinctCount(GetFavoriteIds(store));
    |GetFavoriteIds(store)|
  }

  /** A duplicate-free list has as many elements as its set of elements. */
  lemma {:induction false} DistinctCount(s: seq<string>)
    ensures NoDups(s) ==> |s| == |set x | x in s|
    decreases |s|
  {
    if |s| > 0 && NoDups(s) {
      var t := s[1..];
      assert NoDups(t);
      DistinctCount(t);
      assert (set x | x in s) == (set x | x in t) + {s[0]};
      assert s[0] !in t;
    }
  }
}

=== FILE: filter_bar.dfy ===
/** The record updates of the plain filter bar on the exercise list page:
    the search box and each drop-down write one key of the filter record, and
    "clear" empties the record. An empty input clears its key. */
module FilterBar {
  import opened Wrappers
  import opened Domain

  /** The string-valued keys a drop-down or the search box can write. */
  datatype FilterKey = Q | BodyArea | BodyPart | PrimaryMuscle | Equipment | Level | Category | ExerciseType

  function Get(f: Filters, k: FilterKey): Option<string> {
    match k
    case Q => f.q
    case BodyArea => f.bodyArea
    case BodyPart => f.bodyPart
    case PrimaryMuscle => f.primaryMuscle
    case Equipment => f.equipment
    case Level => f.level
    case Category => f.category
    case ExerciseType => f.exerciseType
  }

  /** `value || undefined`. */
  function InputValue(value: string): (r: Option<string>)
    ensures r.None? <==> value == ""
    ensures r.Some? ==> r.value == value
  {
    if value == "" then None else Some(value)
  }

  /** `handleFilterChange(key, value)`: `{...filters, [key]: value || undefined}`. */
  function SetKey(f: Filters, k: FilterKey, value: string): (r: Filters)
    ensures Get(r, k) == InputValue(value)
    ensures forall k' :: k' != k ==> Get(r, k') == Get(f, k')
    ensures r.equipmentFilterEnabled == f.equipmentFilterEnabled
    ensures r.equipmentFilterMode == f.equipmentFilterMode
    ensures r.limit == f.limit && r.offset == f.offset
  {
    var v := InputValue(value);
    match k
    case Q => f.(q := v)
    case BodyArea => f.(bodyArea := v)
    case BodyPart => f.(bodyPart := v)
    case PrimaryMuscle => f.(primaryMuscle := v)
    case Equipment => f.(equipment := v)
    case Level => f.(level := v)
    case Category => f.(category := v)
    case ExerciseType => f.(exerciseType := v)
  }

  /** Two filter records with the same string keys and the same equipment
      and paging fields are the same record. */
  lemma FiltersExt(a: Filters, b: Filters)
    requires forall k :: Get(a, k) == Get(b, k)
    requires a.equipmentFilterEnabled == b.equipmentFilterEnabled
    requires a.equipmentFilterMode == b.equipmentFilterMode
    requires a.limit == b.limit && a.offset == b.offset
    ensures a == b
  {
    assert Get(a, Q) == Get(b, Q) && Get(a, BodyArea) == Get(b, BodyArea);
    assert Get(a, BodyPart) == Get(b, BodyPart) && Get(a, PrimaryMuscle) == Get(b, PrimaryMuscle);
    assert Get(a, Equipment) == Get(b, Equipment) && Get(a, Level) == Get(b, Level);
    assert Get(a, Category) == Get(b, Category) && Get(a, ExerciseType) == Get(b, ExerciseType);
  }

  /** Writing a key and then writing back its old text restores the record,
      whenever that old value was a non-empty string or absent. */
  lemma SetKeyUndo(f: Filters, k: FilterKey, value: string)
    requires Get(f, k).None? || Get(f, k).value != ""
    ensures SetKey(SetKey(f, k, value), k, Get(f, k).GetOr("")) == f
  {
    var g := SetKey(SetKey(f, k, value), k, Get(f, k).GetOr(""));
    FiltersExt(g, f);
  }

  /** `handleSearchChange`: the search box writes `q` the same way. */
  function SearchChange(f: Filters, text: string): (r: Filters)
    ensures r.q == InputValue(text)
    ensures forall k :: k != Q ==> Get(r, k) == Get(f, k)
    ensures r.limit == f.limit && r.offset == f.offset
  {
    SetKey(f, Q, text)
  }

  /** `clearFilters`: the empty record, which also drops the page's limit. */
  function ClearFilters(): (r: Filters)
    ensures forall k :: Get(r, k).None?
    ensures r.limit.None? && r.offset.None?
    ensures r.equipmentFilterEnabled.None? && r.equipmentFilterMode.None?
  {
    NoFilters
  }
}

=== FILE: gif_service.dfy ===
/** The frame-selection rule of the GIF frame extractor. Downloading and
    decoding the GIF are outside the model: only the number of frames it has
    and the requested index enter. */
module GifService {

  function Min(a: int, b: int): int { if a <= b then a else b }
  function Max(a: int, b: int): int { if a >= b then a else b }

  /** `Math.floor(n * 0.6)`, computed exactly in integers. */
  function PeakFrame(frameCount: nat): (r: nat)
    ensures 10 * r <= 6 * frameCount < 10 * r + 10
  {
    (6 * frameCount) / 10
  }

  /** Which frame to extract for a request of `requested` from a GIF with
      `frameCount` frames. A request of 1 or -1 means "end position". */
  function TargetFrameIndex(requested: int, frameCount: nat): (r: int)
    ensures (requested == 1 || requested == -1) && frameCount <= 2 ==> r == frameCount - 1
    ensures (requested == 1 || requested == -1) && frameCount >= 3 ==> 1 <= r <= frameCount - 2
    ensures requested != 1 && requested != -1 ==> r <= requested && r <= frameCount - 1
    ensures requested != 1 && requested != -1 ==> r == requested || r == frameCount - 1
  {
    if requested == -1 || requested == 1 then
      if frameCount <= 2 then frameCount - 1
      else Max(1, Min(PeakFrame(frameCount), frameCount - 2))
    else Min(requested, frameCount - 1)
  }

  /** For three or more frames neither clamp binds: the end position is the
      frame 60% of the way through. */
  lemma EndFrameIsPeak(frameCount: nat)
    requires frameCount >= 3
    ensures TargetFrameIndex(1, frameCount) == PeakFrame(frameCount)
    ensures TargetFrameIndex(-1, frameCount) == PeakFrame(frameCount)
  {
    var p := PeakFrame(frameCount);
    assert p >= 1;
    assert p <= frameCount - 2;
  }

  /** The chosen frame exists whenever the GIF has a frame and the request is
      an end request or a non-negative index; a request below -1 or an empty
      GIF leaves the index outside the frame list. */
  lemma TargetFrameInRange(requested: int, frameCount: nat)
    requires frameCount >= 1
    requires requested >= -1
    ensures 0 <= TargetFrameIndex(requested, frameCount) < frameCount
  {
  }

  /** Without frames there is nothing to pick: the index is negative. */
  lemma NoFramesNoIndex(requested: int)
    requires requested >= -1
    ensures TargetFrameIndex(requested, 0) < 0
  {
  }
}

=== FILE: gif_utils.dfy ===
/** The GIF helpers of the client: the URL test and the two-frame fallback. */
module GifUtils {
  import opened Text

  /** `isGifUrl`: non-empty, and the lower-cased URL ends in ".gif",
      contains ".gif?" or contains "gif". */
  predicate IsGifUrl(url: string) {
    url != "" &&
    var lower := Lower(url);
    EndsWith(lower, ".gif") || Contains(lower, ".gif?") || Contains(lower, "gif")
  }

  /** The first two tests are special cases of the third: the test is
      "contains gif, ignoring case". */
  lemma IsGifUrlIffContainsGif(url: string)
    ensures IsGifUrl(url) <==> Contains(Lower(url), "gif")
  {
    var lower := Lower(url);
    if EndsWith(lower, ".gif") {
      EndsWithContains(lower, ".gif");
      assert ".gif" == "." + "gif";
      ContainsSuffixOfPart(lower, ".", "gif");
    }
    if Contains(lower, ".gif?") {
      assert ".gif?" == ".gif" + "?";
      ContainsPrefixOfPart(lower, ".gif", "?");
      assert ".gif" == "." + "gif";
      ContainsSuffixOfPart(lower, ".", "gif");
    }
    if Contains(lower, "gif") {
      var i :| 0 <= i <= |lower| - 3 && OccursAt(lower, "gif", i);
      assert url != "";
    }
  }

  /** The test ignores case. */
  lemma IsGifUrlIgnoresCase(url: string)
    ensures IsGifUrl(Upper(url)) <==> IsGifUrl(url)
  {
    IsGifUrlIffContainsGif(url);
    IsGifUrlIffContainsGif(Upper(url));
    LowerOfUpper(url);
  }

  /** Any URL mentioning "gif" counts, whatever its extension; the empty
      string does not. */
  lemma GifTestExamples()
    ensures !IsGifUrl("")
    ensures IsGifUrl("gifted.jpg")
    ensures IsGifUrl("IMG.GIF")
  {
    assert OccursAt(Lower("gifted.jpg"), "gif", 0);
    assert OccursAt(Lower("IMG.GIF"), "gif", 4);
  }

  /** `shouldSplitGif`. */
  predicate ShouldSplitGif(url: string) {
    IsGifUrl(url)
  }

  /** `getGifFrameUrls`: the URL twice, whatever frames are asked for. */
  function GetGifFrameUrls(url: string, frameIndices: seq<int>): (r: seq<string>)
    ensures |r| == 2 && r[0] == url && r[1] == url
  {
    [url, url]
  }

  lemma FrameUrlsIgnoreIndices(url: string, a: seq<int>, b: seq<int>)
    ensures GetGifFrameUrls(url, a) == GetGifFrameUrls(url, b)
    ensures ShouldSplitGif(url) <==> Contains(Lower(url), "gif")
  {
    IsGifUrlIffContainsGif(url);
  }
}

=== FILE: js.dfy ===
/** JavaScript value semantics the source relies on: truthiness of optional
    strings, `Array.prototype.slice` index clamping and `parseInt(s, 10)`. */
module Js {
  import opened Wrappers
  import opened Text

  /** A string value is truthy when it is present and not empty. */
  predicate Truthy(o: Option<string>) {
    o.Some? && o.value != ""
  }

  /** `o || fallback` for an optional string. */
  function OrElse(o: Option<string>, fallback: string): (r: string)
    ensures Truthy(o) ==> r == o.value
    ensures !Truthy(o) ==> r == fallback
  {
    if Truthy(o) then o.value else fallback
  }

  /** `n || fallback` for a number, with `None` standing for `undefined` or
      `NaN`; zero is falsy too. */
  function NumberOr(n: Option<int>, fallback: int): (r: int)
    ensures n.Some? && n.value != 0 ==> r == n.value
    ensures n.None? || n.value == 0 ==> r == fallback
  {
    if n.Some? && n.value != 0 then n.value else fallback
  }

  /** How `slice` turns a relative index into a position: negative values
      count back from the end, and the result is clamped to `[0, len]`. */
  function ClampIndex(i: int, len: nat): (r: nat)
    ensures r <= len
    ensures 0 <= i <= len ==> r == i
    ensures i > len ==> r == len
  {
    if i < 0 then (if len + i < 0 then 0 else len + i)
    else if i > len then len
    else i
  }

  /** `s.slice(start, end)`. */
  function Slice<T>(s: seq<T>, start: int, end: int): (r: seq<T>)
    ensures |r| <= |s|
    ensures 0 <= start <= end ==>
      var b := if end < |s| then end else |s|;
      (start <= |s| ==> r == s[start..b]) && (start > |s| ==> r == [])
  {
    var a := ClampIndex(start, |s|);
    var b := ClampIndex(end, |s|);
    if a < b then s[a..b] else []
  }

  /** The value of a digit character in bases up to 16: `0`-`9`, then `a`-`f`
      or `A`-`F`; 16 for any other character. */
  function DigitValue(c: char): (v: nat)
    ensures v <= 16
    ensures ('0' <= c <= '9') <==> v < 10
  {
    if '0' <= c <= '9' then c as int - '0' as int
    else if 'a' <= c <= 'f' then c as int - 'a' as int + 10
    else if 'A' <= c <= 'F' then c as int - 'A' as int + 10
    else 16
  }

  /** A digit of base `radix`. */
  predicate IsDigit(c: char, radix: nat) {
    DigitValue(c) < radix
  }

  predicate AllDigits(d: string, radix: nat) {
    forall i :: 0 <= i < |d| ==> IsDigit(d[i], radix)
  }

  /** The longest prefix of `s` made of digits of base `radix`. */
  function DigitPrefix(s: string, radix: nat): (r: string)
    ensures |r| <= |s| && r == s[..|r|]
    ensures AllDigits(r, radix)
    ensures |r| < |s| ==> !IsDigit(s[|r|], radix)
    decreases |s|
  {
    if |s| > 0 && IsDigit(s[0], radix) then [s[0]] + DigitPrefix(s[1..], radix) else ""
  }

  /** The number a string of digits of base `radix` denotes, most significant
      first. */
  function DigitsValue(d: string, radix: nat): nat
    requires AllDigits(d, radix)
    decreases |d|
  {
    if |d| == 0 then 0 else DigitsValue(d[..|d| - 1], radix) * radix + DigitValue(d[|d| - 1])
  }

  /** What follows an optional leading sign. */
  function SignlessBody(t: string): string {
    if |t| > 0 && (t[0] == '-' || t[0] == '+') then t[1..] else t
  }

  /** -1 after a leading minus sign, else 1. */
  function Sign(t: string): (r: int)
    ensures r == 1 || r == -1
  {
    if |t| > 0 && t[0] == '-' then -1 else 1
  }

  /** `parseInt(s, 10)`, with `None` standing for `NaN`: leading white space is
      skipped, one sign is accepted, and the longest run of digits after it is
      read; no digit at all gives `NaN`. */
  function ParseInt(s: string): (r: Option<int>)
    ensures r.None? <==> DigitPrefix(SignlessBody(TrimStart(s)), 10) == ""
  {
    var t := TrimStart(s);
    var d := DigitPrefix(SignlessBody(t), 10);
    if d == "" then None else Some(Sign(t) * DigitsValue(d, 10))
  }

  /** A `0x` or `0X` prefix. */
  predicate HasHexPrefix(b: string) {
    |b| >= 2 && b[0] == '0' && (b[1] == 'x' || b[1] == 'X')
  }

  /** `parseInt(s)` with no radix: as `parseInt(s, 10)`, except that a `0x` or
      `0X` after the sign switches to base 16 and is skipped; no hex digit
      after it gives `NaN`. */
  function ParseIntAuto(s: string): (r: Option<int>)
    ensures !HasHexPrefix(SignlessBody(TrimStart(s))) ==> r == ParseInt(s)
    ensures HasHexPrefix(SignlessBody(TrimStart(s))) ==>
      (r.None? <==> DigitPrefix(SignlessBody(TrimStart(s))[2..], 16) == "")
  {
    var t := TrimStart(s);
    var b := SignlessBody(t);
    if !HasHexPrefix(b) then ParseInt(s)
    else
      var d := DigitPrefix(b[2..], 16);
      if d == "" then None else Some(Sign(t) * DigitsValue(d, 16))
  }

  /** The lower-case digit of value `n`. */
  function DigitChar(n: nat, radix: nat): (c: char)
    requires n < radix <= 16
    ensures IsDigit(c, radix) && DigitValue(c) == n
  {
    if n < 10 then ('0' as int + n) as char else ('a' as int + n - 10) as char
  }

  /** Appending a digit multiplies the value by the base and adds the
      digit. */
  lemma DigitsValueSnoc(init: string, c: char, radix: nat)
    requires AllDigits(init, radix) && IsDigit(c, radix)
    ensures AllDigits(init + [c], radix)
    ensures DigitsValue(init + [c], radix) == DigitsValue(init, radix) * radix + DigitValue(c)
  {
    assert (init + [c])[..|init|] == init;
  }

  lemma DivModSplit(n: nat, radix: nat)
    requires radix >= 2
    ensures n / radix < n || n == 0
    ensures (n / radix) * radix + n % radix == n
  {
  }

  /** The digits of a natural number in base `radix`, most significant first
      (`n.toString(radix)`). */
  function NatToDigits(n: nat, radix: nat): (r: string)
    requires 2 <= radix <= 16
    ensures |r| > 0 && AllDigits(r, radix)
    ensures DigitsValue(r, radix) == n
    decreases n
  {
    if n < radix then
      var c := DigitChar(n, radix);
      DigitsValueSnoc("", c, radix);
      assert "" + [c] == [c];
      [c]
    else
      DivModSplit(n, radix);
      var init := NatToDigits(n / radix, radix);
      var c := DigitChar(n % radix, radix);
      DigitsValueSnoc(init, c, radix);
      init + [c]
  }

  /** Decimal rendering of a natural number (`String(n)`). */
  function NatToString(n: nat): (r: string)
    ensures |r| > 0 && AllDigits(r, 10)
    ensures DigitsValue(r, 10) == n
  {
    NatToDigits(n, 10)
  }

  /** Decimal rendering of an integer (`String(n)`). */
  function IntToString(n: int): string {
    if n < 0 then "-" + NatToString(-n) else NatToString(n)
  }

  /** Hexadecimal rendering of an integer with a `0x` prefix after the sign. */
  function IntToHex(n: int): string {
    if n < 0 then "-0x" + NatToDigits(-n, 16) else "0x" + NatToDigits(n, 16)
  }

  lemma {:induction false} DigitPrefixOfDigits(d: string, radix: nat)
    requires AllDigits(d, radix)
    ensures DigitPrefix(d, radix) == d
    decreases |d|
  {
    if |d| > 0 {
      DigitPrefixOfDigits(d[1..], radix);
    }
  }

  /** `parseInt(s, 10)` reads back what `String` writes. */
  lemma ParseIntOfIntToString(n: int)
    ensures ParseInt(IntToString(n)) == Some(n)
  {
    var s := IntToString(n);
    var digits := NatToString(if n < 0 then -n else n);
    assert !IsSpace(s[0]);
    TrimStartNoop(s);
    assert SignlessBody(s) == digits;
    DigitPrefixOfDigits(digits, 10);
  }

  /** `parseInt("0", 10)` is 0. */
  lemma ParseIntZero()
    ensures ParseInt("0") == Some(0)
  {
    ParseIntOfIntToString(0);
    assert IntToString(0) == "0";
  }

  /** `parseInt(s)` with no radix reads decimal text as `parseInt(s, 10)` does:
      the character after a leading `0` is a digit, never `x`. */
  lemma ParseIntAutoOfIntToString(n: int)
    ensures ParseIntAuto(IntToString(n)) == Some(n)
  {
    var s := IntToString(n);
    var digits := NatToString(if n < 0 then -n else n);
    assert !IsSpace(s[0]);
    TrimStartNoop(s);
    assert SignlessBody(s) == digits;
    assert |digits| >= 2 ==> IsDigit(digits[1], 10);
    ParseIntOfIntToString(n);
  }

  /** `parseInt(s, 10)` stops at the `x` of a `0x` rendering and reads 0. */
  lemma ParseIntOfIntToHex(n: int)
    ensures ParseInt(IntToHex(n)) == Some(0)
  {
    var s := IntToHex(n);
    assert !IsSpace(s[0]);
    TrimStartNoop(s);
    var b := SignlessBody(s);
    assert b[..2] == "0x";
    assert DigitPrefix(b, 10) == "0" by {
      assert !IsDigit(b[1], 10);
      assert DigitPrefix(b[1..], 10) == "";
    }
    assert "0"[..0] == "";
    assert DigitsValue("0", 10) == 0;
  }

  /** `parseInt(s)` with no radix reads back a `0x` rendering, where
      `parseInt(s, 10)` stops at the `x` and reads 0. */
  lemma ParseIntAutoOfIntToHex(n: int)
    ensures ParseIntAuto(IntToHex(n)) == Some(n)
    ensures ParseInt(IntToHex(n)) == Some(0)
  {
    var s := IntToHex(n);
    var m: nat := if n < 0 then -n else n;
    var digits := NatToDigits(m, 16);
    assert !IsSpace(s[0]);
    TrimStartNoop(s);
    var b := SignlessBody(s);
    assert b == "0x" + digits;
    assert HasHexPrefix(b) && b[2..] == digits;
    DigitPrefixOfDigits(digits, 16);
    assert DigitsValue(digits, 16) == m;
    assert Sign(s) == (if n < 0 then -1 else 1);
    assert ParseIntAuto(s) == Some(Sign(s) * m);
    ParseIntOfIntToHex(n);
  }
}

=== FILE: print_view.dfy ===
/** The print sheet of a workout: build the id → exercise map (custom
    exercises first, then the catalogue exercises fetched by id), order the
    workout's entries by `order`, resolve each to an exercise (exactly, else
    by a partial id match), drop the unresolved ones and cut the rest into
    pages of two. The fetch is a parameter; `None` is a failed or timed-out
    request. */
module PrintView {
  import opened Wrappers
  import opened Text
  import opened Seqs
  import opened Records
  import opened Domain
  import WorkoutSelectorModal

  /** `DEFAULT_PRINT_CONFIG` of the print view: two exercises per page. */
  const DefaultPrintConfig := PrintConfig(2, true, true, true, true, true, true, true, true, false)

  /** The sheet's configuration: the workout's own, else the default. */
  function ActivePrintConfig(w: Workout): (r: PrintConfig)
    ensures w.printConfig.Some? ==> r == w.printConfig.value
    ensures w.printConfig.None? ==> r == DefaultPrintConfig && r.exercisesPerPage == 2
  {
    w.printConfig.GetOr(DefaultPrintConfig)
  }

  // ---------------------------------------------------------------------------
  // The exercise map
  // ---------------------------------------------------------------------------

  /** A JavaScript `Map<string, Exercise>`: entries in insertion order, one
      per key. */
  type ExerciseMap = seq<(string, Exercise)>

  function PairKey(p: (string, Exercise)): string { p.0 }

  /** `map.get(k)`. */
  function Lookup(m: ExerciseMap, k: string): (r: Option<Exercise>)
    ensures r.None? <==> !HasKey(m, PairKey, k)
    ensures r.Some? ==> (k, r.value) in m
  {
    match Find(m, PairKey, k)
    case None => None
    case Some(p) => Some(p.1)
  }

  /** `map.set(k, v)`: overwrite in place, or append a new key. */
  function MapSet(m: ExerciseMap, k: string, v: Exercise): (r: ExerciseMap)
    ensures Lookup(r, k) == Some(v)
    ensures forall k' :: k' != k ==> Lookup(r, k') == Lookup(m, k')
    ensures DistinctKeys(m, PairKey) ==> DistinctKeys(r, PairKey)
  {
    var r := Upsert(m, PairKey, (k, v));
    assert PairKey((k, v)) == k;
    forall k' | k' != k ensures Lookup(r, k') == Lookup(m, k') {
      UpsertFindOther(m, PairKey, (k, v), k');
    }
    r
  }

  /** The custom exercises, set one after another under their ids. */
  function LoadCustom(m: ExerciseMap, customs: seq<Exercise>): (r: ExerciseMap)
    ensures forall k :: Lookup(r, k).Some? <==> Lookup(m, k).Some? || exists e :: e in customs && e.id == k
    ensures DistinctKeys(m, PairKey) ==> DistinctKeys(r, PairKey)
    decreases |customs|
  {
    if customs == [] then m
    else
      var r := LoadCustom(MapSet(m, customs[0].id, customs[0]), customs[1..]);
      assert forall e :: e in customs <==> e == customs[0] || e in customs[1..];
      r
  }

  /** The exercise ids of the workout's entries worth fetching: non-empty,
      not already in the map, each once, in order of first appearance. */
  function IdsToFetch(entries: seq<SessionExercise>, m: ExerciseMap): (r: seq<string>)
    ensures NoDups(r)
    ensures forall id :: id in r <==>
      id != "" && !HasKey(m, PairKey, id) && exists e :: e in entries && e.exerciseId == id
    ensures var wanted := Filter(ExerciseIds(entries), Wanted(m));
      (forall x :: x in r <==> x in wanted) &&
      forall i, j :: 0 <= i < j < |r| ==> FirstIndex(wanted, r[i]) < FirstIndex(wanted, r[j])
  {
    var ids := ExerciseIds(entries);
    var wanted := Filter(ids, Wanted(m));
    var r := Dedup(wanted);
    forall id ensures id in r <==> id != "" && !HasKey(m, PairKey, id) && exists e :: e in entries && e.exerciseId == id {
      if id in ids {
        var k :| 0 <= k < |ids| && ids[k] == id;
        assert entries[k] in entries;
      }
      if exists e :: e in entries && e.exerciseId == id {
        var e :| e in entries && e.exerciseId == id;
        var k :| 0 <= k < |entries| && entries[k] == e;
        assert ids[k] == id;
      }
    }
    r
  }

  function ExerciseIds(entries: seq<SessionExercise>): (r: seq<string>)
    ensures |r| == |entries| && forall k :: 0 <= k < |entries| ==> r[k] == entries[k].exerciseId
  {
    seq(|entries|, k requires 0 <= k < |entries| => entries[k].exerciseId)
  }

  /** `Boolean(id) && !exerciseMap.has(id)`. */
  function Wanted(m: ExerciseMap): string -> bool {
    (id: string) => id != "" && !HasKey(m, PairKey, id)
  }

  /** Adds the fetched exercises, in request order, skipping failures. */
  function MergeResults(m: ExerciseMap, ids: seq<string>, results: seq<Option<Exercise>>): (r: ExerciseMap)
    requires |results| == |ids|
    ensures forall k :: Lookup(r, k).Some? <==> Lookup(m, k).Some? || Arrived(ids, results, k)
    ensures forall k :: (forall i :: 0 <= i < |ids| ==> ids[i] != k || results[i].None?) ==> Lookup(r, k) == Lookup(m, k)
    ensures NoDups(ids) ==> forall i :: 0 <= i < |ids| && results[i].Some? ==> Lookup(r, ids[i]) == results[i]
    ensures DistinctKeys(m, PairKey) ==> DistinctKeys(r, PairKey)
    decreases |ids|, 1
  {
    if ids == [] then m
    else
      var m' := MergeFirst(m, ids, results);
      var r := MergeResults(m', ids[1..], results[1..]);
      MergeStepKeys(m, ids, results);
      MergeStepUnchanged(m, ids, results);
      MergeStepStores(m, ids, results);
      r
  }

  /** The map after the first result: set when it arrived. */
  function MergeFirst(m: ExerciseMap, ids: seq<string>, results: seq<Option<Exercise>>): (m': ExerciseMap)
    requires |results| == |ids| > 0
    ensures results[0].Some? ==> Lookup(m', ids[0]) == results[0]
    ensures forall k :: k != ids[0] || results[0].None? ==> Lookup(m', k) == Lookup(m, k)
    ensures DistinctKeys(m, PairKey) ==> DistinctKeys(m', PairKey)
  {
    if results[0].Some? then MapSet(m, ids[0], results[0].value) else m
  }

  /** Some request for `k` got an answer. */
  predicate Arrived(ids: seq<string>, results: seq<Option<Exercise>>, k: string)
    requires |results| == |ids|
  {
    exists i :: 0 <= i < |ids| && ids[i] == k && results[i].Some?
  }

  /** An answer for `k` arrived for the first request or for a later one. */
  lemma ArrivedSplit(ids: seq<string>, results: seq<Option<Exercise>>, k: string)
    requires |results| == |ids| > 0
    ensures Arrived(ids, results, k) <==>
      (ids[0] == k && results[0].Some?) || Arrived(ids[1..], results[1..], k)
  {
    var ids', results' := ids[1..], results[1..];
    if Arrived(ids', results', k) {
      var i :| 0 <= i < |ids'| && ids'[i] == k && results'[i].Some?;
      assert ids[i + 1] == k && results[i + 1].Some?;
    }
    if Arrived(ids, results, k) {
      var i :| 0 <= i < |ids| && ids[i] == k && results[i].Some?;
      if i > 0 {
        assert ids'[i - 1] == k && results'[i - 1].Some?;
      }
    }
  }

  /** Helper for `MergeResults`: the keys present after one more step. */
  lemma MergeStepKeys(m: ExerciseMap, ids: seq<string>, results: seq<Option<Exercise>>)
    requires |results| == |ids| > 0
    ensures var r := MergeResults(MergeFirst(m, ids, results), ids[1..], results[1..]);
      forall k :: Lookup(r, k).Some? <==> Lookup(m, k).Some? || Arrived(ids, results, k)
    decreases |ids|, 0
  {
    var r := MergeResults(MergeFirst(m, ids, results), ids[1..], results[1..]);
    forall k ensures Lookup(r, k).Some? <==> Lookup(m, k).Some? || Arrived(ids, results, k) {
      ArrivedSplit(ids, results, k);
    }
  }

  /** Helper for `MergeResults`: a key no arrived result names keeps its
      entry. */
  lemma MergeStepUnchanged(m: ExerciseMap, ids: seq<string>, results: seq<Option<Exercise>>)
    requires |results| == |ids| > 0
    ensures var r := MergeResults(MergeFirst(m, ids, results), ids[1..], results[1..]);
      forall k :: (forall i :: 0 <= i < |ids| ==> ids[i] != k || results[i].None?) ==> Lookup(r, k) == Lookup(m, k)
    decreases |ids|, 0
  {
    var ids', results' := ids[1..], results[1..];
    var r := MergeResults(MergeFirst(m, ids, results), ids', results');
    forall k | forall i :: 0 <= i < |ids| ==> ids[i] != k || results[i].None?
      ensures Lookup(r, k) == Lookup(m, k)
    {
      forall i | 0 <= i < |ids'| ensures ids'[i] != k || results'[i].None? {
        assert ids'[i] == ids[i + 1] && results'[i] == results[i + 1];
      }
    }
  }

  /** Helper for `MergeResults`: with distinct ids, each arrived result is
      stored under its id. */
  lemma MergeStepStores(m: ExerciseMap, ids: seq<string>, results: seq<Option<Exercise>>)
    requires |results| == |ids| > 0
    ensures var r := MergeResults(MergeFirst(m, ids, results), ids[1..], results[1..]);
      NoDups(ids) ==> forall i :: 0 <= i < |ids| && results[i].Some? ==> Lookup(r, ids[i]) == results[i]
    decreases |ids|, 0
  {
    var ids', results' := ids[1..], results[1..];
    var r := MergeResults(MergeFirst(m, ids, results), ids', results');
    if NoDups(ids) {
      assert NoDups(ids');
      forall i | 0 <= i < |ids| && results[i].Some? ensures Lookup(r, ids[i]) == results[i] {
        if i == 0 {
          forall j | 0 <= j < |ids'| ensures ids'[j] != ids[0] || results'[j].None? {
            assert ids'[j] == ids[j + 1];
          }
        } else {
          assert ids'[i - 1] == ids[i] && results'[i - 1] == results[i];
        }
      }
    }
  }

  predicate IsCustomId(customs: seq<Exercise>, k: string) {
    exists e :: e in customs && e.id == k
  }

  predicate Referenced(entries: seq<SessionExercise>, k: string) {
    exists e :: e in entries && e.exerciseId == k
  }

  /** The whole load: custom exercises, then one request per id to fetch. */
  function LoadExercises(customs: seq<Exercise>, entries: seq<SessionExercise>, fetch: string -> Option<Exercise>)
    : (r: ExerciseMap)
    ensures DistinctKeys(r, PairKey)
  {
    assert DistinctKeys([], PairKey);
    var m0 := LoadCustom([], customs);
    var ids := IdsToFetch(entries, m0);
    MergeResults(m0, ids, MapSeq(ids, fetch))
  }

  /** Merging the answers to distinct ids: a requested id holds its answer
      when it arrived and keeps its old entry otherwise; any other key is
      untouched. */
  lemma MergedFetches(m: ExerciseMap, ids: seq<string>, fetch: string -> Option<Exercise>, k: string)
    requires NoDups(ids)
    ensures var r := MergeResults(m, ids, MapSeq(ids, fetch));
      Lookup(r, k) == if k in ids && fetch(k).Some? then fetch(k) else Lookup(m, k)
  {
    var results := MapSeq(ids, fetch);
    if k in ids {
      var i :| 0 <= i < |ids| && ids[i] == k;
      assert results[i] == fetch(k);
      if fetch(k).None? {
        forall j | 0 <= j < |ids| ensures ids[j] != k || results[j].None? {
        }
      }
    } else {
      forall j | 0 <= j < |ids| ensures ids[j] != k || results[j].None? {
        assert ids[j] in ids;
      }
    }
  }

  /** After loading, an id is in the map exactly when it names a custom
      exercise or a referenced exercise whose fetch succeeded; a fetched
      exercise is stored under its id unless a custom one already was. */
  lemma LoadedExercises(customs: seq<Exercise>, entries: seq<SessionExercise>, fetch: string -> Option<Exercise>, k: string)
    ensures var r := LoadExercises(customs, entries, fetch);
      Lookup(r, k).Some? <==> IsCustomId(customs, k) || (k != "" && Referenced(entries, k) && fetch(k).Some?)
    ensures Referenced(entries, k) && k != "" && !IsCustomId(customs, k) ==>
      Lookup(LoadExercises(customs, entries, fetch), k) == fetch(k)
  {
    var m0 := LoadCustom([], customs);
    var ids := IdsToFetch(entries, m0);
    MergedFetches(m0, ids, fetch, k);
    assert Lookup(m0, k).Some? <==> IsCustomId(customs, k);
    assert k in ids <==> k != "" && !IsCustomId(customs, k) && Referenced(entries, k);
  }

  // ---------------------------------------------------------------------------
  // Sorting, resolving, paging
  // ---------------------------------------------------------------------------

  predicate SortedByOrder(s: seq<SessionExercise>) {
    forall i, j :: 0 <= i < j < |s| ==> s[i].order <= s[j].order
  }

  /** An entry whose order is not above any in a sorted list can go first. */
  lemma ConsSorted(x: SessionExercise, s: seq<SessionExercise>)
    requires SortedByOrder(s) && forall y :: y in s ==> x.order <= y.order
    ensures SortedByOrder([x] + s)
  {
    forall i, j | 0 <= i < j < |[x] + s| ensures ([x] + s)[i].order <= ([x] + s)[j].order {
      assert ([x] + s)[j] == s[j - 1];
      if i > 0 {
        assert ([x] + s)[i] == s[i - 1];
      } else {
        assert s[j - 1] in s;
      }
    }
  }

  /** The first entry of a sorted list has the least order. */
  lemma SortedHeadLeast(s: seq<SessionExercise>)
    requires SortedByOrder(s)
    ensures s != [] ==> forall y :: y in s ==> s[0].order <= y.order
    ensures s != [] ==> SortedByOrder(s[1..])
  {
    forall y | y in s ensures s[0].order <= y.order {
      var k :| 0 <= k < |s| && s[k] == y;
      assert k == 0 || s[0].order <= s[k].order;
    }
  }

  /** Inserts after every entry with an order not above `x`'s. */
  function InsertByOrder(x: SessionExercise, s: seq<SessionExercise>): (r: seq<SessionExercise>)
    requires SortedByOrder(s)
    ensures forall y :: y in r <==> y == x || y in s
    ensures SortedByOrder(r)
    ensures multiset(r) == multiset(s) + multiset{x}
    decreases |s|
  {
    if s == [] || x.order < s[0].order then
      SortedHeadLeast(s);
      ConsSorted(x, s);
      assert multiset([x] + s) == multiset{x} + multiset(s);
      [x] + s
    else
      SortedHeadLeast(s);
      var rest := InsertByOrder(x, s[1..]);
      assert s == [s[0]] + s[1..];
      assert multiset(s) == multiset{s[0]} + multiset(s[1..]);
      assert forall y :: y in rest ==> s[0].order <= y.order;
      ConsSorted(s[0], rest);
      assert multiset([s[0]] + rest) == multiset{s[0]} + multiset(rest);
      [s[0]] + rest
  }

  /** `.sort((a, b) => a.order - b.order)`: a stable sort by `order`. */
  function SortByOrder(s: seq<SessionExercise>): (r: seq<SessionExercise>)
    ensures SortedByOrder(r)
    ensures forall e :: e in r <==> e in s
    ensures multiset(r) == multiset(s)
  {
    if s == [] then []
    else
      var init := s[..|s| - 1];
      assert s == init + [s[|s| - 1]];
      InsertByOrder(s[|s| - 1], SortByOrder(init))
  }

  /** A list already in order is left as it is. */
  lemma {:induction false} SortSorted(s: seq<SessionExercise>)
    requires SortedByOrder(s)
    ensures SortByOrder(s) == s
  {
    if s != [] {
      var init := s[..|s| - 1];
      SortSorted(init);
      InsertLast(s[|s| - 1], init);
      assert init + [s[|s| - 1]] == s;
    }
  }

  /** Inserting an entry whose order is at least every other's appends it. */
  lemma {:induction false} InsertLast(x: SessionExercise, s: seq<SessionExercise>)
    requires SortedByOrder(s) && forall y :: y in s ==> y.order <= x.order
    ensures InsertByOrder(x, s) == s + [x]
    decreases |s|
  {
    if s != [] {
      var t := s[1..];
      assert s == [s[0]] + t;
      assert s[0] in s;
      InsertSkips(x, s);
      forall y | y in t ensures y.order <= x.order {
        assert y in s;
      }
      InsertLast(x, t);
      assert [s[0]] + (t + [x]) == s + [x];
    }
  }

  /** Inserting an entry whose order is not below the head's keeps the head
      first. */
  lemma InsertSkips(x: SessionExercise, s: seq<SessionExercise>)
    requires SortedByOrder(s) && s != [] && s[0].order <= x.order
    ensures SortedByOrder(s[1..])
    ensures InsertByOrder(x, s) == [s[0]] + InsertByOrder(x, s[1..])
  {
    SortedHeadLeast(s);
  }

  /** The first map entry whose key contains the id or is contained in it. */
  function PartialMatch(id: string): ((string, Exercise)) -> bool {
    (p: (string, Exercise)) => Contains(p.0, id) || Contains(id, p.0)
  }

  /** `map.get(id)`, else the first partial match, else nothing. */
  function Resolve(m: ExerciseMap, id: string): (r: Option<Exercise>)
    ensures HasKey(m, PairKey, id) ==> r == Lookup(m, id)
    ensures !HasKey(m, PairKey, id) && r.Some? ==>
      exists i :: 0 <= i < |m| && m[i].1 == r.value && PartialMatch(id)(m[i]) &&
        forall j :: 0 <= j < i ==> !PartialMatch(id)(m[j])
    ensures r.None? <==> forall i :: 0 <= i < |m| ==> !PartialMatch(id)(m[i])
  {
    match Lookup(m, id)
    case Some(e) =>
      var i := FindIndex(m, PairKey, id).value;
      ContainsSelf(id);
      assert PartialMatch(id)(m[i]);
      Some(e)
    case None =>
      match FirstWhere(m, PartialMatch(id))
      case None => None
      case Some(i) => Some(m[i].1)
  }

  /** An entry that some map key resolves. */
  function Resolves(m: ExerciseMap): SessionExercise -> bool {
    (e: SessionExercise) => Resolve(m, e.exerciseId).Some?
  }

  datatype PrintItem = PrintItem(entry: SessionExercise, exercise: Exercise)

  function Entries(items: seq<PrintItem>): (r: seq<SessionExercise>)
    ensures |r| == |items| && forall k :: 0 <= k < |items| ==> r[k] == items[k].entry
  {
    seq(|items|, k requires 0 <= k < |items| => items[k].entry)
  }

  /** Every item carries its entry's resolution. */
  predicate AllResolved(m: ExerciseMap, items: seq<PrintItem>) {
    forall k :: 0 <= k < |items| ==> Resolve(m, items[k].entry.exerciseId) == Some(items[k].exercise)
  }

  lemma AllResolvedConcat(m: ExerciseMap, a: seq<PrintItem>, b: seq<PrintItem>)
    requires AllResolved(m, a) && AllResolved(m, b)
    ensures AllResolved(m, a + b)
  {
    forall k | 0 <= k < |a + b|
      ensures Resolve(m, (a + b)[k].entry.exerciseId) == Some((a + b)[k].exercise)
    {
      if k >= |a| {
        assert (a + b)[k] == b[k - |a|];
      }
    }
  }

  /** Resolves each entry and drops those that resolve to nothing. */
  function ResolveAll(s: seq<SessionExercise>, m: ExerciseMap): (r: seq<PrintItem>)
    ensures Entries(r) == Filter(s, Resolves(m))
    ensures AllResolved(m, r)
    decreases |s|, 1
  {
    if s == [] then []
    else
      ResolveStepEntries(s, m);
      AllResolvedConcat(m, ResolveOne(s[0], m), ResolveAll(s[1..], m));
      ResolveOne(s[0], m) + ResolveAll(s[1..], m)
  }

  /** One entry with its exercise, or nothing when it does not resolve. */
  function ResolveOne(e: SessionExercise, m: ExerciseMap): (r: seq<PrintItem>)
    ensures Entries(r) == if Resolves(m)(e) then [e] else []
    ensures AllResolved(m, r)
  {
    match Resolve(m, e.exerciseId)
    case None => []
    case Some(x) => [PrintItem(e, x)]
  }

  /** Helper for `ResolveAll`: the entries kept after one more step. */
  lemma ResolveStepEntries(s: seq<SessionExercise>, m: ExerciseMap)
    requires s != []
    ensures Entries(ResolveOne(s[0], m) + ResolveAll(s[1..], m)) == Filter(s, Resolves(m))
    decreases |s|, 0
  {
    var keep := Resolves(m);
    EntriesConcat(ResolveOne(s[0], m), ResolveAll(s[1..], m));
    assert Filter(s, keep) == (if keep(s[0]) then [s[0]] else []) + Filter(s[1..], keep);
  }

  lemma EntriesConcat(a: seq<PrintItem>, b: seq<PrintItem>)
    ensures Entries(a + b) == Entries(a) + Entries(b)
  {
    assert |Entries(a + b)| == |Entries(a) + Entries(b)|;
    forall k | 0 <= k < |a + b| ensures Entries(a + b)[k] == (Entries(a) + Entries(b))[k] {
      if k >= |a| {
        assert (a + b)[k] == b[k - |a|];
      }
    }
  }

  /** Keeping a subset of a sorted list keeps it sorted. */
  lemma {:induction false} FilterKeepsOrder(s: seq<SessionExercise>, keep: SessionExercise -> bool)
    requires SortedByOrder(s)
    ensures SortedByOrder(Filter(s, keep))
    decreases |s|
  {
    if s != [] {
      assert SortedByOrder(s[1..]);
      FilterKeepsOrder(s[1..], keep);
      assert forall y :: y in s[1..] ==> s[0].order <= y.order;
    }
  }

  /** The printed list: ordered by `order`, at most as long as the workout's
      list, every item carries an entry of the workout resolved to its
      exercise, and nothing is dropped when every entry resolves. */
  function PrintedItems(w: Workout, m: ExerciseMap): (r: seq<PrintItem>)
    ensures Entries(r) == Filter(SortByOrder(w.exercises), Resolves(m))
    ensures SortedByOrder(Entries(r))
    ensures |r| <= |w.exercises|
    ensures forall k :: 0 <= k < |r| ==> r[k].entry in w.exercises
    ensures AllResolved(m, r)
    ensures (forall e :: e in w.exercises ==> Resolve(m, e.exerciseId).Some?) ==> |r| == |w.exercises|
  {
    var sorted := SortByOrder(w.exercises);
    var r := ResolveAll(sorted, m);
    FilterKeepsOrder(sorted, Resolves(m));
    SortedLength(w.exercises);
    ItemsFromList(r, sorted, m);
    AllResolve(sorted, m);
    r
  }

  lemma SortedLength(s: seq<SessionExercise>)
    ensures |SortByOrder(s)| == |s|
  {
    var r := SortByOrder(s);
    assert |r| == |multiset(r)|;
  }

  lemma ItemsFromList(r: seq<PrintItem>, s: seq<SessionExercise>, m: ExerciseMap)
    requires Entries(r) == Filter(s, Resolves(m))
    ensures forall k :: 0 <= k < |r| ==> r[k].entry in s
  {
    forall k | 0 <= k < |r| ensures r[k].entry in s {
      assert Entries(r)[k] == r[k].entry;
      assert r[k].entry in Filter(s, Resolves(m));
    }
  }

  lemma AllResolve(s: seq<SessionExercise>, m: ExerciseMap)
    ensures (forall e :: e in s ==> Resolve(m, e.exerciseId).Some?) ==> Filter(s, Resolves(m)) == s
  {
    if forall e :: e in s ==> Resolve(m, e.exerciseId).Some? {
      FilterAll(s, Resolves(m));
    }
  }

  /** The page loop: slices of two, the last possibly of one. */
  function Pages<T(!new)>(s: seq<T>): (r: seq<seq<T>>)
    ensures |r| == (|s| + 1) / 2
    ensures forall p :: p in r ==> 1 <= |p| <= 2
    ensures forall k :: 0 <= k < |r| - 1 ==> |r[k]| == 2
    ensures Flatten(r) == s
    decreases |s|
  {
    if s == [] then []
    else
      var n := if |s| < 2 then |s| else 2;
      var r := [s[..n]] + Pages(s[n..]);
      assert r[1..] == Pages(s[n..]);
      assert s == s[..n] + s[n..];
      r
  }

  /** The sheet: the printed list in pages of two, whatever the configured
      number per page. */
  function PrintPages(w: Workout, m: ExerciseMap): (pages: seq<seq<PrintItem>>)
    ensures Flatten(pages) == PrintedItems(w, m)
    ensures |pages| == (|PrintedItems(w, m)| + 1) / 2
    ensures forall p :: p in pages ==> 1 <= |p| <= 2
    ensures forall k :: 0 <= k < |pages| - 1 ==> |pages[k]| == 2
  {
    Pages(PrintedItems(w, m))
  }

  // ---------------------------------------------------------------------------
  // The sessions' entries
  // ---------------------------------------------------------------------------

  /** As written, the sheet lists the workout's top-level `exercises`, a field
      the `Workout` type does not declare and no writer fills: the workout the
      dialog creates keeps its entry in its session and gets no page. */
  lemma DialogWorkoutPrintsNothing(workouts: seq<Workout>, form: WorkoutSelectorModal.Form,
                                   exerciseId: string, ids: WorkoutSelectorModal.NewIds, m: ExerciseMap)
    requires form.showNewWorkout && form.newWorkoutName != ""
    ensures var r := WorkoutSelectorModal.HandleAdd(workouts, form, exerciseId, ids);
      r.Saved? && WorkoutSelectorModal.EntryCount(r.workout.sessions) == 1 && PrintPages(r.workout, m) == []
  {
    var r := WorkoutSelectorModal.HandleAdd(workouts, form, exerciseId, ids);
    WorkoutSelectorModal.NewWorkoutHoldsExercise(workouts, form, exerciseId, ids);
    assert r.workout.sessions == [r.workout.sessions[0]];
    assert WorkoutSelectorModal.EntryCount(r.workout.sessions) ==
      WorkoutSelectorModal.EntryCount([]) + |r.workout.sessions[0].exercises|;
    assert |PrintedItems(r.workout, m)| <= |r.workout.exercises| == 0;
  }

  /** Each session's entries ordered by `order`, session after session. */
  function SessionsInOrder(ss: seq<Session>): (r: seq<SessionExercise>)
    ensures |r| == WorkoutSelectorModal.EntryCount(ss)
    ensures forall e :: e in r <==> exists i :: 0 <= i < |ss| && e in ss[i].exercises
    decreases |ss|
  {
    if ss == [] then []
    else
      var init := ss[..|ss| - 1];
      var last := ss[|ss| - 1];
      var r := SessionsInOrder(init) + SortByOrder(last.exercises);
      SortedLength(last.exercises);
      forall e ensures e in r <==> exists i :: 0 <= i < |ss| && e in ss[i].exercises {
        if exists i :: 0 <= i < |ss| && e in ss[i].exercises {
          var i :| 0 <= i < |ss| && e in ss[i].exercises;
          if i < |ss| - 1 {
            assert init[i] == ss[i];
          }
        }
        if e in SessionsInOrder(init) {
          var i :| 0 <= i < |init| && e in init[i].exercises;
          assert ss[i] == init[i];
        }
      }
      r
  }

  /** The sheet as evidently intended: the sessions' entries, each session
      ordered by `order`, resolved, with the unresolved dropped. */
  function SessionPrintedItems(w: Workout, m: ExerciseMap): (r: seq<PrintItem>)
    ensures Entries(r) == Filter(SessionsInOrder(w.sessions), Resolves(m))
    ensures AllResolved(m, r)
    ensures forall k :: 0 <= k < |r| ==>
      exists i :: 0 <= i < |w.sessions| && r[k].entry in w.sessions[i].exercises
    ensures |r| <= WorkoutSelectorModal.EntryCount(w.sessions)
    ensures (forall e :: e in SessionsInOrder(w.sessions) ==> Resolve(m, e.exerciseId).Some?) ==>
      |r| == WorkoutSelectorModal.EntryCount(w.sessions)
  {
    var all := SessionsInOrder(w.sessions);
    var r := ResolveAll(all, m);
    ItemsFromList(r, all, m);
    AllResolve(all, m);
    r
  }

  /** The corrected sheet: the sessions' printed list in pages of two. */
  function SessionPrintPages(w: Workout, m: ExerciseMap): (pages: seq<seq<PrintItem>>)
    ensures Flatten(pages) == SessionPrintedItems(w, m)
    ensures |pages| == (|SessionPrintedItems(w, m)| + 1) / 2
    ensures forall p :: p in pages ==> 1 <= |p| <= 2
    ensures forall k :: 0 <= k < |pages| - 1 ==> |pages[k]| == 2
  {
    Pages(SessionPrintedItems(w, m))
  }

  /** Corrected: the workout the dialog creates prints its one exercise when
      the map resolves its id. */
  lemma DialogWorkoutPrintsItsExercise(workouts: seq<Workout>, form: WorkoutSelectorModal.Form,
                                       exerciseId: string, ids: WorkoutSelectorModal.NewIds, m: ExerciseMap)
    requires form.showNewWorkout && form.newWorkoutName != ""
    requires Resolve(m, exerciseId).Some?
    ensures var r := WorkoutSelectorModal.HandleAdd(workouts, form, exerciseId, ids);
      r.Saved? &&
      SessionPrintPages(r.workout, m) == [[PrintItem(BlankEntry(ids.entryId, exerciseId, 0), Resolve(m, exerciseId).value)]]
  {
    var r := WorkoutSelectorModal.HandleAdd(workouts, form, exerciseId, ids);
    WorkoutSelectorModal.NewWorkoutHoldsExercise(workouts, form, exerciseId, ids);
    var entry := BlankEntry(ids.entryId, exerciseId, 0);
    assert r.workout.sessions[..0] == [];
    SortSorted([entry]);
    assert SessionsInOrder(r.workout.sessions) == [entry];
    OneEntryOnePage(r.workout, m, entry);
  }

  /** A workout whose sessions hold one resolving entry prints it alone on
      one page. */
  lemma OneEntryOnePage(w: Workout, m: ExerciseMap, entry: SessionExercise)
    requires SessionsInOrder(w.sessions) == [entry]
    requires Resolve(m, entry.exerciseId).Some?
    ensures SessionPrintPages(w, m) == [[PrintItem(entry, Resolve(m, entry.exerciseId).value)]]
  {
    var items := SessionPrintedItems(w, m);
    assert Filter([entry], Resolves(m)) == [entry];
    assert Entries(items) == [entry];
    assert items == [PrintItem(entry, Resolve(m, entry.exerciseId).value)];
    assert items[..1] == items && items[1..] == [];
  }

  /** The two readings agree on a one-session workout whose legacy list is
      that session's entries. */
  lemma LegacyListAgrees(w: Workout, m: ExerciseMap)
    requires |w.sessions| == 1 && w.exercises == w.sessions[0].exercises
    ensures PrintedItems(w, m) == SessionPrintedItems(w, m)
  {
    assert w.sessions[..0] == [];
    assert SessionsInOrder(w.sessions) == SortByOrder(w.exercises);
  }

  /** The configured page size does not change the pages. */
  lemma PagesIgnoreConfig(w: Workout, m: ExerciseMap, config: PrintConfig)
    ensures PrintPages(w.(printConfig := Some(config)), m) == PrintPages(w, m)
    ensures SessionPrintPages(w.(printConfig := Some(config)), m) == SessionPrintPages(w, m)
  {
  }
}

=== FILE: records.dfy ===
/** The keyed-list operations every `localStorage` store of the client repeats:
    find the first record with an id, replace-or-append, and remove by id.
    `key` picks the record's id. */
module Records {
  import opened Wrappers
  import opened Seqs

  predicate HasKey<T>(s: seq<T>, key: T -> string, id: string) {
    exists j :: 0 <= j < |s| && key(s[j]) == id
  }

  /** No two records share an id. */
  predicate DistinctKeys<T>(s: seq<T>, key: T -> string) {
    forall i, j :: 0 <= i < j < |s| ==> key(s[i]) != key(s[j])
  }

  /** `findIndex(r => key(r) === id)`, with `None` for `-1`. */
  function FindIndex<T>(s: seq<T>, key: T -> string, id: string): (r: Option<nat>)
    ensures r.Some? ==> r.value < |s| && key(s[r.value]) == id
    ensures r.Some? ==> forall j :: 0 <= j < r.value ==> key(s[j]) != id
    ensures r.None? <==> !HasKey(s, key, id)
    decreases |s|
  {
    if |s| == 0 then None
    else if key(s[0]) == id then Some(0)
    else
      match FindIndex(s[1..], key, id)
      case None =>
        assert forall j :: 1 <= j < |s| ==> key(s[j]) == key(s[1..][j - 1]);
        None
      case Some(i) => Some(i + 1)
  }

  /** The first position holding the id is what `FindIndex` reports. */
  lemma FindIndexAt<T>(s: seq<T>, key: T -> string, id: string, i: nat)
    requires i < |s| && key(s[i]) == id
    requires forall j :: 0 <= j < i ==> key(s[j]) != id
    ensures FindIndex(s, key, id) == Some(i)
  {
  }

  /** `find(r => key(r) === id) || null`: the first record with that id. */
  function Find<T>(s: seq<T>, key: T -> string, id: string): (r: Option<T>)
    ensures r.None? <==> !HasKey(s, key, id)
    ensures r.Some? ==> r.value in s && key(r.value) == id
    ensures r.Some? ==> exists i :: 0 <= i < |s| && s[i] == r.value &&
                          forall j :: 0 <= j < i ==> key(s[j]) != id
  {
    match FindIndex(s, key, id)
    case None => None
    case Some(i) => Some(s[i])
  }

  /** The first record with a given id is the only one when ids are distinct. */
  lemma FindDistinct<T>(s: seq<T>, key: T -> string, i: nat)
    requires DistinctKeys(s, key) && i < |s|
    ensures Find(s, key, key(s[i])) == Some(s[i])
  {
  }

  /** Replace the first record with `x`'s id by `x`, or append `x` when there
      is none (the `findIndex` / assign / `push` pattern). */
  function Upsert<T>(s: seq<T>, key: T -> string, x: T): (r: seq<T>)
    ensures HasKey(s, key, key(x)) ==> |r| == |s|
    ensures !HasKey(s, key, key(x)) ==> r == s + [x]
    ensures HasKey(s, key, key(x)) ==>
      exists i :: 0 <= i < |s| && key(s[i]) == key(x) && r == s[i := x] &&
                  forall j :: 0 <= j < i ==> key(s[j]) != key(x)
    ensures Find(r, key, key(x)) == Some(x)
    ensures DistinctKeys(s, key) ==> DistinctKeys(r, key)
  {
    match FindIndex(s, key, key(x))
    case None => 
      var r := s + [x];
      assert r[|s|] == x;
      assert FindIndex(r, key, key(x)) == Some(|s|) by {
        assert key(r[|s|]) == key(x);
        assert forall k :: 0 <= k < |s| ==> r[k] == s[k];
      }
      r
    case Some(i) =>
      var r := s[i := x];
      assert FindIndex(r, key, key(x)) == Some(i) by {
        assert key(r[i]) == key(x);
        assert forall k :: 0 <= k < i ==> r[k] == s[k];
      }
      assert DistinctKeys(s, key) ==> DistinctKeys(r, key) by {
        if DistinctKeys(s, key) {
          forall a, b | 0 <= a < b < |r|
            ensures key(r[a]) != key(r[b])
          {
            if a != i && b != i {
              assert r[a] == s[a] && r[b] == s[b];
            } else if a == i {
              assert key(r[a]) == key(s[i]) && r[b] == s[b];
            } else {
              assert key(r[b]) == key(s[i]) && r[a] == s[a];
            }
          }
        }
      }
      r
  }

  /** Upserting one record leaves what `Find` reports for every other id. */
  lemma UpsertFindOther<T>(s: seq<T>, key: T -> string, x: T, id: string)
    requires key(x) != id
    ensures Find(Upsert(s, key, x), key, id) == Find(s, key, id)
  {
    var r := Upsert(s, key, x);
    if HasKey(s, key, key(x)) {
      var i :| 0 <= i < |s| && key(s[i]) == key(x) && r == s[i := x];
      match FindIndex(s, key, id)
      case None =>
        assert !HasKey(r, key, id) by {
          forall j | 0 <= j < |r| ensures key(r[j]) != id {
            if j != i { assert r[j] == s[j]; }
          }
        }
      case Some(k) =>
        assert k != i && r[k] == s[k];
        FindIndexAt(r, key, id, k);
    } else {
      assert r == s + [x];
      match FindIndex(s, key, id)
      case None =>
        assert !HasKey(r, key, id) by {
          forall j | 0 <= j < |r| ensures key(r[j]) != id {
            if j < |s| { assert r[j] == s[j]; }
          }
        }
      case Some(k) =>
        assert r[k] == s[k];
        FindIndexAt(r, key, id, k);
    }
  }

  /** Saving the same record twice is saving it once. */
  lemma UpsertIdempotent<T>(s: seq<T>, key: T -> string, x: T)
    ensures Upsert(Upsert(s, key, x), key, x) == Upsert(s, key, x)
  {
    var r := Upsert(s, key, x);
    var k := FindIndex(r, key, key(x)).value;
    assert r[k] == x;
    assert r[k := x] == r;
  }

  /** The test `r => key(r) !== id`. */
  function KeyIsNot<T>(key: T -> string, id: string): T -> bool {
    y => key(y) != id
  }

  /** Removing the id of a record that was just appended to a list without
      that id gives the list back. */
  lemma RemoveKeyOfAppended<T(!new)>(s: seq<T>, key: T -> string, x: T)
    requires !HasKey(s, key, key(x))
    ensures RemoveKey(s + [x], key, key(x)) == s
  {
    FilterAppend(s, x, KeyIsNot(key, key(x)));
    FilterAll(s, KeyIsNot(key, key(x)));
  }

  /** `filter(r => key(r) !== id)`: every record with that id goes, the others
      stay in their order. */
  function RemoveKey<T(!new)>(s: seq<T>, key: T -> string, id: string): (r: seq<T>)
    ensures forall y :: y in r <==> y in s && key(y) != id
    ensures IsSubseq(r, s)
    ensures !HasKey(r, key, id)
    ensures !HasKey(s, key, id) ==> r == s
  {
    var r := Filter(s, KeyIsNot(key, id));
    assert !HasKey(r, key, id) by {
      forall j | 0 <= j < |r| ensures key(r[j]) != id {
        assert r[j] in r;
      }
    }
    assert !HasKey(s, key, id) ==> r == s by {
      if !HasKey(s, key, id) {
        FilterAll(s, KeyIsNot(key, id));
      }
    }
    r
  }
}

=== FILE: routes.dfy ===
/** The request decisions of the exercise API's routes: how query strings
    become service arguments, and when a handler answers 400 or 404, returns
    early, or calls a service. The services themselves enter as parameters or
    as the argument the handler would pass them. */
module Routes {
  import opened Wrappers
  import opened Text
  import opened Js
  import opened Domain
  import ExerciseService
  import SyncService

  // ---------------------------------------------------------------------------
  // GET /exercises
  // ---------------------------------------------------------------------------

  /** A query-string value: one string, or an array when the key repeats. */
  datatype QueryValue = QStr(text: string) | QArr(items: seq<string>)

  predicate QueryTruthy(v: Option<QueryValue>) {
    v.Some? && (v.value.QArr? || v.value.text != "")
  }

  /** The query keys the exercise list handler reads. */
  datatype ExercisesRequest = ExercisesRequest(
    q: Option<string>,
    bodyPart: Option<string>,
    primaryMuscle: Option<string>,
    equipment: Option<string>,
    level: Option<string>,
    category: Option<string>,
    exerciseType: Option<string>,
    limit: Option<string>,
    offset: Option<string>,
    availableEquipment: Option<QueryValue>,
    equipmentFilterMode: Option<string>)

  /** The filter object the handler builds. */
  datatype RouteFilters = RouteFilters(
    q: Option<string>,
    bodyPart: Option<string>,
    primaryMuscle: Option<string>,
    equipment: Option<string>,
    level: Option<string>,
    category: Option<string>,
    exerciseType: Option<string>,
    limit: Option<int>,
    offset: Option<int>,
    availableEquipment: Option<seq<string>>,
    equipmentFilterMode: Option<string>)

  /** `parseInt` with no radix of a query value, with a numeric default for a
      missing key; `None` stands for `NaN`. */
  function ParseWithDefault(v: Option<string>, default: int): (r: Option<int>)
    ensures v.None? ==> r == Some(default)
    ensures v.Some? ==> r == ParseIntAuto(v.value)
  {
    if v.None? then Some(default) else ParseIntAuto(v.value)
  }

  /** The owned-equipment list: an array as given, a string split on commas
      with each part trimmed. */
  function EquipmentList(v: QueryValue): (r: seq<string>)
    ensures v.QArr? ==> r == v.items
    ensures v.QStr? ==> |r| == |Split(v.text, ',')|
    ensures v.QStr? ==>
      forall i :: 0 <= i < |r| ==> r[i] == Trim(Split(v.text, ',')[i]) && IsTrimmed(r[i])
  {
    match v
    case QArr(items) => items
    case QStr(text) => TrimAll(Split(text, ','))
  }

  /** The equipment filter is attached only when both the list and a mode
      other than "off" are present. */
  predicate AttachEquipment(req: ExercisesRequest) {
    QueryTruthy(req.availableEquipment) && Truthy(req.equipmentFilterMode) &&
    req.equipmentFilterMode.value != "off"
  }

  function BuildFilters(req: ExercisesRequest): (f: RouteFilters)
    ensures f.limit == ParseWithDefault(req.limit, 50)
    ensures f.offset == ParseWithDefault(req.offset, 0)
    ensures f.availableEquipment.Some? <==> AttachEquipment(req)
    ensures f.equipmentFilterMode.Some? <==> AttachEquipment(req)
    ensures AttachEquipment(req) ==>
      f.availableEquipment == Some(EquipmentList(req.availableEquipment.value)) &&
      f.equipmentFilterMode == req.equipmentFilterMode
    ensures f.q == req.q && f.bodyPart == req.bodyPart && f.primaryMuscle == req.primaryMuscle
    ensures f.equipment == req.equipment && f.level == req.level && f.category == req.category
    ensures f.exerciseType == req.exerciseType
  {
    var attach := AttachEquipment(req);
    RouteFilters(
      req.q, req.bodyPart, req.primaryMuscle, req.equipment, req.level, req.category,
      req.exerciseType,
      ParseWithDefault(req.limit, 50),
      ParseWithDefault(req.offset, 0),
      if attach then Some(EquipmentList(req.availableEquipment.value)) else None,
      if attach then req.equipmentFilterMode else None)
  }

  /** A limit or offset written in decimal or as `0x` hexadecimal reaches the
      service as that number. */
  lemma PagingReadsBack(req: ExercisesRequest, n: int, m: int)
    requires req.limit == Some(IntToString(n)) || req.limit == Some(IntToHex(n))
    requires req.offset == Some(IntToString(m)) || req.offset == Some(IntToHex(m))
    ensures BuildFilters(req).limit == Some(n)
    ensures BuildFilters(req).offset == Some(m)
  {
    ParseIntAutoOfIntToString(n);
    ParseIntAutoOfIntToHex(n);
    ParseIntAutoOfIntToString(m);
    ParseIntAutoOfIntToHex(m);
  }

  /** A comma-joined list of trimmed, comma-free names arrives as the same
      list. */
  lemma EquipmentListRoundTrip(names: seq<string>)
    requires |names| >= 1
    requires forall i :: 0 <= i < |names| ==> ',' !in names[i] && IsTrimmed(names[i])
    ensures EquipmentList(QStr(Join(names, ","))) == names
  {
    SplitJoin(names, ',');
    assert Split(Join(names, [',']), ',') == names;
    forall i | 0 <= i < |names| ensures Trim(names[i]) == names[i] {
      TrimNoop(names[i]);
    }
  }

  /** Omitted paging keys become the numbers 50 and 0. */
  lemma DefaultPaging(req: ExercisesRequest)
    requires req.limit.None? && req.offset.None?
    ensures BuildFilters(req).limit == Some(50) && BuildFilters(req).offset == Some(0)
  {
  }

  /** The part of the handler's filters that `getExercises` reads. It has no
      body-area key, and the body part, exercise type and owned-equipment
      keys are ignored. */
  function ServiceQuery(f: RouteFilters): (q: ExerciseService.Query)
    ensures q.bodyArea.None?
    ensures q.q == f.q && q.limit == f.limit && q.offset == f.offset
  {
    ExerciseService.Query(f.q, None, f.primaryMuscle, f.equipment, f.level, f.category, f.limit, f.offset)
  }

  // ---------------------------------------------------------------------------
  // GET /exercises/:id
  // ---------------------------------------------------------------------------

  datatype Response<T> = Ok(body: T) | BadRequest(message: string) | NotFound(message: string)

  /** The lookup's answer: 404 exactly when the service finds nothing. */
  function ExerciseByIdResponse(found: Option<Exercise>): (r: Response<Exercise>)
    ensures r.NotFound? <==> found.None?
    ensures found.Some? ==> r == Ok(found.value)
  {
    if found.None? then NotFound("Exercise not found") else Ok(found.value)
  }

  /** Through the service: 404 exactly when no exercise has that id or
      source id. */
  lemma ExerciseByIdNotFound(all: seq<Exercise>, id: string)
    ensures ExerciseByIdResponse(ExerciseService.GetExerciseById(all, id)).NotFound? <==>
      forall i :: 0 <= i < |all| ==> !ExerciseService.HasIdOrSourceId(all[i], id)
  {
  }

  // ---------------------------------------------------------------------------
  // POST /sync and the GitHub webhook
  // ---------------------------------------------------------------------------

  /** `req.query.force === 'true'`. */
  function ForceFlag(force: Option<string>): (r: bool)
    ensures r <==> force == Some("true")
  {
    force == Some("true")
  }

  datatype WebhookReply = NoActionTaken | NoSyncNeeded(reason: string) | SyncRun

  predicate IsMainPush(event: Option<string>, gitRef: Option<string>) {
    event == Some("push") &&
    (gitRef == Some("refs/heads/main") || gitRef == Some("refs/heads/master"))
  }

  /** The webhook acts only on a push to main or master; then the sync check
      decides whether a sync runs. */
  function Webhook(event: Option<string>, gitRef: Option<string>, check: () -> SyncService.SyncCheck)
    : (r: WebhookReply)
    ensures r == NoActionTaken <==> !IsMainPush(event, gitRef)
    ensures IsMainPush(event, gitRef) ==> (r == SyncRun <==> check().needed)
    ensures IsMainPush(event, gitRef) && !check().needed ==> r == NoSyncNeeded(check().reason)
  {
    if !IsMainPush(event, gitRef) then NoActionTaken
    else
      var c := check();
      if c.needed then SyncRun else NoSyncNeeded(c.reason)
  }

  /** A push to any other branch is acknowledged without action, whatever the
      sync check would say. */
  lemma OtherBranchIgnored(gitRef: string, check: () -> SyncService.SyncCheck)
    requires gitRef != "refs/heads/main" && gitRef != "refs/heads/master"
    ensures Webhook(Some("push"), Some(gitRef), check) == NoActionTaken
  {
  }

  // ---------------------------------------------------------------------------
  // ExerciseDB search and add
  // ---------------------------------------------------------------------------

  datatype SearchDecision = EmptyResult | CallSearch(query: string)

  /** A missing or blank query answers `[]` without calling the search; any
      other query is passed on untrimmed. */
  function Search(q: Option<string>): (r: SearchDecision)
    ensures r == EmptyResult <==> q.None? || Trim(q.value) == ""
    ensures r.CallSearch? ==> r.query == q.value
  {
    if !Truthy(q) || Trim(q.value) == "" then EmptyResult else CallSearch(q.value)
  }

  /** A no-break space or an ideographic space is blank to the search. */
  lemma UnicodeBlankSearchIsEmpty()
    ensures Search(Some("\U{A0}")) == EmptyResult
    ensures Search(Some("\U{3000}\U{A0}")) == EmptyResult
  {
    BlankSearchIsEmpty("\U{A0}");
    BlankSearchIsEmpty("\U{3000}\U{A0}");
  }

  /** White space alone never reaches the search. */
  lemma BlankSearchIsEmpty(q: string)
    requires forall i :: 0 <= i < |q| ==> IsSpace(q[i])
    ensures Search(Some(q)) == EmptyResult
  {
  }

  datatype AddDecision = MissingId | CallAdd(exerciseId: string)

  /** A missing or empty `exerciseId` answers 400. */
  function Add(exerciseId: Option<string>): (r: AddDecision)
    ensures r == MissingId <==> !Truthy(exerciseId)
    ensures r.CallAdd? ==> r.exerciseId == exerciseId.value
  {
    if !Truthy(exerciseId) then MissingId else CallAdd(exerciseId.value)
  }

  // ---------------------------------------------------------------------------
  // GET /gif/frame
  // ---------------------------------------------------------------------------

  /** The frame query: "1" and "-1" mean the end position (-1); a missing key
      means "0"; anything else is parsed, with `NaN` (and 0) giving 0. */
  function FrameIndex(frame: Option<string>): (r: int)
    ensures frame == Some("1") || frame == Some("-1") ==> r == -1
    ensures frame.None? ==> r == 0
    ensures frame.Some? && frame.value != "1" && frame.value != "-1" ==>
      r == ParseInt(frame.value).GetOr(0)
  {
    var f := if frame.None? then "0" else frame.value;
    ParseIntZero();
    if f == "1" || f == "-1" then -1 else NumberOr(ParseInt(f), 0)
  }

  /** Only 1 is written "1" and only -1 is written "-1". */
  lemma DecimalOfOne(k: int)
    ensures IntToString(k) == "1" ==> k == 1
    ensures IntToString(k) == "-1" ==> k == -1
  {
    ParseIntOfIntToString(k);
    if IntToString(k) == "1" {
      ParseIntOfIntToString(1);
      assert NatToString(1) == "1";
    } else if IntToString(k) == "-1" {
      ParseIntOfIntToString(-1);
      assert IntToString(-1) == "-1";
    }
  }

  /** A frame number written in decimal comes back as itself, except 1, which
      means the end position. */
  lemma FrameIndexOfNumber(k: int)
    requires k != 1
    ensures FrameIndex(Some(IntToString(k))) == k
  {
    DecimalOfOne(k);
    ParseIntOfIntToString(k);
  }

  datatype FrameDecision = MissingUrl | Extract(url: string, frameIndex: int)

  /** A missing or empty `url` answers 400 and nothing is extracted. */
  function GifFrame(url: Option<string>, frame: Option<string>): (r: FrameDecision)
    ensures r == MissingUrl <==> !Truthy(url)
    ensures r.Extract? ==> r.url == url.value && r.frameIndex == FrameIndex(frame)
  {
    if !Truthy(url) then MissingUrl else Extract(url.value, FrameIndex(frame))
  }
}

=== FILE: seqs.dfy ===
/** Sequence operations the source takes from `Array.prototype` and `Set`:
    `filter`, de-duplication through a `Set` (which keeps first-insertion
    order), `flatMap`, and the default string `sort`. */
module Seqs {
  import opened Wrappers

  /** `a` is `b` with some elements left out and the rest in the same order. */
  predicate IsSubseq<T(==)>(a: seq<T>, b: seq<T>)
    decreases |b|
  {
    if |a| == 0 then true
    else if |b| == 0 then false
    else if a[0] == b[0] then IsSubseq(a[1..], b[1..])
    else IsSubseq(a, b[1..])
  }

  lemma {:induction false} IsSubseqRefl<T>(s: seq<T>)
    ensures IsSubseq(s, s)
    decreases |s|
  {
    if |s| > 0 {
      IsSubseqRefl(s[1..]);
    }
  }

  /** `s.filter(keep)`: exactly the elements that pass, in their order. */
  function Filter<T(!new)>(s: seq<T>, keep: T -> bool): (r: seq<T>)
    ensures |r| <= |s|
    ensures forall x :: x in r <==> x in s && keep(x)
    ensures IsSubseq(r, s)
    decreases |s|
  {
    if |s| == 0 then []
    else if keep(s[0]) then [s[0]] + Filter(s[1..], keep)
    else Filter(s[1..], keep)
  }

  /** `findIndex(p)`: the position of the first element that passes, with
      `None` for `-1`. */
  function FirstWhere<T>(s: seq<T>, p: T -> bool): (r: Option<nat>)
    ensures r.Some? ==> r.value < |s| && p(s[r.value])
    ensures r.Some? ==> forall j :: 0 <= j < r.value ==> !p(s[j])
    ensures r.None? <==> forall j :: 0 <= j < |s| ==> !p(s[j])
    decreases |s|
  {
    if |s| == 0 then None
    else if p(s[0]) then Some(0)
    else
      match FirstWhere(s[1..], p)
      case None =>
        assert forall j :: 1 <= j < |s| ==> s[j] == s[1..][j - 1];
        None
      case Some(i) => Some(i + 1)
  }

  /** Filtering keeps everything when every element passes. */
  lemma {:induction false} FilterAll<T(!new)>(s: seq<T>, keep: T -> bool)
    requires forall x :: x in s ==> keep(x)
    ensures Filter(s, keep) == s
    decreases |s|
  {
    if |s| > 0 {
      FilterAll(s[1..], keep);
    }
  }

  /** Filtering a concatenation filters each part. */
  lemma {:induction false} FilterConcat<T(!new)>(a: seq<T>, b: seq<T>, keep: T -> bool)
    ensures Filter(a + b, keep) == Filter(a, keep) + Filter(b, keep)
    decreases |a|
  {
    if |a| == 0 {
      assert a + b == b;
    } else {
      assert (a + b)[0] == a[0] && (a + b)[1..] == a[1..] + b;
      FilterConcat(a[1..], b, keep);
    }
  }

  /** Filtering a list with one more element at the end. */
  lemma {:induction false} FilterAppend<T(!new)>(s: seq<T>, x: T, keep: T -> bool)
    ensures Filter(s + [x], keep) == Filter(s, keep) + (if keep(x) then [x] else [])
    decreases |s|
  {
    if |s| == 0 {
      assert s + [x] == [x];
      assert [x][1..] == [];
    } else {
      assert (s + [x])[1..] == s[1..] + [x];
      FilterAppend(s[1..], x, keep);
    }
  }

  /** Filtering depends only on what the predicate says about each element. */
  lemma {:induction false} FilterExt<T(!new)>(s: seq<T>, p: T -> bool, q: T -> bool)
    requires forall x :: p(x) == q(x)
    ensures Filter(s, p) == Filter(s, q)
    decreases |s|
  {
    if |s| > 0 {
      FilterExt(s[1..], p, q);
    }
  }

  /** Two filters in a row are one filter by the conjunction. */
  lemma {:induction false} FilterTwice<T(!new)>(s: seq<T>, p: T -> bool, q: T -> bool, both: T -> bool)
    requires forall x :: both(x) == (p(x) && q(x))
    ensures Filter(Filter(s, p), q) == Filter(s, both)
    decreases |s|
  {
    if |s| > 0 {
      FilterTwice(s[1..], p, q, both);
      if p(s[0]) {
        assert Filter(s, p) == [s[0]] + Filter(s[1..], p);
        assert Filter(s, p)[1..] == Filter(s[1..], p);
      }
    }
  }

  /** `s.map(f)`: one result per element, in order. */
  function MapSeq<A, B>(s: seq<A>, f: A -> B): (r: seq<B>)
    ensures |r| == |s| && forall i :: 0 <= i < |s| ==> r[i] == f(s[i])
  {
    seq(|s|, i requires 0 <= i < |s| => f(s[i]))
  }

  /** The present values of a list of optional results, in order
      (`results.filter(r => r !== null)`). */
  function Present<T(!new)>(s: seq<Option<T>>): (r: seq<T>)
    ensures |r| <= |s|
    ensures forall x :: x in r <==> Some(x) in s
    decreases |s|
  {
    if |s| == 0 then []
    else if s[0].Some? then [s[0].value] + Present(s[1..])
    else Present(s[1..])
  }

  /** All elements of all lists, in order (`flatMap`). */
  function Flatten<T(!new)>(ss: seq<seq<T>>): (r: seq<T>)
    ensures forall x :: x in r <==> exists i :: 0 <= i < |ss| && x in ss[i]
    decreases |ss|
  {
    if |ss| == 0 then []
    else
      var r := ss[0] + Flatten(ss[1..]);
      assert forall i :: 1 <= i < |ss| ==> ss[i] == ss[1..][i - 1];
      r
  }

  predicate NoDups<T(==)>(s: seq<T>) {
    forall i, j :: 0 <= i < j < |s| ==> s[i] != s[j]
  }

  /** Filtering a duplicate-free list keeps it duplicate-free. */
  lemma {:induction false} FilterNoDups<T(!new)>(s: seq<T>, keep: T -> bool)
    ensures NoDups(s) ==> NoDups(Filter(s, keep))
    decreases |s|
  {
    if |s| > 0 && NoDups(s) {
      assert NoDups(s[1..]);
      FilterNoDups(s[1..], keep);
      assert s[0] !in s[1..];
    }
  }

  /** Position of the first occurrence of `x` (`indexOf`). */
  function FirstIndex<T(==)>(s: seq<T>, x: T): (i: nat)
    requires x in s
    ensures i < |s| && s[i] == x && x !in s[..i]
    decreases |s|
  {
    if s[0] == x then 0
    else
      var i := 1 + FirstIndex(s[1..], x);
      assert s[..i] == [s[0]] + s[1..][..i - 1];
      i
  }

  /** Dropping the last element does not move any first occurrence before it. */
  lemma FirstIndexOfInit<T>(s: seq<T>)
    requires |s| > 0
    ensures forall x :: x in s[..|s| - 1] ==> FirstIndex(s, x) == FirstIndex(s[..|s| - 1], x)
  {
    forall x | x in s[..|s| - 1]
      ensures FirstIndex(s, x) == FirstIndex(s[..|s| - 1], x)
    {
      var init := s[..|s| - 1];
      var k := FirstIndex(init, x);
      assert s[..k] == init[..k];
    }
  }

  /** `Array.from(new Set(s))`: every element once, at the place of its first
      occurrence. */
  function Dedup<T(==, !new)>(s: seq<T>): (r: seq<T>)
    ensures NoDups(r)
    ensures forall x :: x in r <==> x in s
    ensures forall i, j :: 0 <= i < j < |r| ==> FirstIndex(s, r[i]) < FirstIndex(s, r[j])
    decreases |s|
  {
    if |s| == 0 then []
    else
      var init := s[..|s| - 1];
      var last := s[|s| - 1];
      var r := Dedup(init);
      FirstIndexOfInit(s);
      if last in r then r
      else
        assert last !in init;
        assert FirstIndex(s, last) == |s| - 1 by {
          assert s[..|s| - 1] == init;
        }
        r + [last]
  }

  /** The default `sort` order on strings: lexicographic by character code. */
  predicate StrLess(a: string, b: string)
    decreases |a|
  {
    if |a| == 0 then |b| > 0
    else if |b| == 0 then false
    else if a[0] == b[0] then StrLess(a[1..], b[1..])
    else a[0] < b[0]
  }

  lemma {:induction false} StrLessIrreflexive(a: string)
    ensures !StrLess(a, a)
    decreases |a|
  {
    if |a| > 0 {
      StrLessIrreflexive(a[1..]);
    }
  }

  lemma {:induction false} StrLessTransitive(a: string, b: string, c: string)
    requires StrLess(a, b) && StrLess(b, c)
    ensures StrLess(a, c)
    decreases |a|
  {
    if |a| > 0 && |b| > 0 && |c| > 0 && a[0] == b[0] && b[0] == c[0] {
      StrLessTransitive(a[1..], b[1..], c[1..]);
    }
  }

  lemma {:induction false} StrLessTotal(a: string, b: string)
    requires a != b
    ensures StrLess(a, b) || StrLess(b, a)
    decreases |a|
  {
    if |a| > 0 && |b| > 0 && a[0] == b[0] {
      assert a == [a[0]] + a[1..] && b == [b[0]] + b[1..];
      StrLessTotal(a[1..], b[1..]);
    }
  }

  lemma StrLessAsymmetric(a: string, b: string)
    requires StrLess(a, b)
    ensures !StrLess(b, a)
  {
    if StrLess(b, a) {
      StrLessTransitive(a, b, a);
      StrLessIrreflexive(a);
    }
  }

  predicate StrictlySorted(s: seq<string>) {
    forall i, j :: 0 <= i < j < |s| ==> StrLess(s[i], s[j])
  }

  /** Inserts `x` into a strictly sorted list unless it is already there. */
  function InsertSorted(x: string, s: seq<string>): (r: seq<string>)
    requires StrictlySorted(s)
    ensures StrictlySorted(r)
    ensures forall y :: y in r <==> y == x || y in s
    decreases |s|
  {
    if |s| == 0 then [x]
    else if x == s[0] then s
    else if StrLess(x, s[0]) then
      assert forall j :: 0 < j < |s| ==> StrLess(x, s[j]) by {
        forall j | 0 < j < |s| ensures StrLess(x, s[j]) {
          StrLessTransitive(x, s[0], s[j]);
        }
      }
      [x] + s
    else
      StrLessTotal(x, s[0]);
      var rest := InsertSorted(x, s[1..]);
      assert forall y :: y in rest ==> StrLess(s[0], y);
      [s[0]] + rest
  }

  /** `Array.from(set).sort()`: the distinct elements in ascending order. */
  function SortDistinct(s: seq<string>): (r: seq<string>)
    ensures StrictlySorted(r)
    ensures forall y :: y in r <==> y in s
    decreases |s|
  {
    if |s| == 0 then []
    else InsertSorted(s[|s| - 1], SortDistinct(s[..|s| - 1]))
  }

  /** A strictly sorted list has no duplicates. */
  lemma SortedNoDups(s: seq<string>)
    requires StrictlySorted(s)
    ensures NoDups(s)
  {
    forall i, j | 0 <= i < j < |s|
      ensures s[i] != s[j]
    {
      StrLessIrreflexive(s[i]);
    }
  }

  /** There is only one strictly sorted list with a given set of elements, so
      the order in which a `Set` was filled cannot change what `sort` gives. */
  lemma {:induction false} SortedUnique(a: seq<string>, b: seq<string>)
    requires StrictlySorted(a) && StrictlySorted(b)
    requires forall y :: y in a <==> y in b
    ensures a == b
    decreases |a|
  {
    if |b| > 0 {
      assert b[0] in a;
    }
    if |a| > 0 {
      assert a[0] in b;
      assert b[0] in a;
      if a[0] != b[0] {
        var k :| 0 <= k < |b| && b[k] == a[0];
        var m :| 0 <= m < |a| && a[m] == b[0];
        assert StrLess(b[0], a[0]);
        assert StrLess(a[0], b[0]);
        StrLessAsymmetric(a[0], b[0]);
      }
      SortedNoDups(a);
      SortedNoDups(b);
      forall y
        ensures y in a[1..] <==> y in b[1..]
      {
        if y in a[1..] {
          var j :| 0 <= j < |a[1..]| && a[1..][j] == y;
          assert a[j + 1] != a[0];
          assert y in a && y in b;
          var k :| 0 <= k < |b| && b[k] == y;
          assert k != 0;
          assert b[1..][k - 1] == y;
        }
        if y in b[1..] {
          var j :| 0 <= j < |b[1..]| && b[1..][j] == y;
          assert b[j + 1] != b[0];
          assert y in b && y in a;
          var k :| 0 <= k < |a| && a[k] == y;
          assert k != 0;
          assert a[1..][k - 1] == y;
        }
      }
      SortedUnique(a[1..], b[1..]);
      assert a == [a[0]] + a[1..];
      assert b == [b[0]] + b[1..];
    }
  }
}

=== FILE: storage.dfy ===
/** One `localStorage` key holding a JSON value, as every store of the app
    keeps its data: `None` when the key was never written or was removed.
    Reading parses the saved text and falls back to the store's default when
    the key is missing; writing serialises the whole value under the key. */
module Storage {
  import opened Wrappers

  /** `getItem` then `JSON.parse`, or `fallback` when the key is missing. */
  function Read<T>(slot: Option<T>, fallback: T): (r: T)
    ensures slot.None? ==> r == fallback
    ensures slot.Some? ==> r == slot.value
  {
    slot.GetOr(fallback)
  }

  /** `setItem` of the serialised value: whatever the reader's fallback, the
      next read gives back what was written. */
  function Write<T(!new)>(x: T): (r: Option<T>)
    ensures forall fallback: T :: Read(r, fallback) == x
  {
    Some(x)
  }

  /** `removeItem`: the next read gives the reader's fallback. */
  function Remove<T(!new)>(): (r: Option<T>)
    ensures forall fallback: T :: Read(r, fallback) == fallback
  {
    None
  }
}

=== FILE: sync_service.dfy ===
/** The catalogue synchronisation service: classifying a list of muscles into a
    body part, mapping a record of the upstream free exercise database into
    the domain shape, and deciding whether a sync is needed. Fetching from
    GitHub and writing to the database are left to the caller; their results
    arrive as parameters. */
module SyncService {
  import opened Wrappers
  import opened Text
  import opened Js
  import opened Seqs
  import opened Domain
  import ExerciseService

  // ---------------------------------------------------------------------------
  // Muscles to body parts
  // ---------------------------------------------------------------------------

  datatype Region = UpperBody | Back | Core | LowerBody | FullBody {
    function Name(): (r: string)
      ensures r == "upper body" || r == "back" || r == "core" || r == "lower body" || r == "full body"
    {
      match this
      case UpperBody => "upper body"
      case Back => "back"
      case Core => "core"
      case LowerBody => "lower body"
      case FullBody => "full body"
    }
  }

  /** The muscle table in the order its keys are enumerated. The key "lats"
      is written twice with the same value; an object keeps its first
      position, so it appears once here. */
  const MuscleTable: seq<(string, Region)> := [
    ("biceps", UpperBody), ("triceps", UpperBody), ("forearms", UpperBody),
    ("shoulders", UpperBody), ("delts", UpperBody), ("traps", UpperBody),
    ("lats", Back), ("middle back", Back), ("lower back", Back),
    ("pectorals", UpperBody), ("chest", UpperBody),
    ("abs", Core), ("abdominals", Core), ("obliques", Core),
    ("quadriceps", LowerBody), ("quads", LowerBody), ("hamstrings", LowerBody),
    ("glutes", LowerBody), ("calves", LowerBody), ("adductors", LowerBody),
    ("abductors", LowerBody), ("spine", Back), ("erector spinae", Back)]

  /** A lower-cased muscle matches a key when either contains the other. */
  predicate KeyMatches(muscleLower: string, key: string) {
    Contains(muscleLower, key) || Contains(key, muscleLower)
  }

  predicate PairMatches(muscles: seq<string>, table: seq<(string, Region)>, i: int, j: int)
    requires 0 <= i < |muscles| && 0 <= j < |table|
  {
    KeyMatches(Lower(muscles[i]), table[j].0)
  }

  /** The first (muscle, key) pair that matches, muscles scanned in list
      order and, for each, keys in table order. */
  function Scan(muscles: seq<string>, table: seq<(string, Region)>): (r: Option<(nat, nat)>)
    ensures r.None? <==>
      forall i, j :: 0 <= i < |muscles| && 0 <= j < |table| ==> !PairMatches(muscles, table, i, j)
    ensures r.Some? ==>
      var (i, j) := r.value;
      i < |muscles| && j < |table| && PairMatches(muscles, table, i, j) &&
      (forall i', j' :: 0 <= i' < i && 0 <= j' < |table| ==> !PairMatches(muscles, table, i', j')) &&
      (forall j' :: 0 <= j' < j ==> !PairMatches(muscles, table, i, j'))
    decreases |muscles|
  {
    if |muscles| == 0 then None
    else
      var ml := Lower(muscles[0]);
      match FirstWhere(table, (pair: (string, Region)) => KeyMatches(ml, pair.0))
      case Some(j) =>
        assert PairMatches(muscles, table, 0, j);
        Some((0, j))
      case None =>
        assert forall j :: 0 <= j < |table| ==> !PairMatches(muscles, table, 0, j);
        var rest := Scan(muscles[1..], table);
        assert forall i, j :: 1 <= i < |muscles| && 0 <= j < |table| ==>
          PairMatches(muscles, table, i, j) == PairMatches(muscles[1..], table, i - 1, j);
        match rest
        case None => None
        case Some((i, j)) =>
          assert PairMatches(muscles, table, i + 1, j);
          Some((i + 1, j))
  }

  predicate UpperKeyword(m: string) {
    Contains(m, "bicep") || Contains(m, "tricep") || Contains(m, "shoulder") ||
    Contains(m, "chest") || Contains(m, "pec")
  }

  predicate LowerKeyword(m: string) {
    Contains(m, "quad") || Contains(m, "hamstring") || Contains(m, "glute") || Contains(m, "calf")
  }

  predicate CoreKeyword(m: string) {
    Contains(m, "abs") || Contains(m, "oblique") || Contains(m, "core")
  }

  predicate BackKeyword(m: string) {
    Contains(m, "back") || Contains(m, "lat")
  }

  /** The keyword rules tried on the first muscle when no pair matched: the
      first group with a keyword in the muscle decides, in the order upper
      body, lower body, core, back; no keyword at all gives full body. */
  function Fallback(first: string): (r: Region)
    ensures r == UpperBody <==> UpperKeyword(first)
    ensures r == LowerBody <==> !UpperKeyword(first) && LowerKeyword(first)
    ensures r == Core <==> !UpperKeyword(first) && !LowerKeyword(first) && CoreKeyword(first)
    ensures r == Back <==>
      !UpperKeyword(first) && !LowerKeyword(first) && !CoreKeyword(first) && BackKeyword(first)
    ensures r == FullBody <==>
      !UpperKeyword(first) && !LowerKeyword(first) && !CoreKeyword(first) && !BackKeyword(first)
  {
    if UpperKeyword(first) then UpperBody
    else if LowerKeyword(first) then LowerBody
    else if CoreKeyword(first) then Core
    else if BackKeyword(first) then Back
    else FullBody
  }

  /** The body part of an exercise, decided by its primary muscles. */
  function Classify(primaryMuscles: Option<seq<string>>, table: seq<(string, Region)>): (r: string)
    ensures r == "upper body" || r == "back" || r == "core" || r == "lower body" || r == "full body"
    ensures primaryMuscles.None? || |primaryMuscles.value| == 0 ==> r == "full body"
    ensures primaryMuscles.Some? && Scan(primaryMuscles.value, table).Some? ==>
      r == table[Scan(primaryMuscles.value, table).value.1].1.Name()
    ensures primaryMuscles.Some? && |primaryMuscles.value| > 0 && Scan(primaryMuscles.value, table).None? ==>
      r == Fallback(Lower(primaryMuscles.value[0])).Name()
  {
    if primaryMuscles.None? || |primaryMuscles.value| == 0 then "full body"
    else
      match Scan(primaryMuscles.value, table)
      case Some((_, j)) => table[j].1.Name()
      case None => Fallback(Lower(primaryMuscles.value[0])).Name()
  }

  /** `getBodyPartFromMuscles`: the first matching pair decides, else the
      keyword rules on the first muscle, else "full body". */
  function BodyPartFromMuscles(primaryMuscles: Option<seq<string>>): (r: string)
    ensures r == "upper body" || r == "back" || r == "core" || r == "lower body" || r == "full body"
    ensures primaryMuscles.None? || |primaryMuscles.value| == 0 ==> r == "full body"
    ensures primaryMuscles.Some? && Scan(primaryMuscles.value, MuscleTable).Some? ==>
      r == MuscleTable[Scan(primaryMuscles.value, MuscleTable).value.1].1.Name()
    ensures primaryMuscles.Some? && |primaryMuscles.value| > 0 && Scan(primaryMuscles.value, MuscleTable).None? ==>
      r == Fallback(Lower(primaryMuscles.value[0])).Name()
  {
    Classify(primaryMuscles, MuscleTable)
  }

  /** An empty muscle name is contained in every key, so it takes the first
      key's body part. */
  lemma EmptyMuscleIsUpperBody(rest: seq<string>)
    ensures BodyPartFromMuscles(Some([""] + rest)) == "upper body"
  {
    var muscles := [""] + rest;
    assert Lower(muscles[0]) == "";
    ContainsEmpty(MuscleTable[0].0);
    assert PairMatches(muscles, MuscleTable, 0, 0);
  }

  /** The fallback is never reached while some muscle matches some key. */
  lemma FallbackOnlyWithoutMatch(muscles: seq<string>, i: nat, j: nat)
    requires i < |muscles| && j < |MuscleTable| && PairMatches(muscles, MuscleTable, i, j)
    ensures Scan(muscles, MuscleTable).Some?
    ensures BodyPartFromMuscles(Some(muscles)) == MuscleTable[Scan(muscles, MuscleTable).value.1].1.Name()
  {
  }

  // ---------------------------------------------------------------------------
  // Upstream record mapping
  // ---------------------------------------------------------------------------

  /** The upstream `equipment` field: absent or falsy, a string, an array of
      possibly missing strings, or some other truthy value. */
  datatype EquipmentField = EqMissing | EqText(text: string) | EqList(items: seq<Option<string>>) | EqOther

  /** A record of the upstream free exercise database. */
  datatype FreeExerciseRecord = FreeExerciseRecord(
    id: Option<string>,
    name: Option<string>,
    equipment: EquipmentField,
    primaryMuscles: Option<seq<string>>,
    secondaryMuscles: Option<seq<string>>,
    level: Option<string>,
    category: Option<string>,
    images: Option<seq<string>>,
    instructions: Option<seq<string>>,
    keywords: Option<seq<string>>,
    force: Option<string>,
    mechanic: Option<string>)

  const ImageBaseUrl := "https://raw.githubusercontent.com/yuhonas/free-exercise-db/main/exercises"

  predicate IsSlugChar(c: char) { 'a' <= c <= 'z' || '0' <= c <= '9' || c == '-' }

  /** Lower case, white-space runs to "-", then every character outside
      `[a-z0-9-]` removed. */
  function Slug(name: string): (r: string)
    ensures forall i :: 0 <= i < |r| ==> IsSlugChar(r[i])
    ensures |r| <= |name|
  {
    var s := Filter(DashSpaceRuns(Lower(name)), IsSlugChar);
    assert forall i :: 0 <= i < |s| ==> s[i] in s;
    s
  }

  /** A name of letters, digits and dashes only is just lower-cased. */
  lemma SlugOfPlainName(name: string)
    requires forall i :: 0 <= i < |name| ==> IsSlugChar(name[i]) || 'A' <= name[i] <= 'Z'
    ensures Slug(name) == Lower(name)
  {
    var l := Lower(name);
    assert forall i :: 0 <= i < |l| ==> IsSlugChar(l[i]);
    assert NoSpace(l);
    DashNoSpace(l);
    FilterAll(l, IsSlugChar);
  }

  /** Cutting a name where no white-space run is split slugs the two halves
      on their own. */
  lemma SlugConcat(a: string, b: string)
    requires a == "" || b == "" || !IsSpace(a[|a| - 1]) || !IsSpace(b[0])
    ensures Slug(a + b) == Slug(a) + Slug(b)
  {
    var la, lb := Lower(a), Lower(b);
    LowerConcat(a, b);
    assert la == "" || lb == "" || !IsSpace(la[|la| - 1]) || !IsSpace(lb[0]);
    DashConcat(la, lb);
    FilterConcat(DashSpaceRuns(la), DashSpaceRuns(lb), IsSlugChar);
  }

  /** A run of white space between two parts becomes one dash, and each
      part is slugged on its own. */
  lemma SlugSpaceRun(a: string, w: string, b: string)
    requires w != "" && AllSpace(w)
    requires a == "" || !IsSpace(a[|a| - 1])
    requires b == "" || !IsSpace(b[0])
    ensures Slug(a + w + b) == Slug(a) + "-" + Slug(b)
  {
    assert Lower(w) == w;
    DashAllSpace(w);
    assert Slug(w) == "-";
    SlugConcat(w, b);
    SlugConcat(a, w + b);
    ConcatAssoc(a, w, b);
    ConcatAssoc(Slug(a), "-", Slug(b));
  }

  /** A character that is neither white space nor a slug character once
      lower-cased is dropped without joining or splitting anything. */
  lemma SlugDropsChar(a: string, c: char, b: string)
    requires !IsSpace(c) && !IsSlugChar(LowerChar(c))
    ensures Slug(a + [c] + b) == Slug(a) + Slug(b)
  {
    var lc := [LowerChar(c)];
    assert Lower([c]) == lc && NoSpace(lc);
    DashNoSpace(lc);
    assert Slug([c]) == [];
    SlugConcat([c], b);
    SlugConcat(a, [c] + b);
    ConcatAssoc(a, [c], b);
  }

  /** `id || slug(name) || 'unknown'`. */
  function RecordId(rec: FreeExerciseRecord): (r: string)
    ensures r != ""
    ensures Truthy(rec.id) ==> r == rec.id.value
    ensures !Truthy(rec.id) ==> forall i :: 0 <= i < |r| ==> IsSlugChar(r[i])
    ensures !Truthy(rec.id) ==>
      r == if rec.name.Some? && Slug(rec.name.value) != "" then Slug(rec.name.value) else "unknown"
  {
    if Truthy(rec.id) then rec.id.value
    else if rec.name.Some? && Slug(rec.name.value) != "" then Slug(rec.name.value)
    else "unknown"
  }

  /** The equipment list before normalisation. */
  function RawEquipment(f: EquipmentField): (r: seq<Option<string>>)
    ensures f.EqList? ==> r == f.items
    ensures f.EqText? && f.text != "" ==> r == [Some(f.text)]
    ensures f.EqMissing? || f.EqOther? || f == EqText("") ==> r == []
  {
    match f
    case EqList(items) => items
    case EqText(t) => if t != "" then [Some(t)] else []
    case _ => []
  }

  /** One entry lower-cased, or "body weight" when it is missing or empty. */
  function NormalizeItem(o: Option<string>): (r: string)
    ensures r != ""
    ensures Truthy(o) ==> r == Lower(o.value)
    ensures !Truthy(o) ==> r == "body weight"
  {
    if Truthy(o) then Lower(o.value) else "body weight"
  }

  /** Normalises each entry, then drops the falsy ones. */
  function NormalizeEquipment(items: seq<Option<string>>): (r: seq<string>)
    ensures |r| == |items|
    ensures forall i :: 0 <= i < |r| ==> r[i] == NormalizeItem(items[i]) && r[i] != ""
  {
    var mapped := seq(|items|, i requires 0 <= i < |items| => NormalizeItem(items[i]));
    FilterAll(mapped, (x: string) => x != "");
    Filter(mapped, (x: string) => x != "")
  }

  /** The directory text of an image path: the id, or "undefined" when the
      record has none. */
  function IdText(id: Option<string>): string {
    if id.Some? then id.value else "undefined"
  }

  /** A full URL for one image entry. */
  function ImageUrl(img: string, id: Option<string>): (r: string)
    ensures StartsWith(img, "http") ==> r == img
    ensures !StartsWith(img, "http") && '/' in img ==> r == ImageBaseUrl + "/" + img
    ensures !StartsWith(img, "http") && '/' !in img ==> r == ImageBaseUrl + "/" + IdText(id) + "/" + img
    ensures EndsWith(r, img)
  {
    if StartsWith(img, "http") then img
    else if '/' in img then ImageBaseUrl + "/" + img
    else ImageBaseUrl + "/" + IdText(id) + "/" + img
  }

  function ImageUrls(rec: FreeExerciseRecord): (r: seq<string>)
    ensures rec.images.None? ==> r == []
    ensures rec.images.Some? ==> |r| == |rec.images.value|
    ensures rec.images.Some? ==>
      forall i :: 0 <= i < |r| ==> r[i] == ImageUrl(rec.images.value[i], rec.id)
  {
    if rec.images.Some? && |rec.images.value| > 0 then
      seq(|rec.images.value|, i requires 0 <= i < |rec.images.value| => ImageUrl(rec.images.value[i], rec.id))
    else []
  }

  predicate SaysExpertOrAdvanced(l: string) {
    Contains(l, "advanced") || l == "hard" || l == "expert"
  }

  /** The sync's level rule: the backend vocabulary plus "expert". */
  function SyncLevel(level: Option<string>): (r: string)
    ensures r == "beginner" || r == "intermediate" || r == "advanced"
    ensures !Truthy(level) ==> r == "intermediate"
    ensures Truthy(level) ==> (r == "beginner" <==> ExerciseService.SaysBeginner(Lower(level.value)))
    ensures Truthy(level) ==>
      (r == "advanced" <==> !ExerciseService.SaysBeginner(Lower(level.value)) &&
                            SaysExpertOrAdvanced(Lower(level.value)))
  {
    if !Truthy(level) then "intermediate"
    else
      var l := Lower(level.value);
      if ExerciseService.SaysBeginner(l) then "beginner"
      else if SaysExpertOrAdvanced(l) then "advanced"
      else "intermediate"
  }

  /** The two level rules differ only on "expert". */
  lemma SyncLevelAgreesWithService(level: Option<string>)
    requires level.Some? ==> Lower(level.value) != "expert"
    ensures SyncLevel(level) == ExerciseService.MapLevel(level)
  {
  }

  /** `expert` in any letter case is an advanced level. */
  lemma ExpertIsAdvanced()
    ensures SyncLevel(Some("Expert")) == "advanced"
  {
    assert Lower("Expert") == "expert";
  }

  /** Maps an upstream record into the domain shape. The body area is not
      set (the empty string); the body part comes from the muscles. */
  function MapToDomainModel(rec: FreeExerciseRecord): (e: Exercise)
    ensures e.id != "" && e.sourceId == e.id
    ensures Truthy(rec.id) ==> e.id == rec.id.value
    ensures e.id == RecordId(rec)
    ensures e.equipment == NormalizeEquipment(RawEquipment(rec.equipment))
    ensures e.imageUrls == ImageUrls(rec)
    ensures |e.equipment| == |RawEquipment(rec.equipment)|
    ensures forall i :: 0 <= i < |e.equipment| ==> e.equipment[i] != ""
    ensures rec.images.Some? ==> |e.imageUrls| == |rec.images.value|
    ensures e.bodyPart == BodyPartFromMuscles(Some(rec.primaryMuscles.GetOr([])))
    ensures e.level == SyncLevel(rec.level)
    ensures |e.instructions| > 0 ==> e.description == Join(e.instructions, " ")
    ensures |e.instructions| == 0 ==> e.description == ""
    ensures e.force.Some? ==> e.force.value != ""
    ensures e.mechanic.Some? ==> e.mechanic.value != ""
  {
    var id := RecordId(rec);
    var instructions := rec.instructions.GetOr([]);
    Exercise(
      id := id,
      name := OrElse(rec.name, ""),
      bodyArea := "",
      bodyPart := BodyPartFromMuscles(Some(rec.primaryMuscles.GetOr([]))),
      primaryMuscles := rec.primaryMuscles.GetOr([]),
      secondaryMuscles := rec.secondaryMuscles.GetOr([]),
      equipment := NormalizeEquipment(RawEquipment(rec.equipment)),
      category := OrElse(rec.category, "strength"),
      level := SyncLevel(rec.level),
      description := if |instructions| > 0 then Join(instructions, " ") else "",
      instructions := instructions,
      imageUrls := ImageUrls(rec),
      sourceId := if Truthy(rec.id) then rec.id.value else id,
      tags := rec.keywords.GetOr([]),
      exerciseType := "",
      force := if Truthy(rec.force) then rec.force else None,
      mechanic := if Truthy(rec.mechanic) then rec.mechanic else None)
  }

  /** A record without an id or a usable name gets the id "unknown". */
  lemma NamelessRecordIsUnknown(rec: FreeExerciseRecord)
    requires !Truthy(rec.id) && rec.name.None?
    ensures MapToDomainModel(rec).id == "unknown"
  {
  }

  /** Without an id, a plain non-empty name gives the id: lower-cased. */
  lemma PlainNameIsId(rec: FreeExerciseRecord)
    requires !Truthy(rec.id) && rec.name.Some? && rec.name.value != ""
    requires forall i :: 0 <= i < |rec.name.value| ==> IsSlugChar(rec.name.value[i]) || 'A' <= rec.name.value[i] <= 'Z'
    ensures MapToDomainModel(rec).id == Lower(rec.name.value)
  {
    SlugOfPlainName(rec.name.value);
  }

  /** A bare file name is placed under the record's own directory; a missing
      id is spelled "undefined" there. */
  lemma BareImageName(rec: FreeExerciseRecord)
    requires rec.images == Some(["0.jpg"]) && rec.id.None?
    ensures MapToDomainModel(rec).imageUrls == [ImageBaseUrl + "/undefined/0.jpg"]
  {
    assert "0.jpg"[..4][0] != "http"[0];
    assert '/' !in "0.jpg";
    assert ImageUrl("0.jpg", None) == ImageBaseUrl + "/undefined/0.jpg";
    assert ImageUrls(rec) == [ImageUrl("0.jpg", None)];
  }

  // ---------------------------------------------------------------------------
  // Sync decision
  // ---------------------------------------------------------------------------

  /** The newest sync metadata row: when it ran (seconds) and which upstream
      commit it saw. */
  datatype SyncMeta = SyncMeta(lastSyncDate: int, lastCommitSha: Option<string>)

  datatype SyncCheck = SyncCheck(needed: bool, reason: string)

  const DaySeconds := 24 * 3600

  /** More than 24 hours have passed since `lastSyncDate` (seconds) at time
      `nowMs` (milliseconds), compared exactly. */
  predicate MoreThanADay(lastSyncDate: int, nowMs: int) {
    nowMs > 1000 * (lastSyncDate + DaySeconds)
  }

  /** `checkSyncNeeded`, given the last metadata row, the upstream head commit
      (`None` when it could not be fetched) and the current time. */
  function CheckSyncNeeded(lastSync: Option<SyncMeta>, latestSha: Option<string>, nowMs: int): (r: SyncCheck)
    ensures lastSync.None? ==> r.needed
    ensures lastSync.Some? && !Truthy(latestSha) ==>
      (r.needed <==> MoreThanADay(lastSync.value.lastSyncDate, nowMs))
    ensures lastSync.Some? && Truthy(latestSha) ==>
      (r.needed <==> lastSync.value.lastCommitSha != latestSha)
  {
    if lastSync.None? then SyncCheck(true, "No previous sync found")
    else if !Truthy(latestSha) then
      if MoreThanADay(lastSync.value.lastSyncDate, nowMs) then
        SyncCheck(true, "More than 24 hours since last sync")
      else SyncCheck(false, "Recent sync, no update needed")
    else if lastSync.value.lastCommitSha != latestSha then SyncCheck(true, "New commit detected")
    else SyncCheck(false, "Already up to date")
  }

  /** The metadata row a sync at `nowMs` writes: whole seconds, and the head
      commit when one was known. */
  function RecordSync(nowMs: int, latestSha: Option<string>): (m: SyncMeta)
    ensures m.lastSyncDate * 1000 <= nowMs < (m.lastSyncDate + 1) * 1000
    ensures Truthy(latestSha) ==> m.lastCommitSha == latestSha
    ensures !Truthy(latestSha) ==> m.lastCommitSha.None?
  {
    SyncMeta(nowMs / 1000, if Truthy(latestSha) then latestSha else None)
  }

  /** Right after a sync that saw head `sha`, no sync is needed while the head
      stays `sha`; without a head, none is needed for a day. */
  lemma NoResyncAfterSync(syncMs: int, sha: Option<string>, laterMs: int)
    requires syncMs <= laterMs
    ensures Truthy(sha) ==> !CheckSyncNeeded(Some(RecordSync(syncMs, sha)), sha, laterMs).needed
    ensures laterMs + 1000 <= syncMs + 1000 * DaySeconds ==>
      !CheckSyncNeeded(Some(RecordSync(syncMs, sha)), None, laterMs).needed
  {
  }

  datatype Gate = Proceed | Skip(reason: string)

  /** The gate at the start of `syncExercises`: forcing skips the check
      entirely; otherwise the check decides. */
  function SyncGate(force: bool, check: () -> SyncCheck): (g: Gate)
    ensures force ==> g == Proceed
    ensures !force ==> (g == Proceed <==> check().needed)
    ensures !force && !check().needed ==> g == Skip(check().reason)
  {
    if force then Proceed
    else
      var c := check();
      if c.needed then Proceed else Skip(c.reason)
  }
}

=== FILE: text.dfy ===
/** String operations the source takes from JavaScript's `String.prototype`,
    restricted to what the model needs. Case mapping covers ASCII letters only;
    white space is JavaScript's full white-space set. */
module Text {

  /** `toLowerCase` on one character (ASCII letters only). */
  function LowerChar(c: char): char {
    if 'A' <= c <= 'Z' then (c as int + 32) as char else c
  }

  /** `toUpperCase` on one character (ASCII letters only). */
  function UpperChar(c: char): char {
    if 'a' <= c <= 'z' then (c as int - 32) as char else c
  }

  function Lower(s: string): (r: string)
    ensures |r| == |s|
    ensures forall i :: 0 <= i < |s| ==> r[i] == LowerChar(s[i])
  {
    seq(|s|, i requires 0 <= i < |s| => LowerChar(s[i]))
  }

  function Upper(s: string): (r: string)
    ensures |r| == |s|
    ensures forall i :: 0 <= i < |s| ==> r[i] == UpperChar(s[i])
  {
    seq(|s|, i requires 0 <= i < |s| => UpperChar(s[i]))
  }

  /** Lower-casing forgets any earlier change of case, so a comparison made
      after `toLowerCase` cannot tell a string from its upper-case form. */
  lemma LowerOfUpper(s: string)
    ensures Lower(Upper(s)) == Lower(s)
  {
    forall i | 0 <= i < |s|
      ensures Lower(Upper(s))[i] == Lower(s)[i]
    {
      var c := s[i];
      assert Upper(s)[i] == UpperChar(c);
    }
  }

  predicate HasNoUpper(s: string) {
    forall i :: 0 <= i < |s| ==> !('A' <= s[i] <= 'Z')
  }

  /** Lower-casing leaves a string without capitals as it is. */
  lemma LowerNoop(s: string)
    requires HasNoUpper(s)
    ensures Lower(s) == s
  {
  }

  lemma LowerIdempotent(s: string)
    ensures Lower(Lower(s)) == Lower(s)
  {
  }

  /** The white space that `trim`, `parseInt` and the `\s` regular-expression
      class recognise: the WhiteSpace and LineTerminator code points of
      sections 12.2 and 12.3 of ECMA-262 (tab, vertical tab, form feed, space,
      no-break space, the byte-order mark, the Unicode space separators, line
      feed, carriage return, and the line and paragraph separators). */
  predicate IsSpace(c: char) {
    c == ' ' || c == '\t' || c == '\n' || c == '\r' || c == '\U{0B}' || c == '\U{0C}' ||
    c == '\U{A0}' || c == '\U{FEFF}' || c == '\U{1680}' || '\U{2000}' <= c <= '\U{200A}' ||
    c == '\U{2028}' || c == '\U{2029}' || c == '\U{202F}' || c == '\U{205F}' || c == '\U{3000}'
  }

  predicate StartsWith(s: string, prefix: string) {
    |prefix| <= |s| && s[..|prefix|] == prefix
  }

  predicate EndsWith(s: string, suffix: string) {
    |suffix| <= |s| && s[|s| - |suffix|..] == suffix
  }

  /** `part` occurs in `s` starting at offset `i`. */
  predicate OccursAt(s: string, part: string, i: int) {
    0 <= i <= |s| - |part| && s[i..i + |part|] == part
  }

  /** `s.includes(part)`: `part` occurs in `s` at some offset. */
  predicate Contains(s: string, part: string) {
    exists i | 0 <= i <= |s| - |part| :: OccursAt(s, part, i)
  }

  lemma ContainsEmpty(s: string)
    ensures Contains(s, "")
  {
    assert OccursAt(s, "", 0);
  }

  lemma ContainsSelf(s: string)
    ensures Contains(s, s)
  {
    assert OccursAt(s, s, 0);
  }

  /** A string that contains `p + q` contains `p`. */
  lemma ContainsPrefixOfPart(s: string, p: string, q: string)
    requires Contains(s, p + q)
    ensures Contains(s, p)
  {
    var i :| 0 <= i <= |s| - |p + q| && OccursAt(s, p + q, i);
    assert s[i..i + |p|] == (p + q)[..|p|];
    assert OccursAt(s, p, i);
  }

  /** A string that contains `p + q` contains `q`. */
  lemma ContainsSuffixOfPart(s: string, p: string, q: string)
    requires Contains(s, p + q)
    ensures Contains(s, q)
  {
    var i :| 0 <= i <= |s| - |p + q| && OccursAt(s, p + q, i);
    assert s[i + |p|..i + |p| + |q|] == (p + q)[|p|..];
    assert OccursAt(s, q, i + |p|);
  }

  lemma EndsWithContains(s: string, suffix: string)
    requires EndsWith(s, suffix)
    ensures Contains(s, suffix)
  {
    assert OccursAt(s, suffix, |s| - |suffix|);
  }

  /** `trimStart`: drop leading white space. */
  function TrimStart(s: string): (r: string)
    ensures |r| <= |s| && r == s[|s| - |r|..]
    ensures |r| > 0 ==> !IsSpace(r[0])
    ensures forall i :: 0 <= i < |s| - |r| ==> IsSpace(s[i])
    decreases |s|
  {
    if |s| > 0 && IsSpace(s[0]) then TrimStart(s[1..]) else s
  }

  /** `trimEnd`: drop trailing white space. */
  function TrimEnd(s: string): (r: string)
    ensures |r| <= |s| && r == s[..|r|]
    ensures |r| > 0 ==> !IsSpace(r[|r| - 1])
    ensures forall i :: |r| <= i < |s| ==> IsSpace(s[i])
    decreases |s|
  {
    if |s| > 0 && IsSpace(s[|s| - 1]) then TrimEnd(s[..|s| - 1]) else s
  }

  /** `trim`: the result neither starts nor ends with white space, and it is
      empty exactly when the input is all white space. */
  function Trim(s: string): (r: string)
    ensures |r| > 0 ==> !IsSpace(r[0]) && !IsSpace(r[|r| - 1])
    ensures r == "" <==> forall i :: 0 <= i < |s| ==> IsSpace(s[i])
  {
    var t := TrimStart(s);
    var r := TrimEnd(t);
    assert |r| > 0 ==> r[0] == t[0];
    TrimmedAllSpace(s, t, r);
    r
  }

  /** Helper for `Trim`: when nothing survives both trims, the input was all
      white space. */
  lemma TrimmedAllSpace(s: string, t: string, r: string)
    requires t == TrimStart(s) && r == TrimEnd(t)
    ensures r == "" ==> forall i :: 0 <= i < |s| ==> IsSpace(s[i])
  {
    if r == "" {
      assert t == "";
    }
  }

  lemma {:induction false} TrimStartNoop(s: string)
    requires |s| == 0 || !IsSpace(s[0])
    ensures TrimStart(s) == s
  {
  }

  lemma {:induction false} TrimEndNoop(s: string)
    requires |s| == 0 || !IsSpace(s[|s| - 1])
    ensures TrimEnd(s) == s
  {
  }

  /** Neither end is white space. */
  predicate IsTrimmed(s: string) {
    |s| == 0 || (!IsSpace(s[0]) && !IsSpace(s[|s| - 1]))
  }

  /** A string without white space at either end is its own trim. */
  lemma TrimNoop(s: string)
    requires IsTrimmed(s)
    ensures Trim(s) == s
  {
    TrimStartNoop(s);
    TrimEndNoop(s);
  }

  /** `parts.map(p => p.trim())`. */
  function TrimAll(parts: seq<string>): (r: seq<string>)
    ensures |r| == |parts|
    ensures forall i :: 0 <= i < |r| ==> r[i] == Trim(parts[i]) && IsTrimmed(r[i])
  {
    seq(|parts|, i requires 0 <= i < |parts| => Trim(parts[i]))
  }

  /** Trimming twice is the same as trimming once. */
  lemma TrimIdempotent(s: string)
    ensures Trim(Trim(s)) == Trim(s)
  {
    var r := Trim(s);
    TrimStartNoop(r);
    TrimEndNoop(r);
  }

  /** `s.replace(/\s+/g, '-')`: every maximal run of white space becomes one
      dash. */
  function DashSpaceRuns(s: string): (r: string)
    ensures forall i :: 0 <= i < |r| ==> !IsSpace(r[i])
    ensures |r| <= |s|
    decreases |s|
  {
    if |s| == 0 then ""
    else if IsSpace(s[0]) then
      var t := TrimStart(s);
      assert |t| < |s|;
      var rest := DashSpaceRuns(t);
      "-" + rest
    else
      var rest := DashSpaceRuns(s[1..]);
      [s[0]] + rest
  }

  /** No character is white space. */
  predicate NoSpace(s: string) {
    forall i :: 0 <= i < |s| ==> !IsSpace(s[i])
  }

  /** Every character is white space. */
  predicate AllSpace(s: string) {
    forall i :: 0 <= i < |s| ==> IsSpace(s[i])
  }

  /** Leading white space of `a + b` is that of `a`, and reaches into `b`
      only when `a` is all white space. */
  lemma {:induction false} TrimStartAppend(a: string, b: string)
    ensures TrimStart(a + b) == if TrimStart(a) == "" then TrimStart(b) else TrimStart(a) + b
    decreases |a|
  {
    if |a| > 0 {
      if IsSpace(a[0]) {
        assert (a + b)[1..] == a[1..] + b;
        TrimStartAppend(a[1..], b);
      } else {
        assert (a + b)[0] == a[0];
      }
    } else {
      assert a + b == b;
    }
  }

  /** Text without white space is left as it is. */
  lemma {:induction false} DashNoSpace(s: string)
    requires NoSpace(s)
    ensures DashSpaceRuns(s) == s
    decreases |s|
  {
    if |s| > 0 {
      DashNoSpace(s[1..]);
    }
  }

  /** A non-empty run of white space alone becomes one dash. */
  lemma DashAllSpace(w: string)
    requires w != "" && AllSpace(w)
    ensures DashSpaceRuns(w) == "-"
  {
    assert TrimStart(w) == "";
  }

  /** Cutting the text where no white-space run is split rewrites the two
      halves on their own. */
  lemma {:induction false} DashConcat(a: string, b: string)
    requires a == "" || b == "" || !IsSpace(a[|a| - 1]) || !IsSpace(b[0])
    ensures DashSpaceRuns(a + b) == DashSpaceRuns(a) + DashSpaceRuns(b)
    decreases |a|, 1
  {
    if a == "" {
      assert a + b == b;
    } else if IsSpace(a[0]) {
      DashConcatSpace(a, b);
    } else {
      DashConcatOther(a, b);
    }
  }

  /** Helper for `DashConcat`: `a` starts with white space. */
  lemma {:induction false} DashConcatSpace(a: string, b: string)
    requires a != "" && IsSpace(a[0])
    requires b == "" || !IsSpace(a[|a| - 1]) || !IsSpace(b[0])
    ensures DashSpaceRuns(a + b) == DashSpaceRuns(a) + DashSpaceRuns(b)
    decreases |a|, 0
  {
    var ab := a + b;
    assert ab[0] == a[0];
    var t := TrimStart(a);
    TrimStartAppend(a, b);
    if t == "" {
      TrimStartNoop(b);
      assert DashSpaceRuns(ab) == "-" + DashSpaceRuns(b);
      assert DashSpaceRuns(a) == "-";
    } else {
      assert t[|t| - 1] == a[|a| - 1];
      assert DashSpaceRuns(ab) == "-" + DashSpaceRuns(t + b);
      DashConcat(t, b);
      ConcatAssoc("-", DashSpaceRuns(t), DashSpaceRuns(b));
    }
  }

  /** Helper for `DashConcat`: `a` starts with another character. */
  lemma {:induction false} DashConcatOther(a: string, b: string)
    requires a != "" && !IsSpace(a[0])
    requires b == "" || !IsSpace(a[|a| - 1]) || !IsSpace(b[0])
    ensures DashSpaceRuns(a + b) == DashSpaceRuns(a) + DashSpaceRuns(b)
    decreases |a|, 0
  {
    var ab := a + b;
    var tail := a[1..];
    assert ab[0] == a[0] && ab[1..] == tail + b;
    assert DashSpaceRuns(ab) == [a[0]] + DashSpaceRuns(tail + b);
    assert tail == "" || tail[|tail| - 1] == a[|a| - 1];
    DashConcat(tail, b);
    ConcatAssoc([a[0]], DashSpaceRuns(tail), DashSpaceRuns(b));
  }

  lemma ConcatAssoc(x: string, y: string, z: string)
    ensures x + (y + z) == (x + y) + z
  {
  }

  /** `x.replace(/\s+/g, '-')` on `a + w + b`, where `w` is a whole run of
      white space: each side is rewritten on its own and the run becomes one
      dash. */
  lemma DashSpaceRunSplit(a: string, w: string, b: string)
    requires w != "" && AllSpace(w)
    requires a == "" || !IsSpace(a[|a| - 1])
    requires b == "" || !IsSpace(b[0])
    ensures DashSpaceRuns(a + w + b) == DashSpaceRuns(a) + "-" + DashSpaceRuns(b)
  {
    DashConcat(w, b);
    DashAllSpace(w);
    DashConcat(a, w + b);
    ConcatAssoc(a, w, b);
    ConcatAssoc(DashSpaceRuns(a), "-", DashSpaceRuns(b));
  }

  /** Lower-casing works character by character. */
  lemma LowerConcat(a: string, b: string)
    ensures Lower(a + b) == Lower(a) + Lower(b)
  {
  }

  /** `trim` drops a no-break space and an ideographic space. */
  lemma TrimUnicodeSpace()
    ensures Trim("\U{A0}a\U{3000}") == "a"
  {
    var s := "\U{A0}a\U{3000}";
    assert IsSpace(s[0]) && s[1..] == "a\U{3000}";
    var t := "a\U{3000}";
    assert !IsSpace(t[0]);
    assert TrimStart(s) == t;
    assert IsSpace(t[1]) && t[..1] == "a";
    assert TrimEnd(t) == TrimEnd("a") == "a";
  }

  /** A run of a no-break space and an em space becomes one dash. */
  lemma DashUnicodeSpace()
    ensures DashSpaceRuns("a\U{A0}\U{2003}b") == "a-b"
  {
    var b := "b";
    assert !IsSpace(b[0]) && b[1..] == "";
    assert DashSpaceRuns(b) == b;
    var t := "\U{2003}b";
    assert IsSpace(t[0]) && t[1..] == b;
    assert TrimStart(t) == b;
    var u := "\U{A0}" + t;
    assert IsSpace(u[0]) && u[1..] == t;
    assert TrimStart(u) == b;
    assert DashSpaceRuns(u) == "-b";
    var s := "a" + u;
    assert !IsSpace(s[0]) && s[1..] == u;
    assert DashSpaceRuns(s) == "a-b";
  }

  /** Joins `parts` with `sep` between consecutive parts (`Array.prototype.join`). */
  function Join(parts: seq<string>, sep: string): string
    decreases |parts|
  {
    if |parts| == 0 then ""
    else if |parts| == 1 then parts[0]
    else parts[0] + sep + Join(parts[1..], sep)
  }

  /** `s.split(sep)` for a one-character separator: at least one part, no part
      holds the separator, and joining the parts gives `s` back. */
  function Split(s: string, sep: char): (r: seq<string>)
    ensures |r| >= 1
    ensures forall i :: 0 <= i < |r| ==> sep !in r[i]
    ensures Join(r, [sep]) == s
    decreases |s|
  {
    if |s| == 0 then [""]
    else
      var rest := Split(s[1..], sep);
      if s[0] == sep then
        assert Join([""] + rest, [sep]) == "" + [sep] + Join(rest, [sep]);
        [""] + rest
      else
        var r := [[s[0]] + rest[0]] + rest[1..];
        assert |rest| == 1 ==> Join(r, [sep]) == [s[0]] + Join(rest, [sep]);
        assert |rest| > 1 ==> Join(rest, [sep]) == rest[0] + [sep] + Join(rest[1..], [sep]);
        assert |rest| > 1 ==> Join(r, [sep]) == [s[0]] + rest[0] + [sep] + Join(r[1..], [sep]);
        r
  }

  /** Splitting a join of separator-free parts gives the parts back. */
  lemma {:induction false} SplitJoin(parts: seq<string>, sep: char)
    requires |parts| >= 1
    requires forall i :: 0 <= i < |parts| ==> sep !in parts[i]
    ensures Split(Join(parts, [sep]), sep) == parts
    decreases |parts|, |parts[0]|
  {
    var s := Join(parts, [sep]);
    if |parts[0]| == 0 {
      if |parts| == 1 {
        assert s == "";
      } else {
        assert s == [sep] + Join(parts[1..], [sep]);
        assert s[1..] == Join(parts[1..], [sep]);
        SplitJoin(parts[1..], sep);
        assert parts == [""] + parts[1..];
      }
    } else {
      var c := parts[0][0];
      var tailParts := [parts[0][1..]] + parts[1..];
      assert c != sep by { assert c in parts[0]; }
      assert forall i :: 0 <= i < |tailParts| ==> sep !in tailParts[i] by {
        forall i | 0 <= i < |tailParts| ensures sep !in tailParts[i] {
          if i == 0 {
            assert forall x :: x in parts[0][1..] ==> x in parts[0];
          } else {
            assert tailParts[i] == parts[i];
          }
        }
      }
      if |parts| == 1 {
        assert s == parts[0];
        assert s[1..] == Join(tailParts, [sep]);
      } else {
        assert s == parts[0] + [sep] + Join(parts[1..], [sep]);
        assert Join(tailParts, [sep]) == parts[0][1..] + [sep] + Join(parts[1..], [sep]);
        assert s[1..] == Join(tailParts, [sep]);
      }
      SplitJoin(tailParts, sep);
      assert s[0] == c;
      assert [c] + tailParts[0] == parts[0];
      assert tailParts[1..] == parts[1..];
      assert parts == [[c] + tailParts[0]] + tailParts[1..];
    }
  }
}

=== FILE: theme_context.dfy ===
/** The theme provider: the initial theme read from storage, the classes the
    effect leaves on the document root, and the value it stores back. */
module ThemeContext {
  import opened Wrappers

  datatype Theme = Clean | Mermaid | Dark | Natural | Neon

  function ThemeName(t: Theme): string {
    match t
    case Clean => "clean"
    case Mermaid => "mermaid"
    case Dark => "dark"
    case Natural => "natural"
    case Neon => "neon"
  }

  /** The allowed names, back to themes. */
  function ParseTheme(s: string): (r: Option<Theme>)
    ensures r.Some? ==> ThemeName(r.value) == s
    ensures r.None? ==> forall t: Theme :: ThemeName(t) != s
  {
    if s == "clean" then Some(Clean)
    else if s == "mermaid" then Some(Mermaid)
    else if s == "dark" then Some(Dark)
    else if s == "natural" then Some(Natural)
    else if s == "neon" then Some(Neon)
    else None
  }

  lemma ParseName(t: Theme)
    ensures ParseTheme(ThemeName(t)) == Some(t)
  {
  }

  /** The initial state: the stored value when it is one of the five names,
      else "mermaid". */
  function InitialTheme(stored: Option<string>): (t: Theme)
    ensures stored.Some? && ParseTheme(stored.value).Some? ==> t == ParseTheme(stored.value).value
    ensures stored.None? || ParseTheme(stored.value).None? ==> t == Mermaid
  {
    if stored.Some? && stored.value != "" then ParseTheme(stored.value).GetOr(Mermaid) else Mermaid
  }

  function ThemeClass(t: Theme): string {
    "theme-" + ThemeName(t)
  }

  lemma ClassIsThemeClass(t: Theme)
    ensures ThemeClass(t) in ThemeClasses
  {
    match t
    case Clean => assert ThemeClass(t) == "theme-clean";
    case Mermaid => assert ThemeClass(t) == "theme-mermaid";
    case Dark => assert ThemeClass(t) == "theme-dark";
    case Natural => assert ThemeClass(t) == "theme-natural";
    case Neon => assert ThemeClass(t) == "theme-neon";
  }

  const ThemeClasses: set<string> := {"theme-clean", "theme-mermaid", "theme-dark", "theme-natural", "theme-neon"}

  /** The effect's class update: remove every theme class, then add the
      current one unless it is the default. */
  function ApplyClasses(classes: set<string>, t: Theme): (r: set<string>)
    ensures forall c :: c !in ThemeClasses ==> (c in r <==> c in classes)
    ensures forall c :: c in ThemeClasses ==> (c in r <==> t != Mermaid && c == ThemeClass(t))
    ensures t == Mermaid ==> r * ThemeClasses == {}
  {
    var r := classes - ThemeClasses;
    ClassIsThemeClass(t);
    if t != Mermaid then r + {ThemeClass(t)} else r
  }

  /** The provider's state: the theme, the root's classes and the storage
      slot. */
  datatype State = State(theme: Theme, classes: set<string>, stored: Option<string>)

  /** The effect run after a render with the current theme. */
  function Effect(st: State): (r: State)
    ensures r.theme == st.theme
    ensures r.classes == ApplyClasses(st.classes, st.theme)
    ensures r.stored == Some(ThemeName(st.theme))
  {
    st.(classes := ApplyClasses(st.classes, st.theme), stored := Some(ThemeName(st.theme)))
  }

  /** `setTheme`, followed by the effect. */
  function SetTheme(st: State, t: Theme): (r: State)
    ensures r.theme == t && r.stored == Some(ThemeName(t))
  {
    Effect(st.(theme := t))
  }

  /** The stored value brings the same theme back on the next load, and
      applying it again changes nothing. */
  lemma StorageRoundTrip(st: State, t: Theme)
    ensures InitialTheme(SetTheme(st, t).stored) == t
    ensures Effect(SetTheme(st, t)) == SetTheme(st, t)
  {
    ParseName(t);
  }
}

=== FILE: workout_detail_page.dfy ===
/** The workout editor's transitions. Each handler maps the loaded workout
    to the workout it saves, or to `None` when it returns without saving;
    saving stamps `updatedAt` and upserts into the workout store. Fresh ids,
    the clock and the delete confirmation are parameters. */
module WorkoutDetailPage {
  import opened Wrappers
  import opened Seqs
  import opened Records
  import opened Js
  import opened Domain
  import WorkoutStorage

  /** `DEFAULT_PRINT_CONFIG` of the editor: three exercises per page,
      everything shown, instructions not condensed. */
  const DefaultPrintConfig := PrintConfig(3, true, true, true, true, true, true, true, true, false)

  /** `saveWorkoutData`: stamp the time and upsert. */
  function Commit(store: WorkoutStorage.Store, w: Workout, now: string): (r: (Workout, WorkoutStorage.Store))
    ensures r.0.updatedAt == now
    ensures r.0.(updatedAt := w.updatedAt) == w
    ensures WorkoutStorage.GetWorkoutById(r.1, w.id) == Some(r.0)
  {
    var stamped := w.(updatedAt := now);
    (stamped, WorkoutStorage.SaveWorkout(store, stamped))
  }

  /** `sessions.map(s => s.id === id ? g(s) : s)`. */
  function MapSessions(ss: seq<Session>, id: string, g: Session -> Session): (r: seq<Session>)
    ensures |r| == |ss|
    ensures forall i :: 0 <= i < |ss| ==> r[i] == if ss[i].id == id then g(ss[i]) else ss[i]
  {
    seq(|ss|, i requires 0 <= i < |ss| => if ss[i].id == id then g(ss[i]) else ss[i])
  }

  // ---------------------------------------------------------------------------
  // Sessions
  // ---------------------------------------------------------------------------

  function SessionName(k: nat): string {
    "Session " + NatToString(k)
  }

  /** `handleAddSession`: one empty session named after the new count is
      appended and becomes the selection. */
  function AddSession(w: Workout, freshId: string): (r: (Workout, Option<string>))
    ensures |r.0.sessions| == |w.sessions| + 1
    ensures r.0.sessions[..|w.sessions|] == w.sessions
    ensures var s := r.0.sessions[|w.sessions|];
      s.id == freshId && s.name == SessionName(|w.sessions| + 1) && s.notes == "" &&
      s.exercises == [] && s.printConfigOverride.None?
    ensures r.1 == Some(freshId)
    ensures r.0 == w.(sessions := r.0.sessions)
  {
    var s := Session(freshId, SessionName(|w.sessions| + 1), "", [], None);
    (w.(sessions := w.sessions + [s]), Some(freshId))
  }

  /** `handleDeleteSession`: after confirmation, every session with the id
      goes; a selection pointing at it moves to the first remaining session
      (`null` when none is left or its id is empty). */
  function DeleteSession(w: Workout, selected: Option<string>, id: string, confirmed: bool)
    : (r: Option<(Workout, Option<string>)>)
    ensures r.None? <==> !confirmed
    ensures r.Some? ==>
      r.value.0 == w.(sessions := r.value.0.sessions) &&
      !HasKey(r.value.0.sessions, SessionId, id) &&
      IsSubseq(r.value.0.sessions, w.sessions) &&
      (forall s :: s in r.value.0.sessions <==> s in w.sessions && s.id != id)
    ensures r.Some? && selected != Some(id) ==> r.value.1 == selected
    ensures r.Some? && selected == Some(id) ==>
      var rest := r.value.0.sessions;
      r.value.1 == (if |rest| > 0 && rest[0].id != "" then Some(rest[0].id) else None)
    ensures r.Some? && selected == Some(id) && r.value.1.Some? ==> HasKey(r.value.0.sessions, SessionId, r.value.1.value)
  {
    if !confirmed then None
    else
      var rest := RemoveKey(w.sessions, SessionId, id);
      var sel := if selected == Some(id) then
        (if |rest| > 0 && rest[0].id != "" then Some(rest[0].id) else None)
      else selected;
      Some((w.(sessions := rest), sel))
  }

  /** Deleting a session just added restores the sessions, and the selection
      falls back to the first session. */
  lemma DeleteAddedSession(w: Workout, freshId: string)
    requires !HasKey(w.sessions, SessionId, freshId)
    ensures var (added, sel) := AddSession(w, freshId);
      var r := DeleteSession(added, sel, freshId, true).value;
      r.0 == w &&
      r.1 == (if |w.sessions| > 0 && w.sessions[0].id != "" then Some(w.sessions[0].id) else None)
  {
    var s := AddSession(w, freshId).0.sessions[|w.sessions|];
    assert AddSession(w, freshId).0.sessions == w.sessions + [s];
    RemoveKeyOfAppended(w.sessions, SessionId, s);
  }

  // ---------------------------------------------------------------------------
  // Exercises inside a session
  // ---------------------------------------------------------------------------

  /** `handleExerciseAdded`: with a selected session that exists, a blank
      entry for the exercise is appended to it (to every session carrying
      that id), numbered by the length of the first such session. */
  function ExerciseAdded(w: Workout, selected: Option<string>, exerciseId: string, freshId: string)
    : (r: Option<Workout>)
    ensures r.None? <==> !Truthy(selected) || !HasKey(w.sessions, SessionId, selected.value)
    ensures r.Some? ==>
      var sid := selected.value;
      var first := Find(w.sessions, SessionId, sid).value;
      var entry := BlankEntry(freshId, exerciseId, |first.exercises|);
      r.value == w.(sessions := r.value.sessions) &&
      |r.value.sessions| == |w.sessions| &&
      forall i :: 0 <= i < |w.sessions| ==>
        r.value.sessions[i] ==
          if w.sessions[i].id == sid then w.sessions[i].(exercises := w.sessions[i].exercises + [entry])
          else w.sessions[i]
  {
    if !Truthy(selected) then None
    else
      match Find(w.sessions, SessionId, selected.value)
      case None => None
      case Some(session) =>
        var entry := BlankEntry(freshId, exerciseId, |session.exercises|);
        Some(w.(sessions := MapSessions(w.sessions, selected.value,
                                        (s: Session) => s.(exercises := s.exercises + [entry]))))
  }

  /** With distinct session ids only the selected session changes: it grows
      by one blank entry whose order is its old length. */
  lemma ExerciseAddedGrowsOneSession(w: Workout, j: nat, exerciseId: string, freshId: string)
    requires DistinctKeys(w.sessions, SessionId) && j < |w.sessions| && w.sessions[j].id != ""
    ensures var r := ExerciseAdded(w, Some(w.sessions[j].id), exerciseId, freshId);
      r.Some? &&
      r.value.sessions[j].exercises ==
        w.sessions[j].exercises + [BlankEntry(freshId, exerciseId, |w.sessions[j].exercises|)] &&
      forall i :: 0 <= i < |w.sessions| && i != j ==> r.value.sessions[i] == w.sessions[i]
  {
    FindDistinct(w.sessions, SessionId, j);
  }

  /** `s.exercises.map(ex => ex.id === updated.id ? updated : ex)`. */
  function ReplaceEntry(es: seq<SessionExercise>, updated: SessionExercise): (r: seq<SessionExercise>)
    ensures |r| == |es|
    ensures forall k :: 0 <= k < |es| ==> r[k] == if es[k].id == updated.id then updated else es[k]
  {
    seq(|es|, k requires 0 <= k < |es| => if es[k].id == updated.id then updated else es[k])
  }

  /** `handleExerciseUpdate`: in the sessions with the id, each entry with the
      updated entry's id is replaced; lengths and all else are unchanged. */
  function ExerciseUpdate(w: Workout, sessionId: string, updated: SessionExercise): (r: Workout)
    ensures r == w.(sessions := r.sessions)
    ensures |r.sessions| == |w.sessions|
    ensures forall i :: 0 <= i < |w.sessions| ==>
      r.sessions[i] == w.sessions[i].(exercises := r.sessions[i].exercises) &&
      |r.sessions[i].exercises| == |w.sessions[i].exercises|
    ensures forall i :: 0 <= i < |w.sessions| && w.sessions[i].id != sessionId ==> r.sessions[i] == w.sessions[i]
    ensures forall i, k ::
      (0 <= i < |w.sessions| && w.sessions[i].id == sessionId && 0 <= k < |w.sessions[i].exercises|) ==>
        r.sessions[i].exercises[k] ==
          if w.sessions[i].exercises[k].id == updated.id then updated else w.sessions[i].exercises[k]
  {
    w.(sessions := MapSessions(w.sessions, sessionId, (s: Session) => s.(exercises := ReplaceEntry(s.exercises, updated))))
  }

  /** Applying the same update twice is applying it once. */
  lemma ExerciseUpdateIdempotent(w: Workout, sessionId: string, updated: SessionExercise)
    ensures ExerciseUpdate(ExerciseUpdate(w, sessionId, updated), sessionId, updated) ==
      ExerciseUpdate(w, sessionId, updated)
  {
    var once := ExerciseUpdate(w, sessionId, updated);
    var twice := ExerciseUpdate(once, sessionId, updated);
    forall i | 0 <= i < |w.sessions| ensures twice.sessions[i] == once.sessions[i] {
      if w.sessions[i].id == sessionId {
        assert twice.sessions[i].exercises == once.sessions[i].exercises;
      }
    }
  }

  /** `handleExerciseRemove`: in the sessions with the id, every entry with
      the entry id goes; the rest keep their order and their `order` values
      (nothing is renumbered). */
  function ExerciseRemove(w: Workout, sessionId: string, entryId: string): (r: Workout)
    ensures r == w.(sessions := r.sessions)
    ensures |r.sessions| == |w.sessions|
    ensures forall i :: 0 <= i < |w.sessions| && w.sessions[i].id != sessionId ==> r.sessions[i] == w.sessions[i]
    ensures forall i :: 0 <= i < |w.sessions| && w.sessions[i].id == sessionId ==>
      var before, after := w.sessions[i].exercises, r.sessions[i].exercises;
      r.sessions[i] == w.sessions[i].(exercises := after) &&
      !HasKey(after, EntryId, entryId) && IsSubseq(after, before) &&
      (forall e :: e in after <==> e in before && e.id != entryId)
  {
    w.(sessions := MapSessions(w.sessions, sessionId, (s: Session) => s.(exercises := RemoveKey(s.exercises, EntryId, entryId))))
  }

  // ---------------------------------------------------------------------------
  // Moving an entry
  // ---------------------------------------------------------------------------

  datatype Direction = Up | Down

  /** The entry's position after the move. */
  function Target(i: nat, dir: Direction): int {
    if dir == Up then i - 1 else i + 1
  }

  /** `ex.order = idx` for every entry. */
  function Renumber(es: seq<SessionExercise>): (r: seq<SessionExercise>)
    ensures |r| == |es|
    ensures forall k :: 0 <= k < |es| ==> r[k] == es[k].(order := k)
  {
    seq(|es|, k requires 0 <= k < |es| => es[k].(order := k))
  }

  /** An entry with its position number blanked, for comparing lists up to
      renumbering. */
  function Unnumbered(es: seq<SessionExercise>): (r: seq<SessionExercise>)
    ensures |r| == |es|
    ensures forall k :: 0 <= k < |es| ==> r[k] == es[k].(order := 0)
  {
    seq(|es|, k requires 0 <= k < |es| => es[k].(order := 0))
  }

  function Swap<T>(s: seq<T>, i: nat, j: nat): (r: seq<T>)
    requires i < |s| && j < |s|
    ensures |r| == |s| && r[i] == s[j] && r[j] == s[i]
    ensures forall k :: 0 <= k < |s| && k != i && k != j ==> r[k] == s[k]
    ensures multiset(r) == multiset(s)
  {
    var r := s[i := s[j]][j := s[i]];
    if i == j then r
    else
      assert multiset(s[i := s[j]]) == multiset(s) - multiset{s[i]} + multiset{s[j]};
      r
  }

  /** The legal moves: the entry exists, and it is neither moved up from the
      top nor down from the bottom. */
  predicate CanMove(es: seq<SessionExercise>, entryId: string, dir: Direction) {
    HasKey(es, EntryId, entryId) &&
    var i := FindIndex(es, EntryId, entryId).value;
    0 <= Target(i, dir) < |es|
  }

  /** The reordering `handleExerciseMove` computes for one session: the first
      entry with the id swaps with its neighbour and every entry is
      renumbered to its position. */
  function MoveEntries(es: seq<SessionExercise>, entryId: string, dir: Direction): (r: Option<seq<SessionExercise>>)
    ensures r.Some? <==> CanMove(es, entryId, dir)
    ensures r.Some? ==>
      var i := FindIndex(es, EntryId, entryId).value;
      var t := Target(i, dir);
      0 <= t < |es| &&
      |r.value| == |es| &&
      r.value[t] == es[i].(order := t) && r.value[i] == es[t].(order := i) &&
      (forall k :: 0 <= k < |es| && k != i && k != t ==> r.value[k] == es[k].(order := k)) &&
      (forall k :: 0 <= k < |es| ==> r.value[k].order == k) &&
      multiset(Unnumbered(r.value)) == multiset(Unnumbered(es))
  {
    match FindIndex(es, EntryId, entryId)
    case None => None
    case Some(i) =>
      var t := Target(i, dir);
      if t < 0 || t >= |es| then None
      else
        var swapped := Swap(es, i, t);
        assert Unnumbered(Renumber(swapped)) == Swap(Unnumbered(es), i, t);
        Some(Renumber(swapped))
  }

  /** Moving an entry up and then down again gives back the original list,
      renumbered. */
  lemma MoveUpThenDown(es: seq<SessionExercise>, entryId: string)
    requires CanMove(es, entryId, Up)
    ensures var up := MoveEntries(es, entryId, Up).value;
      CanMove(up, entryId, Down) && MoveEntries(up, entryId, Down).value == Renumber(es)
  {
    var i := FindIndex(es, EntryId, entryId).value;
    var up := MoveEntries(es, entryId, Up).value;
    assert up[i - 1].id == entryId;
    FindIndexAt(up, EntryId, entryId, i - 1);
    var back := MoveEntries(up, entryId, Down).value;
    assert forall k :: 0 <= k < |es| ==> back[k] == Renumber(es)[k];
  }

  /** Moving down and then up again also gives back the original list,
      renumbered, provided entry ids are distinct: otherwise the entry moved
      up may be an earlier copy of the id. */
  lemma MoveDownThenUp(es: seq<SessionExercise>, entryId: string)
    requires CanMove(es, entryId, Down) && DistinctKeys(es, EntryId)
    ensures var down := MoveEntries(es, entryId, Down).value;
      CanMove(down, entryId, Up) && MoveEntries(down, entryId, Up).value == Renumber(es)
  {
    var i := FindIndex(es, EntryId, entryId).value;
    var down := MoveEntries(es, entryId, Down).value;
    assert EntryId(down[i + 1]) == entryId;
    assert EntryId(down[i]) != entryId by {
      assert down[i].id == es[i + 1].id;
      assert EntryId(es[i]) != EntryId(es[i + 1]);
    }
    FindIndexAt(down, EntryId, entryId, i + 1);
    var back := MoveEntries(down, entryId, Up).value;
    assert forall k :: 0 <= k < |es| ==> back[k] == Renumber(es)[k];
  }

  /** `handleExerciseMove`: finds the first session with the id and moves the
      entry there; the reordered list is written into every session with
      that id. No save when the session or entry is missing or the move would
      leave the list. */
  function ExerciseMove(w: Workout, sessionId: string, entryId: string, dir: Direction): (r: Option<Workout>)
    ensures r.Some? <==>
      HasKey(w.sessions, SessionId, sessionId) &&
      CanMove(Find(w.sessions, SessionId, sessionId).value.exercises, entryId, dir)
    ensures r.Some? ==>
      var moved := MoveEntries(Find(w.sessions, SessionId, sessionId).value.exercises, entryId, dir).value;
      r.value == w.(sessions := r.value.sessions) &&
      |r.value.sessions| == |w.sessions| &&
      forall i :: 0 <= i < |w.sessions| ==>
        r.value.sessions[i] == if w.sessions[i].id == sessionId then w.sessions[i].(exercises := moved) else w.sessions[i]
  {
    match Find(w.sessions, SessionId, sessionId)
    case None => None
    case Some(session) =>
      match MoveEntries(session.exercises, entryId, dir)
      case None => None
      case Some(moved) => Some(w.(sessions := MapSessions(w.sessions, sessionId, (s: Session) => s.(exercises := moved))))
  }

  // ---------------------------------------------------------------------------
  // Print configuration
  // ---------------------------------------------------------------------------

  /** `getActivePrintConfig`: the session's override, else the workout's
      configuration, else the default. */
  function ActivePrintConfig(w: Workout, session: Option<Session>): (r: PrintConfig)
    ensures session.Some? && session.value.printConfigOverride.Some? ==> r == session.value.printConfigOverride.value
    ensures (session.None? || session.value.printConfigOverride.None?) && w.printConfig.Some? ==>
      r == w.printConfig.value
    ensures (session.None? || session.value.printConfigOverride.None?) && w.printConfig.None? ==>
      r == DefaultPrintConfig
  {
    if session.Some? && session.value.printConfigOverride.Some? then session.value.printConfigOverride.value
    else w.printConfig.GetOr(DefaultPrintConfig)
  }

  /** `handlePrintConfigChange`: a session id writes that session's
      override; no session writes the workout's configuration. */
  function PrintConfigChange(w: Workout, sessionId: Option<string>, config: PrintConfig): (r: Workout)
    ensures Truthy(sessionId) ==>
      r == w.(sessions := r.sessions) && |r.sessions| == |w.sessions| &&
      forall i :: 0 <= i < |w.sessions| ==>
        r.sessions[i] == if w.sessions[i].id == sessionId.value
          then w.sessions[i].(printConfigOverride := Some(config)) else w.sessions[i]
    ensures !Truthy(sessionId) ==> r == w.(printConfig := Some(config))
  {
    if Truthy(sessionId) then
      w.(sessions := MapSessions(w.sessions, sessionId.value, (s: Session) => s.(printConfigOverride := Some(config))))
    else w.(printConfig := Some(config))
  }

  /** A configuration just chosen is the one in force: for each session it
      was set on, or for every session without an override when it was set on
      the workout. */
  lemma ChosenConfigIsActive(w: Workout, sessionId: Option<string>, config: PrintConfig, i: nat)
    requires i < |w.sessions|
    ensures var r := PrintConfigChange(w, sessionId, config);
      Truthy(sessionId) && w.sessions[i].id == sessionId.value ==>
        ActivePrintConfig(r, Some(r.sessions[i])) == config
    ensures var r := PrintConfigChange(w, sessionId, config);
      !Truthy(sessionId) && w.sessions[i].printConfigOverride.None? ==>
        ActivePrintConfig(r, Some(r.sessions[i])) == config
    ensures !Truthy(sessionId) ==> ActivePrintConfig(PrintConfigChange(w, sessionId, config), None) == config
  {
  }
}

=== FILE: workout_selector_modal.dfy ===
/** The add-to-workout dialog's `handleAdd`: it either builds a new workout,
    or copies the chosen one and optionally gives it a new session, then
    appends one blank entry for the exercise to the target session and saves.
    The workout list is a parameter: the dialog reads it once, when its host
    page mounts, so it is that page-load snapshot, not a fresh read when
    the dialog opens. Fresh ids and the clock are parameters too. */
module WorkoutSelectorModal {
  import opened Wrappers
  import opened Records
  import opened Domain
  import WorkoutStorage

  /** The dialog's fields when "Add" is pressed. */
  datatype Form = Form(
    selectedWorkoutId: string,
    selectedSessionId: string,
    newWorkoutName: string,
    newSessionName: string,
    showNewWorkout: bool,
    showNewSession: bool)

  /** The ids and time a successful add may consume. */
  datatype NewIds = NewIds(workoutId: string, sessionId: string, entryId: string, now: string)

  datatype AddOutcome =
    | Saved(workout: Workout)
    | SelectWorkoutAlert
    | SelectSessionAlert
    | NothingSaved

  /** The new workout of the "new workout" path, before the exercise is
      added. */
  function NewWorkout(form: Form, ids: NewIds): (w: Workout)
    ensures w.id == ids.workoutId && w.name == form.newWorkoutName
    ensures w.createdAt == ids.now && w.updatedAt == ids.now
    ensures |w.sessions| == 1 && w.sessions[0].id == ids.sessionId && w.sessions[0].exercises == []
    ensures w.sessions[0].name == (if form.newSessionName != "" then form.newSessionName else "Session 1")
  {
    var name := if form.newSessionName != "" then form.newSessionName else "Session 1";
    Workout(ids.workoutId, form.newWorkoutName, "", ids.now, ids.now,
            [Session(ids.sessionId, name, "", [], None)], None, [])
  }

  /** Appends the blank entry to the first session with the id, stamping the
      time; `None` when the workout has no such session. */
  function AddToSession(w: Workout, sessionId: string, exerciseId: string, ids: NewIds): (r: Option<Workout>)
    ensures r.None? <==> !HasKey(w.sessions, SessionId, sessionId)
    ensures r.Some? ==>
      var j := FindIndex(w.sessions, SessionId, sessionId).value;
      r.value == w.(sessions := r.value.sessions, updatedAt := ids.now) &&
      r.value.sessions ==
        w.sessions[j := w.sessions[j].(exercises := w.sessions[j].exercises +
                                       [BlankEntry(ids.entryId, exerciseId, |w.sessions[j].exercises|)])]
  {
    match FindIndex(w.sessions, SessionId, sessionId)
    case None => None
    case Some(j) =>
      var s := w.sessions[j];
      var s' := s.(exercises := s.exercises + [BlankEntry(ids.entryId, exerciseId, |s.exercises|)]);
      Some(w.(sessions := w.sessions[j := s'], updatedAt := ids.now))
  }

  /** `handleAdd`'s decision tree. The session choice is tested before the
      chosen workout is looked at, so a chosen id missing from the snapshot
      still gets the session alert when no session is named or chosen; with
      one named or chosen, the copy `{ ...undefined }` has no sessions, the
      source throws before saving, and that is `NothingSaved` here. */
  function HandleAdd(workouts: seq<Workout>, form: Form, exerciseId: string, ids: NewIds): (r: AddOutcome)
    ensures form.showNewWorkout && form.newWorkoutName != "" ==>
      r == Saved(AddToSession(NewWorkout(form, ids), ids.sessionId, exerciseId, ids).value)
    ensures !(form.showNewWorkout && form.newWorkoutName != "") && form.selectedWorkoutId == "" ==>
      r == SelectWorkoutAlert
    ensures r == SelectSessionAlert <==>
      !(form.showNewWorkout && form.newWorkoutName != "") && form.selectedWorkoutId != "" &&
      !(form.showNewSession && form.newSessionName != "") && form.selectedSessionId == ""
    ensures r.Saved? && !(form.showNewWorkout && form.newWorkoutName != "") ==>
      HasKey(workouts, WorkoutId, form.selectedWorkoutId) &&
      var w := Find(workouts, WorkoutId, form.selectedWorkoutId).value;
      r.workout.id == w.id && r.workout.name == w.name && r.workout.exercises == w.exercises
    ensures !HasKey(workouts, WorkoutId, form.selectedWorkoutId) && !(form.showNewWorkout && form.newWorkoutName != "") ==>
      !r.Saved?
  {
    if form.showNewWorkout && form.newWorkoutName != "" then
      Saved(AddToSession(NewWorkout(form, ids), ids.sessionId, exerciseId, ids).value)
    else if form.selectedWorkoutId == "" then SelectWorkoutAlert
    else if !(form.showNewSession && form.newSessionName != "") && form.selectedSessionId == "" then
      SelectSessionAlert
    else
      match Find(workouts, WorkoutId, form.selectedWorkoutId)
      case None => NothingSaved
      case Some(w) =>
        if form.showNewSession && form.newSessionName != "" then
          var w' := w.(sessions := w.sessions + [Session(ids.sessionId, form.newSessionName, "", [], None)]);
          assert SessionId(w'.sessions[|w.sessions|]) == ids.sessionId;
          Saved(AddToSession(w', ids.sessionId, exerciseId, ids).value)
        else
          match AddToSession(w, form.selectedSessionId, exerciseId, ids)
          case None => NothingSaved
          case Some(w') => Saved(w')
  }

  /** A chosen workout missing from the snapshot, with no session named or
      chosen, gets the session alert; with one, nothing is saved. */
  lemma MissingWorkout(workouts: seq<Workout>, form: Form, exerciseId: string, ids: NewIds)
    requires !(form.showNewWorkout && form.newWorkoutName != "") && form.selectedWorkoutId != ""
    requires !HasKey(workouts, WorkoutId, form.selectedWorkoutId)
    ensures var r := HandleAdd(workouts, form, exerciseId, ids);
      if !(form.showNewSession && form.newSessionName != "") && form.selectedSessionId == ""
      then r == SelectSessionAlert else r == NothingSaved
  {
  }

  /** On the chosen-session path of an existing workout, the add is saved
      exactly when the workout has that session. Then only that session
      changes, gaining one blank entry for the exercise at the end, and the
      workout is what `AddToSession` builds. An unknown session id saves
      nothing. */
  lemma ChosenSessionPath(workouts: seq<Workout>, form: Form, exerciseId: string, ids: NewIds)
    requires !(form.showNewWorkout && form.newWorkoutName != "") && form.selectedWorkoutId != ""
    requires HasKey(workouts, WorkoutId, form.selectedWorkoutId)
    requires !(form.showNewSession && form.newSessionName != "") && form.selectedSessionId != ""
    ensures var w := Find(workouts, WorkoutId, form.selectedWorkoutId).value;
      var r := HandleAdd(workouts, form, exerciseId, ids);
      (r.Saved? <==> HasKey(w.sessions, SessionId, form.selectedSessionId)) &&
      (!r.Saved? ==> r == NothingSaved) &&
      (r.Saved? ==> r.workout == AddToSession(w, form.selectedSessionId, exerciseId, ids).value)
    ensures var w := Find(workouts, WorkoutId, form.selectedWorkoutId).value;
      var r := HandleAdd(workouts, form, exerciseId, ids);
      r.Saved? ==>
        var j := FindIndex(w.sessions, SessionId, form.selectedSessionId).value;
        |r.workout.sessions| == |w.sessions| &&
        w.sessions[j].id == form.selectedSessionId &&
        (forall k :: 0 <= k < |w.sessions| && k != j ==> r.workout.sessions[k] == w.sessions[k]) &&
        r.workout.sessions[j].exercises ==
          w.sessions[j].exercises + [BlankEntry(ids.entryId, exerciseId, |w.sessions[j].exercises|)]
  {
  }

  /** Number of entries across all sessions. */
  function EntryCount(ss: seq<Session>): (n: nat)
    ensures ss == [] ==> n == 0
  {
    if ss == [] then 0 else EntryCount(ss[..|ss| - 1]) + |ss[|ss| - 1].exercises|
  }

  lemma EntryCountAppend(ss: seq<Session>, s: Session)
    ensures EntryCount(ss + [s]) == EntryCount(ss) + |s.exercises|
  {
    assert (ss + [s])[..|ss|] == ss;
  }

  /** Replacing one session changes the count by the difference in its
      length. */
  lemma {:induction false} EntryCountUpdate(ss: seq<Session>, j: nat, s: Session)
    requires j < |ss|
    ensures EntryCount(ss[j := s]) == EntryCount(ss) - |ss[j].exercises| + |s.exercises|
    decreases |ss|
  {
    var n := |ss| - 1;
    if j < n {
      assert ss[j := s][..n] == ss[..n][j := s];
      EntryCountUpdate(ss[..n], j, s);
    } else {
      assert ss[j := s][..n] == ss[..n];
    }
  }

  /** Whatever the path, a save adds exactly one entry to the workout it
      saves, compared with the workout it started from (none, for a new
      workout). */
  lemma SavedAddsOneEntry(workouts: seq<Workout>, form: Form, exerciseId: string, ids: NewIds)
    requires HandleAdd(workouts, form, exerciseId, ids).Saved?
    ensures var saved := HandleAdd(workouts, form, exerciseId, ids).workout;
      if form.showNewWorkout && form.newWorkoutName != "" then EntryCount(saved.sessions) == 1
      else
        var w := Find(workouts, WorkoutId, form.selectedWorkoutId).value;
        EntryCount(saved.sessions) == EntryCount(w.sessions) + 1
  {
    var r := HandleAdd(workouts, form, exerciseId, ids);
    if form.showNewWorkout && form.newWorkoutName != "" {
      var nw := NewWorkout(form, ids);
      EntryCountUpdate(nw.sessions, 0, r.workout.sessions[0]);
    } else {
      var w := Find(workouts, WorkoutId, form.selectedWorkoutId).value;
      if form.showNewSession && form.newSessionName != "" {
        var ns := Session(ids.sessionId, form.newSessionName, "", [], None);
        var w' := w.(sessions := w.sessions + [ns]);
        assert SessionId(w'.sessions[|w.sessions|]) == ids.sessionId;
        var j := FindIndex(w'.sessions, SessionId, ids.sessionId).value;
        EntryCountAppend(w.sessions, ns);
        EntryCountUpdate(w'.sessions, j, r.workout.sessions[j]);
      } else {
        var j := FindIndex(w.sessions, SessionId, form.selectedSessionId).value;
        EntryCountUpdate(w.sessions, j, r.workout.sessions[j]);
      }
    }
  }

  /** On the new-session path with an unused session id, the workout gains
      one session holding exactly the exercise, and the old sessions are
      untouched. */
  lemma NewSessionHoldsExercise(workouts: seq<Workout>, form: Form, exerciseId: string, ids: NewIds)
    requires !(form.showNewWorkout && form.newWorkoutName != "") && form.selectedWorkoutId != ""
    requires HasKey(workouts, WorkoutId, form.selectedWorkoutId)
    requires form.showNewSession && form.newSessionName != ""
    requires !HasKey(Find(workouts, WorkoutId, form.selectedWorkoutId).value.sessions, SessionId, ids.sessionId)
    ensures var w := Find(workouts, WorkoutId, form.selectedWorkoutId).value;
      var r := HandleAdd(workouts, form, exerciseId, ids);
      r.Saved? &&
      r.workout.sessions ==
        w.sessions + [Session(ids.sessionId, form.newSessionName, "", [BlankEntry(ids.entryId, exerciseId, 0)], None)]
  {
    var w := Find(workouts, WorkoutId, form.selectedWorkoutId).value;
    var ns := Session(ids.sessionId, form.newSessionName, "", [], None);
    var w' := w.(sessions := w.sessions + [ns]);
    FindIndexAt(w'.sessions, SessionId, ids.sessionId, |w.sessions|);
    var entry := BlankEntry(ids.entryId, exerciseId, 0);
    assert HandleAdd(workouts, form, exerciseId, ids) == Saved(AddToSession(w', ids.sessionId, exerciseId, ids).value);
    assert w'.sessions[|w.sessions|] == ns && ns.exercises + [entry] == [entry];
    assert AddToSession(w', ids.sessionId, exerciseId, ids).value.sessions == w'.sessions[|w.sessions| := ns.(exercises := [entry])];
    assert w'.sessions[|w.sessions| := ns.(exercises := [entry])] == w.sessions + [ns.(exercises := [entry])];
  }

  /** The "new workout" path saves a workout whose single session holds
      exactly the exercise. */
  lemma NewWorkoutHoldsExercise(workouts: seq<Workout>, form: Form, exerciseId: string, ids: NewIds)
    requires form.showNewWorkout && form.newWorkoutName != ""
    ensures var r := HandleAdd(workouts, form, exerciseId, ids);
      r.Saved? && r.workout.id == ids.workoutId && |r.workout.sessions| == 1 &&
      r.workout.sessions[0].exercises == [BlankEntry(ids.entryId, exerciseId, 0)]
  {
    FindIndexAt(NewWorkout(form, ids).sessions, SessionId, ids.sessionId, 0);
  }

  /** Saving the outcome into the store makes it the stored workout with its
      id. */
  function Save(store: WorkoutStorage.Store, r: AddOutcome): (s: WorkoutStorage.Store)
    ensures !r.Saved? ==> s == store
    ensures r.Saved? ==> WorkoutStorage.GetWorkoutById(s, r.workout.id) == Some(r.workout)
  {
    if r.Saved? then WorkoutStorage.SaveWorkout(store, r.workout) else store
  }
}

=== FILE: workout_storage.dfy ===
/** The browser's workout store. The `localStorage` slot is an
    `Option<seq<Workout>>`: `None` when the key was never written. Fresh
    UUIDs and timestamps are parameters. */
module WorkoutStorage {
  import opened Wrappers
  import Storage
  import opened Seqs
  import opened Records
  import opened Domain

  type Store = Option<seq<Workout>>

  /** `getWorkouts`: a missing slot reads as no workouts. */
  function GetWorkouts(store: Store): seq<Workout>
  {
    Storage.Read(store, [])
  }

  /** `getWorkoutById`: the first workout with that id, or null. */
  function GetWorkoutById(store: Store, id: string): (r: Option<Workout>)
    ensures r.None? <==> !HasKey(GetWorkouts(store), WorkoutId, id)
    ensures r.Some? ==> r.value in GetWorkouts(store) && r.value.id == id
  {
    Find(GetWorkouts(store), WorkoutId, id)
  }

  /** `saveWorkout`: replaces the first workout with the same id in place,
      or appends. */
  function SaveWorkout(store: Store, w: Workout): (r: Store)
    ensures r.Some?
    ensures HasKey(GetWorkouts(store), WorkoutId, w.id) ==>
      |r.value| == |GetWorkouts(store)| &&
      exists i :: 0 <= i < |GetWorkouts(store)| && r.value == GetWorkouts(store)[i := w] &&
                  GetWorkouts(store)[i].id == w.id &&
                  forall j :: 0 <= j < i ==> GetWorkouts(store)[j].id != w.id
    ensures !HasKey(GetWorkouts(store), WorkoutId, w.id) ==> r.value == GetWorkouts(store) + [w]
    ensures GetWorkoutById(r, w.id) == Some(w)
    ensures DistinctKeys(GetWorkouts(store), WorkoutId) ==> DistinctKeys(r.value, WorkoutId)
  {
    Some(Upsert(GetWorkouts(store), WorkoutId, w))
  }

  /** Saving a workout twice leaves the store as saving it once. */
  lemma SaveWorkoutIdempotent(store: Store, w: Workout)
    ensures SaveWorkout(SaveWorkout(store, w), w) == SaveWorkout(store, w)
  {
    UpsertIdempotent(GetWorkouts(store), WorkoutId, w);
  }

  /** `deleteWorkout`: every workout with the id goes; the rest keep their
      order. */
  function DeleteWorkout(store: Store, id: string): (r: Store)
    ensures r.Some?
    ensures forall w :: w in r.value <==> w in GetWorkouts(store) && w.id != id
    ensures IsSubseq(r.value, GetWorkouts(store))
    ensures GetWorkoutById(r, id).None?
  {
    Some(RemoveKey(GetWorkouts(store), WorkoutId, id))
  }

  /** Deleting the only saved workout empties the store. */
  lemma DeleteOnlyWorkout(w: Workout)
    ensures GetWorkouts(DeleteWorkout(SaveWorkout(None, w), w.id)) == []
  {
  }

  /** Fresh ids for a copy: one per session and one per exercise entry, none
      reusing the original's. */
  predicate FreshIds(w: Workout, sessionIds: seq<string>, entryIds: seq<seq<string>>) {
    |sessionIds| == |w.sessions| && |entryIds| == |w.sessions| &&
    (forall i :: 0 <= i < |w.sessions| ==>
      sessionIds[i] != w.sessions[i].id && |entryIds[i]| == |w.sessions[i].exercises|) &&
    (forall i, k :: 0 <= i < |w.sessions| && 0 <= k < |w.sessions[i].exercises| ==>
      entryIds[i][k] != w.sessions[i].exercises[k].id)
  }

  function CopyEntries(es: seq<SessionExercise>, ids: seq<string>): (r: seq<SessionExercise>)
    requires |ids| == |es|
    ensures |r| == |es|
    ensures forall k :: 0 <= k < |r| ==> r[k] == es[k].(id := ids[k])
  {
    seq(|es|, k requires 0 <= k < |es| => es[k].(id := ids[k]))
  }

  function CopySession(s: Session, id: string, entryIds: seq<string>): (r: Session)
    requires |entryIds| == |s.exercises|
  {
    s.(id := id, exercises := CopyEntries(s.exercises, entryIds))
  }

  /** The copy `duplicateWorkout` builds. */
  function Duplicate(w: Workout, newId: string, now: string, sessionIds: seq<string>,
                     entryIds: seq<seq<string>>): (d: Workout)
    requires FreshIds(w, sessionIds, entryIds)
    ensures d.id == newId && d.name == w.name + " (Copy)"
    ensures d.createdAt == now && d.updatedAt == now
    ensures d.description == w.description && d.printConfig == w.printConfig && d.exercises == w.exercises
    ensures |d.sessions| == |w.sessions|
    ensures forall i :: 0 <= i < |d.sessions| ==>
      d.sessions[i].id != w.sessions[i].id &&
      d.sessions[i].name == w.sessions[i].name && d.sessions[i].notes == w.sessions[i].notes &&
      d.sessions[i].printConfigOverride == w.sessions[i].printConfigOverride &&
      |d.sessions[i].exercises| == |w.sessions[i].exercises|
    ensures forall i, k :: 0 <= i < |d.sessions| && 0 <= k < |d.sessions[i].exercises| ==>
      d.sessions[i].exercises[k].id != w.sessions[i].exercises[k].id &&
      d.sessions[i].exercises[k] == w.sessions[i].exercises[k].(id := d.sessions[i].exercises[k].id)
  {
    var sessions := seq(|w.sessions|, i requires 0 <= i < |w.sessions| =>
      CopySession(w.sessions[i], sessionIds[i], entryIds[i]));
    w.(id := newId, name := w.name + " (Copy)", createdAt := now, updatedAt := now, sessions := sessions)
  }

  /** `duplicateWorkout`: saves the copy and returns it. With an id the store
      does not hold yet, the store grows by exactly that copy. */
  function DuplicateWorkout(store: Store, w: Workout, newId: string, now: string,
                            sessionIds: seq<string>, entryIds: seq<seq<string>>): (r: (Workout, Store))
    requires FreshIds(w, sessionIds, entryIds)
    ensures r.0 == Duplicate(w, newId, now, sessionIds, entryIds)
    ensures !HasKey(GetWorkouts(store), WorkoutId, newId) ==>
      GetWorkouts(r.1) == GetWorkouts(store) + [r.0]
    ensures GetWorkoutById(r.1, newId) == Some(r.0)
  {
    var d := Duplicate(w, newId, now, sessionIds, entryIds);
    (d, SaveWorkout(store, d))
  }

  /** Saving a workout and duplicating it leaves two workouts, the copy with
      a different id. */
  lemma SaveThenDuplicate(w: Workout, newId: string, now: string, sessionIds: seq<string>,
                          entryIds: seq<seq<string>>)
    requires FreshIds(w, sessionIds, entryIds) && newId != w.id
    ensures var (d, s) := DuplicateWorkout(SaveWorkout(None, w), w, newId, now, sessionIds, entryIds);
      |GetWorkouts(s)| == 2 && d.id != w.id && d.name == w.name + " (Copy)"
  {
    var s1 := SaveWorkout(None, w);
    assert GetWorkouts(s1) == [w];
    assert !HasKey(GetWorkouts(s1), WorkoutId, newId);
  }
}

=== FILE: wrappers.dfy ===
/** The optional value used wherever the source has `undefined`, `null` or a
    failed lookup. */
module Wrappers {

  datatype Option<T> = None | Some(value: T) {

    /** The carried value, or `default` when there is none. */
    function GetOr(default: T): T {
      if Some? then value else default
    }
  }
}
